=== FILE: README.md ===
# College data pipeline and API rules, in Dafny

This project models the deterministic rule logic of a college-data
repository: the Python scripts that ingest cost-of-living data, normalise
student-club records, read the `.env` configuration, maintain the Teleport
fallback dataset, select release assets and render or export school and
location summaries, and the request rules of the FastAPI service
(`api/main.py`): Bearer authentication, the program search with its
proximity filter and ordering, the nearby-locations search and the profile
owner check.

Every effect is an input. HTTP responses, the SQLite rows a query returns,
file contents, the clock, `REGION_MAP`/`STATE_REGION_MAP`, JWT decoding,
great-circle distance, cosine, `round` and `mean` are parameters. Python's
values are a `PyValue.Value` tree (`None`, booleans, integers, reals, text,
lists, tuples, sets, dicts). An exception is the `Err` of a `Result`.

Modules follow the source files: `Config` (scripts/config.py), `PyValue`
(the value tree with scripts/clubs/utils.py), `ClubModels`,
`ClubConnectors`, `CostOfLiving`, `Catalog` (the Teleport href helpers
shared by three scripts), `TeleportFallback`, `AugmentStateCosts`,
`DownloadCache`, `LocationProfiles`, `SchoolsHtml`, `ExportSchoolNames`,
`Api`. Shared helpers are `Wrappers` (Option/Result), `Text` (Python string
methods on `seq<char>`), `Metrics` (the nine metric column names), `Regions`
(`REGION_MAP.get(id, "Unknown")`) and `Sorting` (Python's stable `sorted`
on the API's tuple keys).

## Model

| member | source | states |
|---|---|---|
| Config.ParseEnvLine | scripts/config.py:23-27 | a line is skipped exactly when it is blank after trimming, starts with `#`, or has no `=`; a kept key never contains `=` |
| Config.ParseAssignmentLine | scripts/config.py:26-27 | `key=value` splits at the first `=`: the key is the left part, the value (which may contain `=`) is the cleaned right part |
| Config.ParseEnvLineAssignment | scripts/config.py:23-28 | a trimmed `key=value` line, with or without surrounding double quotes on the value, reads back as exactly `(key, value)` |
| Config.CleanBareValue | scripts/config.py:27 | cleaning leaves a trimmed value that has no quote at either end unchanged |
| Config.CleanQuotedValue | scripts/config.py:27 | cleaning removes one pair of surrounding double quotes and nothing else |
| Config.StripQuotes | scripts/config.py:27 | stripping `"` removes exactly the surrounding quotes of a value that does not itself begin or end with one |
| Config.SplitLinesJoin | scripts/config.py:22 | splitting lines that were joined with `\n` gives the lines back (`splitlines` is the inverse of the join) |
| Config.Assignments | scripts/config.py:22-28 | every key of the file's mapping was assigned that value by some parsed line |
| Config.AssignmentsLastWins | scripts/config.py:28 | a key holds the value of the last line that assigns it |
| Config.ReadEnvFile | scripts/config.py:19-20 | a missing `.env` file gives no values |
| Config.GetEnvVar | scripts/config.py:33-54 | the environment wins (even an empty value); otherwise the file's value is returned and copied into the environment; otherwise the default, or `RuntimeError` exactly when required and absent from both |
| Config.GetEnvVarHydrates | scripts/config.py:41-46 | after a value is found, asking again with any default finds the same value and changes nothing |
| Config.GetEnvVarOthersUnchanged | scripts/config.py:41-46 | a lookup changes no environment variable other than the one asked for |
| PyValue.DotLookup | scripts/clubs/utils.py:11-12 | a `None` payload or path gives the default |
| PyValue.DotLookupSingleKey | scripts/clubs/utils.py:14-31 | a single-segment path naming a key with a non-`None` value returns exactly that value |
| PyValue.DotLookupMissingKey | scripts/clubs/utils.py:16-17 | a key missing from a mapping gives the default |
| PyValue.DotLookupIndex | scripts/clubs/utils.py:18-26 | on a list or tuple, the integer segment `i` selects element `i` when `0 <= i < len` and it is not `None`, and the default otherwise (negative indices included) |
| PyValue.DotLookupBadIndex | scripts/clubs/utils.py:19-22 | a segment that is not an integer gives the default on a list |
| PyValue.DotLookupScalar | scripts/clubs/utils.py:27-28 | stepping into a scalar, including text, gives the default |
| PyValue.DotLookupCompose | scripts/clubs/utils.py:14-31 | looking up `p.q` is looking up `q` in the result of looking up `p` |
| PyValue.EnsureList | scripts/clubs/utils.py:34-41 | `None` gives the empty list, a list, tuple or set gives its items in order, and any other value is wrapped as a one-element list |
| PyValue.EnsureListEmpty | scripts/clubs/utils.py:34-41 | the list is empty exactly for `None` or an empty list, tuple or set; any other non-collection becomes a one-element list |
| ClubModels.DefaultClubRecord | scripts/clubs/models.py:9-32 | a fresh record has an empty club name, no tags, and no size or virtual flag |
| ClubModels.ToRow | scripts/clubs/models.py:34-38 | succeeds exactly when every tag is text; every other field is copied (size and virtual flag as `None` or their value); club name and timestamp become text; `tags` is `None` exactly for no tags and otherwise text that splits on `,` back into comma-free tags |
| ClubModels.FromRow | scripts/clubs/models.py:34-38 | a row read back keeps the club name and timestamp the row holds as text |
| ClubModels.ToRowRoundTrip | scripts/clubs/models.py:34-38 | a record whose tags are comma-free text is read back whole from its row, so `to_row` loses nothing |
| ClubModels.TagsSplit | scripts/clubs/models.py:36 | comma-free tags joined with `,` split back into the same tags |
| ClubConnectors.Truncate | scripts/clubs/connectors.py:202 | `int(x)` truncates toward zero: the result is within one of `x` and no farther from zero |
| ClubConnectors.CoerceInt | scripts/clubs/connectors.py:198-204 | `None`, `""` and containers give `None`; booleans give 0 or 1; a float gives an integer less than one away from it; text `float()` rejects, and `nan`, give `None`; the only error is an uncaught `OverflowError`, from an integer or text |
| ClubConnectors.CoerceIntExact | scripts/clubs/connectors.py:202 | an integer of magnitude at most 2^53 coerces to itself |
| ClubConnectors.CoerceIntTie | scripts/clubs/connectors.py:202 | 2^53 + 1 coerces to 2^53, because `float` first rounds it half to even |
| ClubConnectors.CoerceIntOverflow | scripts/clubs/connectors.py:202-203 | an integer of 2^1024 or more raises `OverflowError`, which the `except` does not catch |
| ClubConnectors.CoerceIntRoundsUp | scripts/clubs/connectors.py:202 | `"0."` followed by 17 or more nines rounds to `1.0` and so coerces to 1, not 0 |
| ClubConnectors.CoerceIntSpecial | scripts/clubs/connectors.py:202-204 | `nan` in any case gives `None` (its `ValueError` is caught); `inf` and `infinity` raise `OverflowError` |
| ClubConnectors.CoerceIntText | scripts/clubs/connectors.py:198-204 | an integer literal of magnitude at most 2^53 coerces to that integer, since `float` holds it exactly |
| ClubConnectors.CoerceIntDropsFraction | scripts/clubs/connectors.py:202 | a decimal literal `n.ddd` with `n` below 2^52 and a fraction below 0.75 coerces to `n`; larger fractions can round up (see CoerceIntRoundsUp) |
| ClubConnectors.CoerceBool | scripts/clubs/connectors.py:207-218 | booleans and numbers give their truth value; text gives `True` exactly for trimmed, lower-cased `true`/`yes`/`1`, `False` exactly for `false`/`no`/`0`; anything else `None` |
| ClubConnectors.CoerceBoolText | scripts/clubs/connectors.py:207-215 | Python's `str` of a boolean coerces back to that boolean |
| ClubConnectors.KeepTags | scripts/clubs/connectors.py:46 | every kept tag is non-blank and trimmed |
| ClubConnectors.KeepTagsKeepsClean | scripts/clubs/connectors.py:46 | tags that are already non-blank and trimmed are all kept, in order |
| ClubConnectors.TagsRoundTrip | scripts/clubs/connectors.py:43-46 | splitting the comma-join of clean, comma-free tags gives them back |
| ClubConnectors.RowTagsParseBack | scripts/clubs/connectors.py:43-46 | the tags `to_row` writes are read back by the connector's split as the same tags |
| ClubConnectors.Words | scripts/clubs/connectors.py:45-46 | `split()` with no separator gives non-empty pieces containing no whitespace |
| ClubConnectors.WordsJoin | scripts/clubs/connectors.py:45-46 | splitting the space-join of non-empty, whitespace-free words gives the words back |
| ClubConnectors.RunsJoin | scripts/clubs/connectors.py:45-46 | the maximal separator-free runs of items joined by one separator are those items |
| ClubConnectors.RecordTags | scripts/clubs/connectors.py:43-48 | a non-text value goes through `ensure_list`; text is split on the source's `tags_separator` (default `,`) keeping the trimmed, non-blank pieces, or on whitespace for a `None` separator; an empty separator raises `ValueError` and a non-text one `TypeError` |
| ClubConnectors.FieldValues | scripts/clubs/connectors.py:29-37 | fails with `AttributeError` exactly when `field_map` is not a dict, or the payload is not `None` and some entry is neither a path (text or `None`) nor a list of paths; otherwise the keys are exactly the field map's and each value is the lookup of its path, a list of lookups for a list of paths |
| ClubConnectors.FieldValuesNullPayload | scripts/clubs/connectors.py:32-37 | a `None` payload never fails and gives `None` for every field, or a list of `None`s for a list of paths |
| ClubConnectors.FieldValuesNameOnly | scripts/clubs/connectors.py:32-37 | a field map with one plain path gives that path's lookup under its field name |
| ClubConnectors.FieldValuesSingle | scripts/clubs/connectors.py:29-37 | a field map of one field yields exactly that field, holding the payload's value under its path |
| ClubConnectors.RecordFromFields | scripts/clubs/connectors.py:39-67 | no record exactly for a blank text club name; a non-text name raises `AttributeError`; then the tag error, a missing `school_name` (`KeyError`) and the size's `OverflowError` in that order; a record exactly when none applies, holding the trimmed name, the school metadata, every looked-up field, the parsed tags, the coerced size and virtual flag, and the source's name and type |
| ClubConnectors.BuildRecordSkipsBlankName | scripts/clubs/connectors.py:39-41 | a missing, falsy or blank club name gives no record |
| ClubConnectors.BuildRecord | scripts/clubs/connectors.py:28-69 | a field-map error is an `AttributeError`; otherwise the record built from the looked-up fields, whose club name is the trimmed text found under the `club_name` path |
| ClubConnectors.BuildRecordNameOnly | scripts/clubs/connectors.py:28-69 | with only a club-name mapping, the record exists exactly when the name is not blank, and then carries the trimmed name and defaults elsewhere |
| ClubConnectors.RecordFromNameOnly | scripts/clubs/connectors.py:39-67 | fields holding only a club name give a record of the stripped name with no tags, size or virtual flag, or none for a blank name |
| ClubConnectors.CollectRecords | scripts/clubs/connectors.py:81-87 | a build that skips payloads never gives more records than payloads |
| ClubConnectors.CollectRecordsBuilt | scripts/clubs/connectors.py:81-87 | every collected record is the record some payload was built into |
| ClubConnectors.CollectRecordsAppend | scripts/clubs/connectors.py:83-86 | the records of two runs of payloads are the records of each, in payload order |
| ClubConnectors.CollectRecordsFirstError | scripts/clubs/connectors.py:81-87 | the first payload whose build raises ends the fetch with that error |
| ClubConnectors.BuildRecords | scripts/clubs/connectors.py:83-86 | every record has a club name and the ingestion timestamp |
| ClubConnectors.ExtractItems | scripts/clubs/connectors.py:146-154 | fails exactly for a truthy non-text data path on a non-`None` payload; a `None` payload yields nothing, a list its items, a dict itself and a scalar nothing, after the data path is looked up |
| ClubConnectors.ExtractItemsCompose | scripts/clubs/connectors.py:146-148 | the items under `p.q` are the items under `q` of what `p` looks up |
| ClubConnectors.OffsetCrawl | scripts/clubs/connectors.py:103-120 | each batch is what its request fetched, a failing request ends the crawl with its error, and the crawl ends at the first empty batch; every request carries the page size and request `k` the offset `start + k * page_size` |
| ClubConnectors.OffsetCrawlOffsets | scripts/clubs/connectors.py:107-120 | request `k` carries offset `start + k * page_size` |
| ClubConnectors.OffsetsFromValue | scripts/clubs/connectors.py:110-120 | offsets that advance by the page size from `start` put `start + k * page_size` in request `k` |
| ClubConnectors.PageCrawl | scripts/clubs/connectors.py:122-142 | each batch is what its request fetched and a failing request ends the crawl with its error; the crawl ends at the first empty batch or once the page number passes a truthy `stop_after_pages`, which also bounds the number of requests; every request carries the page size and request `k` asks for page `start + k` |
| ClubConnectors.IteratePayloads | scripts/clubs/connectors.py:89-144 | every batch is what its request fetched; without pagination one request with the source's params; an unknown mode raises `ValueError`; a source without `url` yields nothing and fails |
| ClubConnectors.BuildConnector | scripts/clubs/connectors.py:186-195 | the source type selects the JSON API, CSV or static connector; any other type raises `TypeError` when it cannot be hashed (a list, dict, set or a tuple holding one) and `ValueError` otherwise |
| ClubConnectors.StaticFetch | scripts/clubs/connectors.py:177-183 | a static source without `records` yields nothing; with a list or tuple of records, the result is those records built payload by payload in order, or the first build error |
| ClubConnectors.CsvFetch | scripts/clubs/connectors.py:157-172 | a source without `path` raises `KeyError`; a missing CSV file raises `FileNotFoundError`; otherwise the result is the rows built as records in order, or the first build error |
| ClubConnectors.JsonApiFetch | scripts/clubs/connectors.py:81-87 | the records built from every fetched payload, in order; a build error wins over a later fetch error, and the fetch succeeds exactly when both the crawl and every build do |
| ClubConnectors.JsonApiFetchFirstBuildError | scripts/clubs/connectors.py:81-87 | the first payload that fails to build decides the error, whatever the crawl does afterwards |
| ClubConnectors.FetchClubs | scripts/clubs/connectors.py:186-195 | an unknown source type raises `ValueError`, or `TypeError` when the type cannot be hashed; every record returned has a club name |
| CostOfLiving.KeepNameChars | scripts/cost_of_living.py:34 | only `a-z0-9` survive |
| CostOfLiving.NormalizeName | scripts/cost_of_living.py:33-34 | the result contains only `a-z0-9` |
| CostOfLiving.NormalizeNameIdempotent | scripts/cost_of_living.py:33-34 | normalising twice is normalising once |
| CostOfLiving.KeepAllNameChars | scripts/cost_of_living.py:34 | text of `a-z0-9` only is kept whole |
| CostOfLiving.LowerNameChars | scripts/cost_of_living.py:34 | lower-casing leaves `a-z0-9` text unchanged |
| CostOfLiving.ToMap | scripts/cost_of_living.py:62-283 | the dict literals' tables: every listed key is present and every entry comes from the listing |
| CostOfLiving.FirstAllowed | scripts/cost_of_living.py:286-292 | the first slug in list order allowed for the state (no state, or no or an empty primary-state set, allows all), or none when none is |
| CostOfLiving.ResolveSlug | scripts/cost_of_living.py:295-328 | a resolved slug is a manual override, a catalog slug or a state default, and is allowed for the state unless it is that state's default |
| CostOfLiving.ResolveSlugOverrideFirst | scripts/cost_of_living.py:299-301 | an allowed manual override for the city wins over every other rule |
| CostOfLiving.ResolveSlugWashington | scripts/cost_of_living.py:303-306 | "Washington" outside DC resolves to that state's default when no override applies |
| CostOfLiving.ResolveSlugComboOverride | scripts/cost_of_living.py:308-311 | when neither earlier rule applies, an allowed override for `city-STATE` wins |
| CostOfLiving.ResolveSlugCityCatalog | scripts/cost_of_living.py:313-316 | when no override or Washington rule applies, the city's first allowed catalog slug wins |
| CostOfLiving.ResolveSlugComboCatalog | scripts/cost_of_living.py:318-323 | when the city's catalog entry gives nothing, the first allowed slug listed under `city-STATE` wins |
| CostOfLiving.ResolveSlugStateDefault | scripts/cost_of_living.py:324-328 | when every earlier rule gives nothing, the state's default, or none when it has none |
| CostOfLiving.ResolveSlugWithoutState | scripts/cost_of_living.py:295-328 | without a state, the result is the override, else the city's first catalog slug, else none |
| CostOfLiving.ResolveSlugTotalForKnownStates | scripts/cost_of_living.py:318-326 | a state with a non-empty default always resolves to some slug |
| CostOfLiving.BuildCatalogSlugs | scripts/cost_of_living.py:48-57 | each normalised name maps to all its non-empty href slugs in item order, and only names with such a slug appear |
| CostOfLiving.ItemValue | scripts/cost_of_living.py:337-341 | the first truthy value among currency, float and int (the int value when neither is) |
| CostOfLiving.FindItem | scripts/cost_of_living.py:335-336 | the first item from a position whose label matches, or none |
| CostOfLiving.FindMetric | scripts/cost_of_living.py:332-336 | the first matching item within the first matching categories, or none when no category holds one |
| CostOfLiving.ExtractMetric | scripts/cost_of_living.py:331-342 | `None` when nothing matches; otherwise the value of the first matching item in the first category that holds one |
| CostOfLiving.FirstMatchUnique | scripts/cost_of_living.py:331-342 | the first match is unique, so the extracted value is well defined |
| CostOfLiving.TeleportMetrics | scripts/cost_of_living.py:360-372 | the nine metric keys, each extracted from "Cost of Living" under its label |
| CostOfLiving.LoadFallbackMetric | scripts/cost_of_living.py:378-386 | none for a missing file, slug or empty entry; otherwise exactly the non-underscore keys of the entry, each with its value, and `_source` (default `fallback`) as the source |
| CostOfLiving.UpsertMetric | scripts/cost_of_living.py:444-499 | keyed on `(city, state)`: slug, metrics, source and timestamp overwritten, coordinates kept when the new ones are null, other rows unchanged |
| CostOfLiving.UpsertMetricIdempotent | scripts/cost_of_living.py:456-479 | upserting the same row twice is upserting it once |
| CostOfLiving.Ingest | scripts/cost_of_living.py:511-533 | `updated` is the number of cities whose slug resolves to non-empty text and whose metrics are found, the rest are missing; no row is removed, a new row is such a city's, a row no such city keys is unchanged, and each key holds the slug, source and timestamp of the last such city under it |
| CostOfLiving.SlugAllowedRestricted | scripts/cost_of_living.py:286-292 | without a state, or for a slug with no or an empty primary-state set, every slug is allowed; otherwise a slug is allowed exactly for its listed states |
| CostOfLiving.SlugAllowedCaseSensitive | scripts/cost_of_living.py:286-292 | the state is compared as given: `wa` is refused where only `WA` is listed |
| Catalog.SlugTitle | scripts/update_teleport_fallback.py:114 | hyphens become spaces and letters change only in case |
| Catalog.RStripHref | scripts/update_teleport_fallback.py:106 | trailing `/` removal on a built href removes just the final slash |
| Catalog.PrefixHasNoSlugMarker | scripts/update_teleport_fallback.py:106 | the first `slug:` in a built href is the one before the slug |
| Catalog.HrefSlugNoTrailingSlash | scripts/update_teleport_fallback.py:106 | a slug read back from an href never ends in `/` |
| Catalog.SlashSlugNeverListed | scripts/update_teleport_fallback.py:105-109 | a slug ending in `/` is not among the slugs read back from any catalog |
| Catalog.HrefSlugRoundTrip | scripts/update_teleport_fallback.py:20 | the slug read back from the href built for a slug is that slug |
| TeleportFallback.LoadFallback | scripts/update_teleport_fallback.py:40-44 | a missing file gives an empty catalog and empty metrics; an existing one is read as it is |
| TeleportFallback.SlugsOfAppend | scripts/update_teleport_fallback.py:80-85 | the slugs of records grow by the appended record's slug |
| TeleportFallback.RowSlugsAppend | scripts/update_teleport_fallback.py:81-84 | the non-empty slugs of rows grow by the last row's slug when it is not empty |
| TeleportFallback.LatestRecords | scripts/update_teleport_fallback.py:80-100 | one record per distinct non-empty slug, each taken from the rows, covering exactly the rows' non-empty slugs |
| TeleportFallback.LatestRecordsFirst | scripts/update_teleport_fallback.py:81-85 | the first (newest) row of each slug is the one kept |
| TeleportFallback.CatalogName | scripts/update_teleport_fallback.py:114 | the record's city, or the title-cased slug with hyphens as spaces when the city is empty |
| TeleportFallback.NewEntries | scripts/update_teleport_fallback.py:111-117 | at most one entry per record, and none when every slug is already present |
| TeleportFallback.NewEntriesFromRecords | scripts/update_teleport_fallback.py:111-117 | each new entry is the catalog entry of a record whose slug was not yet present |
| TeleportFallback.EntryOfUnseenCons | scripts/update_teleport_fallback.py:111-116 | an entry for an unseen slug of the later records is one for the whole list |
| TeleportFallback.EnsureCatalogEntries | scripts/update_teleport_fallback.py:103-118 | entries are only appended, the count is the number appended, and nothing is appended when every slug is present |
| TeleportFallback.EnsureCatalogEntriesAppends | scripts/update_teleport_fallback.py:110-117 | every appended entry belongs to a record whose slug the catalog lacked |
| TeleportFallback.ExistingSlugsAppend | scripts/update_teleport_fallback.py:105-109 | appending entries never loses a listed slug |
| TeleportFallback.NewEntriesCover | scripts/update_teleport_fallback.py:111-116 | each record's slug is already seen or listed by the new entries |
| TeleportFallback.EnsureCatalogEntriesCovers | scripts/update_teleport_fallback.py:103-118 | afterwards every record slug that reads back from its href has a catalog entry |
| TeleportFallback.EnsureCatalogEntriesReappends | scripts/update_teleport_fallback.py:105-118 | a record slug ending in `/` is never found among the listed slugs, so every call, a repeated one included, appends at least one entry |
| TeleportFallback.EnsureCatalogEntriesIdempotent | scripts/update_teleport_fallback.py:103-118 | when every record slug reads back from its href, a second call with the same records appends nothing and returns 0 |
| TeleportFallback.MetricDict | scripts/update_teleport_fallback.py:124-134 | exactly the nine metric keys, each holding the record's field |
| TeleportFallback.Upsert | scripts/update_teleport_fallback.py:121-134 | the merged map holds each pair's value under its key, keeps every other key's value and removes no key |
| TeleportFallback.SlugDicts | scripts/update_teleport_fallback.py:124-134 | one pair per record, in order, holding its slug and metric dictionary, with distinct keys covering exactly the records' slugs |
| TeleportFallback.UpdateMetrics | scripts/update_teleport_fallback.py:121-134 | each record's slug holds its metric dict; other slugs are unchanged; no slug is removed |
| TeleportFallback.MetricKeysPublic | scripts/update_teleport_fallback.py:124-134 | no metric key starts with `_` |
| TeleportFallback.LoadPublicEntry | scripts/cost_of_living.py:378-386 | an entry without underscore keys loads back whole with the `fallback` source |
| TeleportFallback.UpdatedMetricsLoadBack | scripts/update_teleport_fallback.py:121-134 | what the exporter writes for a slug is what the ingestion's fallback loader reads back for it |
| TeleportFallback.Export | scripts/update_teleport_fallback.py:137-143 | the metrics gain exactly the latest records' slugs and the catalog grows by the reported count |
| AugmentStateCosts.RegionOf | scripts/augment_state_costs.py:68-70 | a state's region only when it is mapped to a truthy id |
| AugmentStateCosts.KeyContributions | scripts/augment_state_costs.py:71-74 | one value per metric key whose value is present and not `None`, for the given region |
| AugmentStateCosts.Pairs | scripts/augment_state_costs.py:63-67 | each visited pair is a slug with one of its listed states |
| AugmentStateCosts.Bucket | scripts/augment_state_costs.py:62-74 | a region's bucket for a key is non-empty exactly when something was collected for both |
| AugmentStateCosts.BucketAppend | scripts/augment_state_costs.py:74 | buckets only grow by appending, in loop order |
| AugmentStateCosts.KeyBucket | scripts/augment_state_costs.py:71-74 | a pair adds a metric's value once when it is present and not `None`, and nothing otherwise |
| AugmentStateCosts.ContributionsStep | scripts/augment_state_costs.py:63-74 | a pair adds at most one value per bucket, only for a slug with data and a state with a region, so a slug under several states counts once per state |
| AugmentStateCosts.ContributionsAppend | scripts/augment_state_costs.py:63-74 | the values of two runs of pairs are those of each, in order |
| AugmentStateCosts.BucketRegionValues | scripts/augment_state_costs.py:62-74 | a region's bucket for a key holds, in pair order, the value of each pair whose slug has data, whose state is in that region and whose value is present and not `None` |
| AugmentStateCosts.RegionAverages | scripts/augment_state_costs.py:62-81 | a region and key appear exactly when some pair contributes a value, holding the average of exactly those values; no region is left empty |
| AugmentStateCosts.RegionEntry | scripts/augment_state_costs.py:78-80 | a key appears exactly when its bucket is non-empty, holding that bucket's average |
| AugmentStateCosts.Averages | scripts/augment_state_costs.py:76-81 | a region appears exactly when something was collected for it; within it, a key appears exactly when its bucket is non-empty |
| AugmentStateCosts.EnsureCatalogEntry | scripts/augment_state_costs.py:84-92 | at most one entry is appended, none when the slug is already listed, and it names the slug's href |
| AugmentStateCosts.EnsureCatalogEntryIdempotent | scripts/augment_state_costs.py:84-92 | a slug that reads back from its href is listed afterwards, so a second call appends nothing |
| AugmentStateCosts.EnsureCatalogEntryReappends | scripts/augment_state_costs.py:85-92 | a slug ending in `/` is never found among the listed slugs, so every call appends it again |
| AugmentStateCosts.EnsureCatalogEntryLists | scripts/augment_state_costs.py:84-92 | a slug that reads back from its href is listed after the call |
| AugmentStateCosts.DisplayName | scripts/augment_state_costs.py:110 | the listed display name, or the title-cased slug when none is listed |
| AugmentStateCosts.BackfillStep | scripts/augment_state_costs.py:104-112 | a state without a region, without averages, or whose slug exists changes nothing; otherwise the slug gets its region's averages, `added` goes up by one, no existing metric changes, and the catalog gains the slug's named entry exactly when it was not listed |
| AugmentStateCosts.BackfillStepGrows | scripts/augment_state_costs.py:104-112 | one iteration keeps every existing metric, adds a slug exactly when it counts one, and appends at most that many catalog entries |
| AugmentStateCosts.Backfill | scripts/augment_state_costs.py:103-112 | existing metrics are never overwritten, each new slug is some state's default holding its region's averages, `added` counts the new slugs, and the catalog only grows (the appended entries are stated by BackfillNames and BackfillLists) |
| AugmentStateCosts.BackfillNewSlugs | scripts/augment_state_costs.py:103-109 | a slug new after the loop was filled by one of its iterations |
| AugmentStateCosts.BackfillCovers | scripts/augment_state_costs.py:103-108 | every default slug whose state has a region with averages has an entry afterwards, whether it was filled in or already there |
| AugmentStateCosts.BackfillSkips | scripts/augment_state_costs.py:106-108 | states without a region or without regional averages change nothing |
| AugmentStateCosts.BackfillLists | scripts/augment_state_costs.py:103-112 | every slug added by the loop that reads back from its href is listed in the catalog afterwards |
| AugmentStateCosts.BackfillNames | scripts/augment_state_costs.py:103-112 | every catalog entry the loop appends names an added slug, with its display name and href |
| AugmentStateCosts.NamedFromStep | scripts/augment_state_costs.py:109-112 | an iteration that appends at most its own slug's entry keeps every appended entry naming an added slug |
| AugmentStateCosts.Augment | scripts/augment_state_costs.py:95-112 | a missing file is an error; otherwise metrics and catalog only grow, the count is the number of slugs added, and every default slug whose state's region has averages has an entry |
| DownloadCache.Filter | scripts/download_cache.py:47-50 | only wanted assets from the release are kept; an asset without a usable name is an error |
| DownloadCache.FilterCounts | scripts/download_cache.py:48-50 | every wanted asset is kept as many times as the release lists it, and no other is |
| DownloadCache.FilterAppend | scripts/download_cache.py:48-50 | the selection keeps release order |
| DownloadCache.FoundNames | scripts/download_cache.py:51 | the names found are the wanted names the release carries |
| DownloadCache.SelectAssets | scripts/download_cache.py:45-54 | succeeds exactly when every wanted name is carried; otherwise the error lists exactly the missing names |
| DownloadCache.NoAssets | scripts/download_cache.py:48-53 | a release without `assets` fails any non-empty request, listing every wanted name |
| Regions.RegionName | scripts/generate_location_profiles.py:105 | the region's name when its id is mapped, `"Unknown"` otherwise |
| LocationProfiles.RoundValue | scripts/generate_location_profiles.py:163-166 | `None` stays `None`, a number becomes the rounded float, a container is an error |
| LocationProfiles.RoundAll | scripts/generate_location_profiles.py:108-112 | every average is rounded in place, failing exactly when one cannot be |
| LocationProfiles.BuildRecord | scripts/generate_location_profiles.py:89-139 | a row of the wrong width fails; otherwise state, city (city dimension only), region id and counts are copied, the region is named, and the five averages are rounded |
| LocationProfiles.NormalizeRecords | scripts/generate_location_profiles.py:74-86 | exactly one record per row, in row order, or an error when some row fails |
| LocationProfiles.MapAll | scripts/generate_location_profiles.py:74-86 | a loop that stops at the first error succeeds exactly when every item does, giving one result per item in order |
| LocationProfiles.NormalizeRowBuilds | scripts/generate_location_profiles.py:76-81 | unpacking the first two columns fails only on rows that building the record rejects anyway |
| LocationProfiles.JsonPayload | scripts/generate_location_profiles.py:142-148 | the record count is the number of records listed |
| SchoolsHtml.Escape | scripts/generate_schools_html.py:130-132 | escaped text contains no markup character |
| SchoolsHtml.EscapeRoundTrip | scripts/generate_schools_html.py:130-132 | unescaping escaped text gives it back, so escaping loses nothing |
| SchoolsHtml.UnescapeStep | scripts/generate_schools_html.py:130-132 | each escaped character unescapes to itself |
| SchoolsHtml.Pad3 | scripts/generate_schools_html.py:152 | a group below the leading one is exactly three digits |
| SchoolsHtml.Group | scripts/generate_schools_html.py:152 | grouped digits contain only digits and commas and do not start with a comma |
| SchoolsHtml.GroupValue | scripts/generate_schools_html.py:152 | dropping the thousands separators gives back the number's digits |
| SchoolsHtml.NatToStringThousands | scripts/generate_schools_html.py:152 | the digits of `q * 1000 + m` are those of `q` followed by `m` padded to three |
| SchoolsHtml.GroupDigits | scripts/generate_schools_html.py:152 | removing the commas of the grouped text gives exactly the number's decimal digits |
| SchoolsHtml.GroupedAppend | scripts/generate_schools_html.py:152 | a grouped text followed by a comma and three digits is grouped |
| SchoolsHtml.GroupShape | scripts/generate_schools_html.py:152 | grouped text is one to three leading digits followed by `,ddd` groups |
| SchoolsHtml.GroupThousandsText | scripts/generate_schools_html.py:152 | removing the commas of a formatted integer gives Python's `str` of it |
| SchoolsHtml.GroupThousandsShape | scripts/generate_schools_html.py:152 | a formatted integer is a `-` for a negative one followed by grouped digits |
| SchoolsHtml.FormatMoney | scripts/generate_schools_html.py:149-152 | `—` exactly for a missing value; otherwise the rounded integer with a sign for negatives and digits grouped in threes by commas, whose comma-free text is that integer's decimal text; never a markup character |
| SchoolsHtml.NameText | scripts/generate_schools_html.py:130 | a missing or empty name renders as `Unknown` |
| SchoolsHtml.LocationBoth | scripts/generate_schools_html.py:131 | a city and state render as `city, state` |
| SchoolsHtml.ProgramsText | scripts/generate_schools_html.py:133 | a missing or zero program count renders as `0`; any other count renders as its decimal text, which reads back as the count |
| SchoolsHtml.RenderHtml | scripts/generate_schools_html.py:52-146 | the fixed head, then the rows, then the footer; the body holds exactly one row's worth of tags per input row |
| SchoolsHtml.RowTagCount | scripts/generate_schools_html.py:128-138 | a rendered row has a fixed number of tags whatever its data, since escaping removes `<` |
| SchoolsHtml.RowsTags | scripts/generate_schools_html.py:114-139 | the body has the tags of one row per input row |
| SchoolsHtml.RenderRowsAppend | scripts/generate_schools_html.py:114-146 | the body renders rows in input order |
| ExportSchoolNames.FetchSchoolRecords | scripts/export_school_names.py:49-61 | one record per row, in order, with name, city, state and region id copied and the region named |
| ExportSchoolNames.LocationText | scripts/export_school_names.py:82 | the non-empty city and state joined with `, ` |
| ExportSchoolNames.PrintNames | scripts/export_school_names.py:79-86 | the total first, then the first `limit` records in order, then a closing line counting the rest exactly when there are more than `limit` |
| ExportSchoolNames.ChooseOutcome | scripts/export_school_names.py:104-113 | `--format` without `--output` is an error; with both the records are exported; without `--format` they are previewed |
| Api.BearerToken | api/main.py:77-79 | a header starting case-insensitively with `bearer ` yields the text after its first space |
| Api.RequireAuth | api/main.py:74-87 | 500 exactly when the secret is unset; 401 for a missing or non-Bearer header, an undecodable token or a falsy subject; a text subject with a text or missing email succeeds with those claims, any other truthy subject or email is a 500 validation error; on success the user id is the non-empty `sub` claim and the email is the claim when present |
| Api.ValidateProgramQuery | api/main.py:200-219 | 422 exactly when a parameter is out of its declared bounds; then 400 exactly when one coordinate is missing or a radius lacks coordinates |
| Api.Radius | api/main.py:245 | the given radius, or 100 miles when none (or zero) is given |
| Api.Filter | api/main.py:229-243 | a present filter adds one fragment and one parameter, an absent one nothing |
| Api.NearClause | api/main.py:244-251 | with both coordinates, the latitude and longitude BETWEEN box; balanced either way |
| Api.Filters | api/main.py:229-251 | the joined filters still take one parameter per placeholder |
| Api.Join | api/main.py:229-251 | appending one filter to another keeps placeholders and parameters matched, the parameters in order |
| Api.BuildProgramQuery | api/main.py:221-254 | the query has exactly as many `?` as parameters, starts with the selection, and the limit is the last parameter |
| Api.Select | api/main.py:221-254 | wrapping the filters in the selection and the `ORDER BY … LIMIT ?` tail adds exactly the limit parameter, at the end |
| Api.ProgramQueryBoxParams | api/main.py:244-254 | with a search point, the four bounding-box bounds are the parameters just before the limit |
| Api.ProgramQueryCipParam | api/main.py:229-231 | the CIP parameter is the prefix plus `%` and comes first |
| Api.ProgramQueryStateParam | api/main.py:238-240 | the state parameter is the state upper-cased |
| Api.BoxContainsCentre | api/main.py:245-251 | the search box strictly contains its centre |
| Api.ProximityFilter | api/main.py:259-269 | every kept row is a within-radius input row annotated with its rounded distance, and every within-radius row is kept |
| Api.ProximityFilterAppend | api/main.py:262-269 | the filter keeps row order |
| Sorting.Insert | api/main.py:270-277 | inserting into a sorted list keeps it sorted and adds exactly the element |
| Sorting.Sort | api/main.py:270-277 | the result is a sorted permutation of the input |
| Sorting.InsertClass | api/main.py:270-277 | insertion puts an element after those with an equal key |
| Sorting.SortStable | api/main.py:270-277 | elements with equal keys keep their input order |
| Api.ProgramResults | api/main.py:259-277 | without proximity the rows are returned as queried; with it, the kept rows stably sorted by distance, then non-null score first, then higher score |
| Api.ProgramResultsWithin | api/main.py:259-269 | every result is a within-radius input row |
| Api.ListPrograms | api/main.py:200-279 | the validation error, or the results of the built query with `count` equal to their number |
| Api.NearbyLocations | api/main.py:435-476 | 422 exactly for out-of-bounds parameters; otherwise at most `limit` within-radius rows sorted by distance, as many as there are up to `limit`, with `count` equal to their number |
| Api.NearbyNearest | api/main.py:466-476 | a within-radius row left out is at least as far as every returned row |
| Api.EnsureProfileOwner | api/main.py:589-594 | 404 exactly for a missing profile; success exactly when the owner is set, non-empty and equal to the caller; otherwise 403 |

Helpers that model a single source expression have no row of their own;
the rows of the members that use them state what they compute:
`Catalog.HrefSlug` and `Catalog.TeleportHref` (HrefSlugRoundTrip,
EnsureCatalogEntry), `CostOfLiving.BuildCatalog` (BuildCatalogSlugs),
`CostOfLiving.SlugAllowedForState` (SlugAllowedRestricted, FirstAllowed),
`SchoolsHtml.RenderRow` and `SchoolsHtml.LocationText` (RenderHtml,
RowTagCount, LocationBoth), `ExportSchoolNames.ToRecord`
(FetchSchoolRecords), `ExportSchoolNames.RecordLine` (PrintNames), and
`Api.TokenOf` and `Api.IsBearer` (BearerToken, RequireAuth).

## Left out

- Network access, SQLite, file reads and writes, FastAPI routing and
  dependency injection, logging and `lru_cache` caching. Responses, query
  results and file contents are inputs, and results are returned rather than
  written.
- Great-circle distance, cosine, `round`, `mean` and JWT signature checking
  are function parameters, not interpreted. The model cannot state numeric
  facts about distances beyond what the code compares.
- Timestamps (`datetime.now`, `isoformat`) are opaque text.
- Python text case mapping is modelled for ASCII only (`lower`, `upper`,
  `title`). `int(text)` and `float(text)` accept ASCII digits, signs,
  single underscores between digits, exponents, `inf` and `nan`; the other
  Unicode decimal digits and whitespace Python also accepts are not
  modelled.
- ClubConnectors.CoerceInt: a `Float` value is a real number taken to be
  a binary64 value already. It is stated to be within one of the result, and
  the exact truncation is stated by `Truncate`. NaN, infinite and
  out-of-range `Float` values are not representable in the value tree.
  Integers and text are rounded to binary64 exactly as `float()` does.
- ClubConnectors.OffsetCrawl and ClubConnectors.PageCrawl take a fuel
  bound, because the source loops until the server stops sending data. Running
  out of fuel is an error that exists only in the model.
- ClubConnectors.IteratePayloads: page settings of an unexpected type
  (text page size in offset mode, and so on) are errors in the model. Python
  would fail later or concatenate. A `params` value that is not a dictionary
  is a `TypeError` in the model; Python's `dict()` accepts a list or tuple
  of key/value pairs there and raises `ValueError` for text.
- ClubConnectors.StaticFetch: `records` given as a dict or text is not
  modelled. Only a list of payloads is.
- ClubConnectors.CsvFetch: CSV parsing is not modelled. The rows are given
  as dictionaries.
- ClubConnectors.JsonApiFetch: Python's generator stops requesting pages
  when a payload fails to build. The model crawls first and then builds, so
  it states the same records and the same first error, but not which
  requests were sent after that error.
- Api.RequireAuth: a `sub` or `email` claim of the wrong type is a 500
  validation error in the model. Pydantic's coercion of numbers to text is
  not modelled.
- Api.ValidateProgramQuery: FastAPI's 422 body, which lists the offending
  parameters, is a single fixed error.
- Api.BuildProgramQuery: the column list of the `SELECT` is not modelled.
  The SQL text is kept as fixed fragments and placeholders. Ordering and
  `LIMIT` are the database's job, so the rows come from the `execute`
  parameter.
- Api.NearbyLocations: the `WHERE latitude IS NOT NULL` query is given as
  the input rows. The result is stated as a sorted sub-multiset of the
  filtered rows of the right length, together with Api.NearbyNearest. It is
  not stated as the exact prefix of the stable sort.
- Sorting: NaN and infinite distances are not modelled. A missing
  distance sorts last, like `float("inf")`.
- Regions.RegionName: region ids that are floats or booleans equal to an
  integer key are treated as unknown.
- SchoolsHtml.FormatMoney: the value is rounded by a parameter
  (`round0`). Negative zero formatting (`-0`) is not modelled.
- SchoolsHtml.RenderHtml: the result is stated through the head, the rows
  and the footer, and through the tag count of the body. The CSS text is
  kept as a constant.
- LocationProfiles.RoundValue: averages that are text (SQLite can average
  text columns) are an error in the model.
- ExportSchoolNames.FetchSchoolRecords: the query's rows arrive typed. The
  CSV and JSON writers, `export_csv` and `export_json`, are not modelled.
- AugmentStateCosts.RegionAverages: the order in which Python iterates the
  primary-state sets is not modelled. The table is given as ordered pairs.
- TeleportFallback.EnsureCatalogEntries and AugmentStateCosts.EnsureCatalogEntry:
  catalog items that are not dictionaries are not modelled.
- TeleportFallback.EnsureCatalogEntriesIdempotent, TeleportFallback.EnsureCatalogEntriesCovers
  and AugmentStateCosts.EnsureCatalogEntryIdempotent hold only for slugs that
  read back from their href (no `slug:` inside, no trailing `/`). The scripts
  do not check this: a slug such as `a/` is appended again on every run
  (EnsureCatalogEntriesReappends, EnsureCatalogEntryReappends).
- `generate_location_profiles.write_csv`, and the argument parsers of the
  scripts, are not modelled beyond the `--format`/`--output` check.
- scripts/etl_college_data.py, scripts/fetch_college_scorecard.py,
  scripts/program_decision_engine.py and scripts/ingest_club_data.py are
  not part of this model. They are network fetching, pandas scoring and
  orchestration around the modelled connectors.
- The `constants` module (`REGION_MAP`, `STATE_REGION_MAP`) is not part of
  this model. Its maps are parameters.

=== FILE: api.dfy ===
/** `api/main.py`: the request rules of the FastAPI service. These are
    Bearer-token authentication, the program search (parameter checks,
    query construction and the proximity filter and sort), the nearby
    locations search and the profile owner check. The database becomes
    parameters: the program query's rows are a function of the built query
    and parameters, and the location rows and profile owners are inputs.
    `haversine_distance` (on present coordinates), `cos(radians(x))`,
    `round(x, 2)` and `jwt.decode` are uninterpreted function parameters. */
module Api {
  import opened Wrappers
  import opened Text
  import opened PyValue
  import opened Sorting

  /** An `HTTPException`: status code and detail. */
  datatype HttpError = HttpError(status: int, detail: string)

  /** FastAPI's answer when a query parameter breaks its declared bounds. */
  const Unprocessable := HttpError(422, "Unprocessable Entity")

  /** A JSON list response: `{"count": ..., "results": ...}`. */
  datatype Response = Response(count: int, results: seq<Row>)

  // ---------------------------------------------------------------------------
  // require_auth

  /** The authenticated caller. */
  datatype AuthContext = AuthContext(userId: string, email: Option<string>)

  const BearerPrefix := "bearer "

  /** `authorization.split(" ", 1)[1]`: the text after the first space. */
  function TokenOf(authorization: string): Option<string> {
    match IndexOf(authorization, " ")
    case None => None
    case Some(i) => Some(authorization[i + 1..])
  }

  /** The header carries a Bearer token: it starts with `bearer `, ignoring
      case (the scheme of section 2.1 of RFC 6750). */
  predicate IsBearer(authorization: Option<string>) {
    authorization.Some? && authorization.value != "" && StartsWith(Lower(authorization.value), BearerPrefix)
  }

  /** A header accepted as Bearer has its first space right after the
      scheme, so its token is everything after `bearer `. */
  lemma BearerToken(authorization: string)
    requires StartsWith(Lower(authorization), BearerPrefix)
    ensures TokenOf(authorization) == Some(authorization[7..])
  {
    var lowered := Lower(authorization);
    assert lowered[..7] == BearerPrefix;
    forall j | 0 <= j < 6
      ensures !OccursAt(authorization, " ", j)
    {
      assert lowered[j] == BearerPrefix[j] != ' ';
      assert LowerChar(authorization[j]) != ' ';
      assert authorization[j..j + 1][0] == authorization[j];
    }
    assert LowerChar(authorization[6]) == lowered[6] == ' ';
    assert authorization[6] == ' ';
    assert authorization[6..7] == " ";
    assert OccursAt(authorization, " ", 6);
    assert IndexFrom(authorization, " ", 0) == Some(6) by {
      IndexFromFirst(authorization, " ", 0, 6);
    }
  }

  /** The search from `k` finds the first occurrence at or after `k`. */
  lemma {:induction false} IndexFromFirst(s: string, sep: string, k: nat, i: nat)
    requires k <= i && OccursAt(s, sep, i)
    requires forall j :: k <= j < i ==> !OccursAt(s, sep, j)
    ensures IndexFrom(s, sep, k) == Some(i)
    decreases i - k
  {
    if k < i {
      IndexFromFirst(s, sep, k + 1, i);
    }
  }

  /** `require_auth`: 500 when no secret is configured; 401 when the header
      is not a Bearer header, when the token does not decode, or when the
      claims have no truthy `sub`; otherwise the caller named by `sub`, with
      the `email` claim when present. A subject or email that is not text
      fails the model's validation (500). */
  function RequireAuth(secret: Option<string>, authorization: Option<string>,
                       decode: (string, string) -> Option<map<string, Value>>)
    : (r: Result<AuthContext, HttpError>)
    ensures (secret.None? || secret.value == "") <==> r == Err(HttpError(500, "SUPABASE_JWT_SECRET is not configured on the API."))
    ensures secret.Some? && secret.value != "" && !IsBearer(authorization) ==>
      r == Err(HttpError(401, "Missing Bearer token."))
    ensures r.Ok? ==>
      (secret.Some? && IsBearer(authorization)
       && var claims := decode(authorization.value[7..], secret.value);
       && claims.Some? && "sub" in claims.value && claims.value["sub"] == Str(r.value.userId) && r.value.userId != ""
       && (r.value.email.Some? <==> "email" in claims.value && claims.value["email"] != Null)
       && (r.value.email.Some? ==> claims.value["email"] == Str(r.value.email.value)))
    ensures (secret.Some? && secret.value != "" && IsBearer(authorization)
             && decode(authorization.value[7..], secret.value).None?) ==>
      r == Err(HttpError(401, "Invalid or expired token."))
    ensures (secret.Some? && secret.value != "" && IsBearer(authorization)
             && decode(authorization.value[7..], secret.value).Some?
             && !Truthy(DictGet(decode(authorization.value[7..], secret.value).value, "sub", Null))) ==>
      r == Err(HttpError(401, "Token missing subject claim."))
    ensures (secret.Some? && secret.value != "" && IsBearer(authorization)
             && var claims := decode(authorization.value[7..], secret.value);
             && claims.Some?
             && var sub := DictGet(claims.value, "sub", Null);
             var email := DictGet(claims.value, "email", Null);
             && Truthy(sub) && sub.Str? && (email.Null? || email.Str?)) ==>
      var claims := decode(authorization.value[7..], secret.value).value;
      var email := DictGet(claims, "email", Null);
      r == Ok(AuthContext(claims["sub"].s, if email.Null? then None else Some(email.s)))
    ensures (secret.Some? && secret.value != "" && IsBearer(authorization)
             && var claims := decode(authorization.value[7..], secret.value);
             && claims.Some?
             && var sub := DictGet(claims.value, "sub", Null);
             var email := DictGet(claims.value, "email", Null);
             && Truthy(sub) && !(sub.Str? && (email.Null? || email.Str?))) ==>
      r == Err(HttpError(500, "ValidationError"))
  {
    if secret.None? || secret.value == "" then Err(HttpError(500, "SUPABASE_JWT_SECRET is not configured on the API."))
    else if !IsBearer(authorization) then Err(HttpError(401, "Missing Bearer token."))
    else
      BearerToken(authorization.value);
      var token := TokenOf(authorization.value).value;
      match decode(token, secret.value)
      case None => Err(HttpError(401, "Invalid or expired token."))
      case Some(claims) =>
        var sub := DictGet(claims, "sub", Null);
        var email := DictGet(claims, "email", Null);
        if !Truthy(sub) then Err(HttpError(401, "Token missing subject claim."))
        else if !sub.Str? || !(email.Null? || email.Str?) then Err(HttpError(500, "ValidationError"))
        else Ok(AuthContext(sub.s, if email.Null? then None else Some(email.s)))
  }

  // ---------------------------------------------------------------------------
  // Rows and the proximity filter

  /** A result row: its coordinates, its program opportunity score (absent
      on location rows), the `distance_miles` the proximity filter adds,
      and its other columns. */
  datatype Row = Row(latitude: Option<real>, longitude: Option<real>, score: Option<real>,
                     distanceMiles: Option<real>, columns: map<string, Value>)

  /** `haversine_distance` from the search point to a row: `None` when the
      row lacks a coordinate, otherwise the great-circle distance. */
  function DistanceTo(lat: real, lon: real, row: Row, haversine: (real, real, real, real) -> real): Option<real> {
    if row.latitude.Some? && row.longitude.Some? then Some(haversine(lat, lon, row.latitude.value, row.longitude.value))
    else None
  }

  /** The row has a distance, and it is at most the radius. */
  predicate Within(row: Row, lat: real, lon: real, radius: real, haversine: (real, real, real, real) -> real) {
    var d := DistanceTo(lat, lon, row, haversine);
    d.Some? && d.value <= radius
  }

  /** The row with its rounded distance recorded. */
  function Annotate(row: Row, lat: real, lon: real, haversine: (real, real, real, real) -> real, round2: real -> real): Row
    requires row.latitude.Some? && row.longitude.Some?
  {
    row.(distanceMiles := Some(round2(haversine(lat, lon, row.latitude.value, row.longitude.value))))
  }

  /** `x` is the annotated copy of some row within the radius. */
  ghost predicate FromRow(x: Row, rows: seq<Row>, lat: real, lon: real, radius: real,
                          haversine: (real, real, real, real) -> real, round2: real -> real) {
    exists j :: 0 <= j < |rows| && Within(rows[j], lat, lon, radius, haversine)
      && x == Annotate(rows[j], lat, lon, haversine, round2)
  }

  /** The filtering loops of `list_programs` and `nearby_locations`: rows
      without a distance or beyond the radius are skipped, the others get
      their rounded distance. */
  function ProximityFilter(rows: seq<Row>, lat: real, lon: real, radius: real,
                           haversine: (real, real, real, real) -> real, round2: real -> real)
    : (kept: seq<Row>)
    ensures |kept| <= |rows|
    ensures forall k :: 0 <= k < |kept| ==> kept[k].distanceMiles.Some?
    ensures forall k :: 0 <= k < |kept| ==> FromRow(kept[k], rows, lat, lon, radius, haversine, round2)
    ensures forall j :: 0 <= j < |rows| && Within(rows[j], lat, lon, radius, haversine) ==>
      Annotate(rows[j], lat, lon, haversine, round2) in kept
  {
    if rows == [] then []
    else
      var init, last := rows[..|rows| - 1], rows[|rows| - 1];
      assert forall j :: 0 <= j < |init| ==> init[j] == rows[j];
      var front := ProximityFilter(init, lat, lon, radius, haversine, round2);
      assert forall k :: 0 <= k < |front| ==> FromRow(front[k], rows, lat, lon, radius, haversine, round2) by {
        forall k | 0 <= k < |front|
          ensures FromRow(front[k], rows, lat, lon, radius, haversine, round2)
        {
          var j :| 0 <= j < |init| && Within(init[j], lat, lon, radius, haversine)
            && front[k] == Annotate(init[j], lat, lon, haversine, round2);
          assert rows[j] == init[j];
        }
      }
      if Within(last, lat, lon, radius, haversine) then front + [Annotate(last, lat, lon, haversine, round2)]
      else front
  }

  /** Appending a row appends at most its annotated copy: the filter keeps
      the input order. */
  lemma ProximityFilterAppend(rows: seq<Row>, row: Row, lat: real, lon: real, radius: real,
                              haversine: (real, real, real, real) -> real, round2: real -> real)
    ensures ProximityFilter(rows + [row], lat, lon, radius, haversine, round2)
      == ProximityFilter(rows, lat, lon, radius, haversine, round2)
         + (if Within(row, lat, lon, radius, haversine) then [Annotate(row, lat, lon, haversine, round2)] else [])
  {
    assert (rows + [row])[..|rows|] == rows;
  }

  // ---------------------------------------------------------------------------
  // list_programs

  /** The query parameters of `GET /programs`. */
  datatype ProgramQuery = ProgramQuery(
    cipPrefix: Option<string>,
    credential: Option<int>,
    regionId: Option<int>,
    state: Option<string>,
    maxNetPrice: Option<real>,
    nearLat: Option<real>,
    nearLon: Option<real>,
    nearRadiusMiles: Option<real>,
    limit: int
  )

  predicate IntIn(x: Option<int>, lo: int, hi: int) {
    x.None? || lo <= x.value <= hi
  }

  predicate RealIn(x: Option<real>, lo: real, hi: real) {
    x.None? || lo <= x.value <= hi
  }

  /** The bounds declared on the parameters, which FastAPI enforces. */
  predicate ProgramQueryInBounds(q: ProgramQuery) {
    && IntIn(q.credential, 1, 7)
    && IntIn(q.regionId, 1, 9)
    && (q.state.None? || |q.state.value| == 2)
    && (q.maxNetPrice.None? || q.maxNetPrice.value >= 0.0)
    && RealIn(q.nearLat, -90.0, 90.0)
    && RealIn(q.nearLon, -180.0, 180.0)
    && RealIn(q.nearRadiusMiles, 1.0, 1000.0)
    && 1 <= q.limit <= 200
  }

  /** The parameter checks of `list_programs`: out-of-bounds values are
      refused with 422, exactly one coordinate or a radius without both
      coordinates with 400. */
  function ValidateProgramQuery(q: ProgramQuery): (r: Result<(), HttpError>)
    ensures r == Err(Unprocessable) <==> !ProgramQueryInBounds(q)
    ensures ProgramQueryInBounds(q) ==>
      (r.Err? <==> (q.nearLat.None? != q.nearLon.None?) || (q.nearRadiusMiles.Some? && (q.nearLat.None? || q.nearLon.None?)))
    ensures r.Err? ==> r.error.status == 422 || r.error.status == 400
    ensures r.Ok? ==> (q.nearLat.Some? <==> q.nearLon.Some?) && (q.nearRadiusMiles.Some? ==> q.nearLat.Some?)
  {
    if !ProgramQueryInBounds(q) then Err(Unprocessable)
    else if q.nearLat.None? != q.nearLon.None? then
      Err(HttpError(400, "Provide both near_lat and near_lon for proximity filtering."))
    else if q.nearRadiusMiles.Some? && (q.nearLat.None? || q.nearLon.None?) then
      Err(HttpError(400, "near_radius_miles requires both near_lat and near_lon to be specified."))
    else Ok(())
  }

  /** `near_radius_miles or 100.0`. */
  function Radius(nearRadiusMiles: Option<real>): (radius: real)
    ensures nearRadiusMiles.Some? && nearRadiusMiles.value != 0.0 ==> radius == nearRadiusMiles.value
    ensures nearRadiusMiles.None? ==> radius == 100.0
  {
    if nearRadiusMiles.Some? && nearRadiusMiles.value != 0.0 then nearRadiusMiles.value else 100.0
  }

  /** A query parameter. */
  datatype Param = PStr(s: string) | PInt(i: int) | PReal(r: real)

  /** A piece of SQL text: literal text, or a `?` placeholder. */
  datatype SqlPart = Sql(fragment: Fragment) | Hole

  /** The literal pieces of the program query. */
  datatype Fragment =
    | SelectPrograms | CipLike | CredentialEquals | RegionEquals | StateEquals | PriceAtMost
    | LatBetween | LonBetween | And | OrderByScoreLimit

  /** The SQL text of each piece; the selected column list is not
      modelled. */
  function FragmentText(f: Fragment): string {
    match f
    case SelectPrograms => "SELECT <program summary columns> FROM programs p WHERE 1=1"
    case CipLike => " AND p.program_code LIKE "
    case CredentialEquals => " AND p.\"program_credential.level\" = "
    case RegionEquals => " AND p.\"school.region_id\" = "
    case StateEquals => " AND p.\"school.state\" = "
    case PriceAtMost => " AND p.avg_net_price <= "
    case LatBetween => " AND p.\"location.lat\" BETWEEN "
    case LonBetween => " AND p.\"location.lon\" BETWEEN "
    case And => " AND "
    case OrderByScoreLimit => " ORDER BY (p.program_opportunity_score IS NULL), p.program_opportunity_score DESC LIMIT "
  }

  /** The query text, with `?` for each placeholder. */
  function SqlText(query: seq<SqlPart>): string {
    if query == [] then ""
    else SqlText(query[..|query| - 1]) + match query[|query| - 1] { case Hole => "?" case Sql(f) => FragmentText(f) }
  }

  /** The number of `?` placeholders. */
  function Holes(query: seq<SqlPart>): nat {
    multiset(query)[Hole]
  }

  /** A filter clause: its SQL and the parameters its placeholders take. */
  datatype Clause = Clause(sql: seq<SqlPart>, params: seq<Param>)

  const NoClause := Clause([], [])

  /** `cos(radians(x))`, `haversine_distance` and `round(x, 2)`. */
  datatype Numerics = Numerics(cosDegrees: real -> real, haversine: (real, real, real, real) -> real, round2: real -> real)

  /** Half the side of the bounding box: `radius / 69.0` degrees of
      latitude, and `radius / max(cos(lat), 0.01) / 69.0` of longitude. */
  function LatDelta(radius: real): real {
    radius / 69.0
  }

  function LonDelta(radius: real, lat: real, cosDegrees: real -> real): real {
    var c := cosDegrees(lat);
    radius / (if c > 0.01 then c else 0.01) / 69.0
  }

  /** The bounding-box clauses for the search point. */
  function BoxClause(lat: real, lon: real, radius: real, cosDegrees: real -> real): Clause {
    var latDelta, lonDelta := LatDelta(radius), LonDelta(radius, lat, cosDegrees);
    Clause([Sql(LatBetween), Hole, Sql(And), Hole, Sql(LonBetween), Hole, Sql(And), Hole],
           [PReal(lat - latDelta), PReal(lat + latDelta), PReal(lon - lonDelta), PReal(lon + lonDelta)])
  }

  /** A clause has one parameter per placeholder. */
  predicate Balanced(c: Clause) {
    Holes(c.sql) == |c.params|
  }

  /** A filter on one column, or `NoClause` when it is not `present`. */
  function Filter(present: bool, sql: Fragment, param: Param): (c: Clause)
    ensures Balanced(c)
    ensures present ==> c.params == [param]
    ensures !present ==> c == NoClause
  {
    if present then Clause([Sql(sql), Hole], [param]) else NoClause
  }

  /** The optional filters, in the order `list_programs` adds them; each is
      skipped when its parameter is falsy (`max_net_price` only when
      `None`). */
  function CipClause(q: ProgramQuery): Clause {
    Filter(q.cipPrefix.Some? && q.cipPrefix.value != "", CipLike,
           PStr(q.cipPrefix.GetOr("") + "%"))
  }

  function CredentialClause(q: ProgramQuery): Clause {
    Filter(q.credential.Some? && q.credential.value != 0, CredentialEquals,
           PInt(q.credential.GetOr(0)))
  }

  function RegionClause(q: ProgramQuery): Clause {
    Filter(q.regionId.Some? && q.regionId.value != 0, RegionEquals, PInt(q.regionId.GetOr(0)))
  }

  function StateClause(q: ProgramQuery): Clause {
    Filter(q.state.Some? && q.state.value != "", StateEquals, PStr(Upper(q.state.GetOr(""))))
  }

  function PriceClause(q: ProgramQuery): Clause {
    Filter(q.maxNetPrice.Some?, PriceAtMost, PReal(q.maxNetPrice.GetOr(0.0)))
  }

  function NearClause(q: ProgramQuery, cosDegrees: real -> real): (c: Clause)
    ensures Balanced(c)
    ensures q.nearLat.Some? && q.nearLon.Some? ==>
      c == BoxClause(q.nearLat.value, q.nearLon.value, Radius(q.nearRadiusMiles), cosDegrees)
  {
    if q.nearLat.Some? && q.nearLon.Some? then
      var box := BoxClause(q.nearLat.value, q.nearLon.value, Radius(q.nearRadiusMiles), cosDegrees);
      assert multiset(box.sql)[Hole] == 4;
      box
    else NoClause
  }

  /** The filters of a query, joined in the order they are added. */
  function Filters(q: ProgramQuery, cosDegrees: real -> real): (c: Clause)
    ensures Balanced(c)
  {
    var c0, c1, c2, c3, c4, c5 := CipClause(q), CredentialClause(q), RegionClause(q), StateClause(q), PriceClause(q),
                                  NearClause(q, cosDegrees);
    Join(Join(Join(Join(Join(c0, c1), c2), c3), c4), c5)
  }

  /** Two clauses one after the other. */
  function Join(a: Clause, b: Clause): (c: Clause)
    requires Balanced(a) && Balanced(b)
    ensures Balanced(c)
    ensures c.params == a.params + b.params
  {
    HolesConcat(a.sql, b.sql);
    Clause(a.sql + b.sql, a.params + b.params)
  }

  /** The parameters of the filters follow one another in the order
      `list_programs` adds the filters. */
  lemma FiltersParams(q: ProgramQuery, cosDegrees: real -> real)
    ensures Filters(q, cosDegrees).params == CipClause(q).params + CredentialClause(q).params + RegionClause(q).params
      + StateClause(q).params + PriceClause(q).params + NearClause(q, cosDegrees).params
  {
  }

  /** The query and parameters `list_programs` hands to the database: the
      selection, each filter in turn, then the ordering and the limit. */
  function BuildProgramQuery(q: ProgramQuery, cosDegrees: real -> real): (r: Clause)
    ensures Holes(r.sql) == |r.params|
    ensures |r.params| >= 1 && r.params[|r.params| - 1] == PInt(q.limit)
    ensures |r.sql| >= 1 && r.sql[0] == Sql(SelectPrograms) && r.sql[|r.sql| - 1] == Hole
  {
    Select(Filters(q, cosDegrees), q.limit)
  }

  /** The selection around the filters, ordered and cut to `limit`. */
  function Select(filters: Clause, limit: int): (r: Clause)
    requires Balanced(filters)
    ensures Holes(r.sql) == |r.params|
    ensures r.params == filters.params + [PInt(limit)]
    ensures |r.sql| >= 1 && r.sql[0] == Sql(SelectPrograms) && r.sql[|r.sql| - 1] == Hole
  {
    var head, tail := [Sql(SelectPrograms)], [Sql(OrderByScoreLimit), Hole];
    HolesConcat(head, filters.sql);
    HolesConcat(head + filters.sql, tail);
    assert Holes(head) == 0 && Holes(tail) == 1;
    Clause(head + filters.sql + tail, filters.params + [PInt(limit)])
  }

  lemma HolesConcat(a: seq<SqlPart>, b: seq<SqlPart>)
    ensures Holes(a + b) == Holes(a) + Holes(b)
  {
    assert multiset(a + b) == multiset(a) + multiset(b);
  }

  /** The elements of `a + b + [x]` just before the last one are those of `b`. */
  lemma SliceBeforeLast<T>(a: seq<T>, b: seq<T>, x: T)
    ensures var s := a + b + [x]; |s| >= |b| + 1 && s[|s| - 1 - |b|..|s| - 1] == b
  {
    var s := a + b + [x];
    assert forall k :: 0 <= k < |b| ==> s[|a| + k] == b[k];
  }

  /** With a search point, the four bounding-box bounds are the parameters
      just before the limit. */
  lemma ProgramQueryBoxParams(q: ProgramQuery, cosDegrees: real -> real)
    requires q.nearLat.Some? && q.nearLon.Some?
    ensures var params := BuildProgramQuery(q, cosDegrees).params;
      |params| >= 5 && params[|params| - 5..|params| - 1]
        == BoxClause(q.nearLat.value, q.nearLon.value, Radius(q.nearRadiusMiles), cosDegrees).params
  {
    var before := CipClause(q).params + CredentialClause(q).params + RegionClause(q).params
      + StateClause(q).params + PriceClause(q).params;
    var near := NearClause(q, cosDegrees).params;
    var params := BuildProgramQuery(q, cosDegrees).params;
    FiltersParams(q, cosDegrees);
    assert params == before + near + [PInt(q.limit)];
    SliceBeforeLast(before, near, PInt(q.limit));
    assert near == BoxClause(q.nearLat.value, q.nearLon.value, Radius(q.nearRadiusMiles), cosDegrees).params;
  }

  /** The CIP parameter is the prefix with the `LIKE` wildcard and comes
      first. */
  lemma ProgramQueryCipParam(q: ProgramQuery, cosDegrees: real -> real)
    requires q.cipPrefix.Some? && q.cipPrefix.value != ""
    ensures BuildProgramQuery(q, cosDegrees).params[0] == PStr(q.cipPrefix.value + "%")
  {
    var filters := Filters(q, cosDegrees);
    FiltersParams(q, cosDegrees);
    assert filters.params[0] == PStr(q.cipPrefix.value + "%");
    assert BuildProgramQuery(q, cosDegrees).params[0] == filters.params[0];
  }

  /** The state parameter is the code upper-cased. */
  lemma ProgramQueryStateParam(q: ProgramQuery, cosDegrees: real -> real)
    requires q.state.Some? && q.state.value != ""
    ensures PStr(Upper(q.state.value)) in BuildProgramQuery(q, cosDegrees).params
  {
    var filters := Filters(q, cosDegrees);
    var params := BuildProgramQuery(q, cosDegrees).params;
    var before := CipClause(q).params + CredentialClause(q).params + RegionClause(q).params;
    FiltersParams(q, cosDegrees);
    assert filters.params[|before|] == PStr(Upper(q.state.value));
    assert params[|before|] == filters.params[|before|];
  }

  /** On an accepted query, the bounding box is centred on the search point:
      each coordinate lies between its two bounds. */
  lemma BoxContainsCentre(q: ProgramQuery, cosDegrees: real -> real)
    requires ValidateProgramQuery(q).Ok? && q.nearLat.Some?
    ensures var box := BoxClause(q.nearLat.value, q.nearLon.value, Radius(q.nearRadiusMiles), cosDegrees).params;
      && box[0].r < q.nearLat.value < box[1].r
      && box[2].r < q.nearLon.value < box[3].r
  {
    var radius := Radius(q.nearRadiusMiles);
    assert radius >= 1.0;
    var c := cosDegrees(q.nearLat.value);
    var m := if c > 0.01 then c else 0.01;
    assert radius / m > 0.0;
    assert LonDelta(radius, q.nearLat.value, cosDegrees) > 0.0;
  }

  /** The key `list_programs` sorts by: distance, then rows with a score
      before rows without, then higher score first. */
  function ProgramKey(row: Row): Key {
    Key(row.distanceMiles, row.score.None?, -(if row.score.Some? then row.score.value else 0.0))
  }

  /** `list_programs` after the query: with a search point, the rows within
      the radius (default 100 miles) sorted by `ProgramKey`; otherwise
      the database's rows as returned. */
  function ProgramResults(q: ProgramQuery, rows: seq<Row>, numerics: Numerics): (results: seq<Row>)
    ensures q.nearLat.None? || q.nearLon.None? ==> results == rows
    ensures q.nearLat.Some? && q.nearLon.Some? ==>
      var kept := ProximityFilter(rows, q.nearLat.value, q.nearLon.value, Radius(q.nearRadiusMiles),
                                  numerics.haversine, numerics.round2);
      && multiset(results) == multiset(kept)
      && Sorted(results, ProgramKey)
      && (forall k :: Class(results, ProgramKey, k) == Class(kept, ProgramKey, k))
  {
    if q.nearLat.Some? && q.nearLon.Some? then
      var kept := ProximityFilter(rows, q.nearLat.value, q.nearLon.value, Radius(q.nearRadiusMiles),
                                  numerics.haversine, numerics.round2);
      forall k {
        SortStable(kept, ProgramKey, k);
      }
      Sort(kept, ProgramKey)
    else rows
  }

  /** Every program returned by a proximity search comes from a database
      row within the radius, and carries that row's rounded distance. */
  lemma ProgramResultsWithin(q: ProgramQuery, rows: seq<Row>, numerics: Numerics)
    requires q.nearLat.Some? && q.nearLon.Some?
    ensures var results := ProgramResults(q, rows, numerics);
      forall k :: 0 <= k < |results| ==> FromRow(results[k], rows, q.nearLat.value, q.nearLon.value,
                                                 Radius(q.nearRadiusMiles), numerics.haversine, numerics.round2)
  {
    var results := ProgramResults(q, rows, numerics);
    var kept := ProximityFilter(rows, q.nearLat.value, q.nearLon.value, Radius(q.nearRadiusMiles),
                                numerics.haversine, numerics.round2);
    forall k | 0 <= k < |results|
      ensures FromRow(results[k], rows, q.nearLat.value, q.nearLon.value,
                      Radius(q.nearRadiusMiles), numerics.haversine, numerics.round2)
    {
      assert results[k] in multiset(kept);
      var i :| 0 <= i < |kept| && kept[i] == results[k];
    }
  }

  /** `list_programs`: the checks, then the query run through `execute`
      (the database), then the proximity filter and sort; `count` is the
      number of results. */
  function ListPrograms(q: ProgramQuery, execute: (seq<SqlPart>, seq<Param>) -> seq<Row>, numerics: Numerics)
    : (r: Result<Response, HttpError>)
    ensures r.Err? <==> ValidateProgramQuery(q).Err?
    ensures r.Err? ==> r.error == ValidateProgramQuery(q).error
    ensures r.Ok? ==> r.value.count == |r.value.results|
    ensures r.Ok? ==> var built := BuildProgramQuery(q, numerics.cosDegrees);
      r.value.results == ProgramResults(q, execute(built.sql, built.params), numerics)
  {
    match ValidateProgramQuery(q)
    case Err(e) => Err(e)
    case Ok(_) =>
      var built := BuildProgramQuery(q, numerics.cosDegrees);
      var results := ProgramResults(q, execute(built.sql, built.params), numerics);
      Ok(Response(|results|, results))
  }

  // ---------------------------------------------------------------------------
  // nearby_locations

  /** The query parameters of `GET /locations/nearby`. */
  datatype NearbyQuery = NearbyQuery(lat: real, lon: real, radiusMiles: real, limit: int)

  predicate NearbyQueryInBounds(q: NearbyQuery) {
    && -90.0 <= q.lat <= 90.0
    && -180.0 <= q.lon <= 180.0
    && 1.0 <= q.radiusMiles <= 500.0
    && 1 <= q.limit <= 1000
  }

  /** The key `nearby_locations` sorts by: the distance alone. */
  function DistanceKey(row: Row): Key {
    Key(row.distanceMiles, false, 0.0)
  }

  /** `nearby_locations`: the location rows within the radius, nearest first
      (ties in table order), cut to `limit`, with their count. */
  function NearbyLocations(q: NearbyQuery, rows: seq<Row>, haversine: (real, real, real, real) -> real,
                           round2: real -> real)
    : (r: Result<Response, HttpError>)
    ensures r.Err? <==> !NearbyQueryInBounds(q)
    ensures r.Err? ==> r.error == Unprocessable
    ensures r.Ok? ==> var kept := ProximityFilter(rows, q.lat, q.lon, q.radiusMiles, haversine, round2);
      && r.value.count == |r.value.results|
      && |r.value.results| == (if |kept| < q.limit then |kept| else q.limit)
      && Sorted(r.value.results, DistanceKey)
      && multiset(r.value.results) <= multiset(kept)
  {
    if !NearbyQueryInBounds(q) then Err(Unprocessable)
    else
      var kept := ProximityFilter(rows, q.lat, q.lon, q.radiusMiles, haversine, round2);
      var sorted := Sort(kept, DistanceKey);
      var limited := SliceTo(sorted, q.limit);
      SortedPrefix(sorted, |limited|, DistanceKey);
      Ok(Response(|limited|, limited))
  }

  /** The nearby locations are the nearest ones: every location within the
      radius that is left out is at least as far as every one returned. */
  lemma NearbyNearest(q: NearbyQuery, rows: seq<Row>, haversine: (real, real, real, real) -> real,
                      round2: real -> real, j: nat)
    requires NearbyQueryInBounds(q)
    requires j < |rows| && Within(rows[j], q.lat, q.lon, q.radiusMiles, haversine)
    ensures var results := NearbyLocations(q, rows, haversine, round2).value.results;
      var row := Annotate(rows[j], q.lat, q.lon, haversine, round2);
      row in results || forall k :: 0 <= k < |results| ==> KeyLe(DistanceKey(results[k]), DistanceKey(row))
  {
    var kept := ProximityFilter(rows, q.lat, q.lon, q.radiusMiles, haversine, round2);
    var sorted := Sort(kept, DistanceKey);
    var results := NearbyLocations(q, rows, haversine, round2).value.results;
    assert results == SliceTo(sorted, q.limit);
    var row := Annotate(rows[j], q.lat, q.lon, haversine, round2);
    assert row in multiset(kept);
    assert row in multiset(sorted);
    var i :| 0 <= i < |sorted| && sorted[i] == row;
    if row !in results {
      assert i >= |results|;
      forall k | 0 <= k < |results|
        ensures KeyLe(DistanceKey(results[k]), DistanceKey(row))
      {
        assert results[k] == sorted[k];
      }
    }
  }

  // ---------------------------------------------------------------------------
  // ensure_profile_owner

  /** `ensure_profile_owner`: 404 when the profile does not exist, 403 when
      its owner is unset, empty or someone else. `owners` maps each
      profile id to its `owner_id` column. */
  function EnsureProfileOwner(owners: map<int, Option<string>>, profileId: int, ownerId: string)
    : (r: Result<(), HttpError>)
    ensures r == Err(HttpError(404, "Profile not found")) <==> profileId !in owners
    ensures r.Ok? <==> profileId in owners && owners[profileId] == Some(ownerId) && ownerId != ""
    ensures r.Err? && profileId in owners ==> r == Err(HttpError(403, "Not authorized to modify this profile"))
  {
    if profileId !in owners then Err(HttpError(404, "Profile not found"))
    else
      var owner := owners[profileId];
      if owner.None? || owner.value == "" || owner.value != ownerId then
        Err(HttpError(403, "Not authorized to modify this profile"))
      else Ok(())
  }
}

=== FILE: augment_state_costs.dfy ===
/** `scripts/augment_state_costs.py`: filling in the fallback metrics of
    every state's default slug that has none, from the averages of the slugs
    of the same census region. `STATE_REGION_MAP` is a parameter (`regions`);
    `round(mean(values), 2)` is the parameter `average`. */
module AugmentStateCosts {
  import opened Wrappers
  import opened Text
  import opened PyValue
  import opened Catalog
  import opened Metrics
  import CostOfLiving
  import TeleportFallback

  /** The fallback's `metrics` object: slug to metric dictionary. */
  type MetricTable = map<string, map<string, Value>>

  /** A value appended to the bucket of one region and one metric key. */
  datatype Contribution = Contribution(region: int, key: string, value: Value)

  /** `STATE_REGION_MAP.get(state)` when it is truthy (region ids are
      integers, so `0` counts as missing). */
  function RegionOf(regions: map<string, int>, state: string): (r: Option<int>)
    ensures r.Some? <==> state in regions && regions[state] != 0
    ensures r.Some? ==> r.value == regions[state]
  {
    if state in regions && regions[state] != 0 then Some(regions[state]) else None
  }

  // ---------------------------------------------------------------------------
  // compute_region_averages

  /** The innermost loop: one contribution per key (in `keys` order) whose
      value is present and not `None`. */
  function KeyContributions(data: map<string, Value>, region: int, keys: seq<string>): (c: seq<Contribution>)
    ensures forall i :: 0 <= i < |c| ==>
      && c[i].region == region && c[i].key in keys && c[i].key in data
      && c[i].value == data[c[i].key] && !c[i].value.Null?
  {
    if keys == [] then []
    else
      var rest := KeyContributions(data, region, keys[1..]);
      if keys[0] in data && !data[keys[0]].Null? then [Contribution(region, keys[0], data[keys[0]])] + rest
      else rest
  }

  /** Whether a slug has metrics worth averaging (`if not data: continue`). */
  predicate HasData(metrics: MetricTable, slug: string) {
    slug in metrics && metrics[slug] != map[]
  }

  /** What one `(slug, state)` pair of `SLUG_PRIMARY_STATES` contributes. */
  function PairContributions(metrics: MetricTable, regions: map<string, int>, slug: string, state: string)
    : seq<Contribution>
  {
    if !HasData(metrics, slug) then []
    else
      match RegionOf(regions, state)
      case None => []
      case Some(r) => KeyContributions(metrics[slug], r, MetricKeys)
  }

  /** The `(slug, state)` pairs visited by the two outer loops, in order. */
  function Pairs(table: seq<(string, seq<string>)>): (pairs: seq<(string, string)>)
    ensures forall i :: 0 <= i < |pairs| ==> exists j :: 0 <= j < |table| && pairs[i].0 == table[j].0 && pairs[i].1 in table[j].1
  {
    if table == [] then []
    else
      var rest := Pairs(table[1..]);
      var head := seq(|table[0].1|, k requires 0 <= k < |table[0].1| => (table[0].0, table[0].1[k]));
      var r := head + rest;
      assert forall i :: |head| <= i < |r| ==> r[i] == rest[i - |head|];
      assert forall j :: 0 <= j < |table| - 1 ==> table[1..][j] == table[j + 1];
      r
  }

  /** Every value appended by the loops, in order. */
  function Contributions(metrics: MetricTable, regions: map<string, int>, pairs: seq<(string, string)>)
    : seq<Contribution>
  {
    if pairs == [] then []
    else PairContributions(metrics, regions, pairs[0].0, pairs[0].1) + Contributions(metrics, regions, pairs[1..])
  }

  /** The bucket `region_values[region][key]`: the values appended to it, in
      order. */
  function Bucket(c: seq<Contribution>, region: int, key: string): (b: seq<Value>)
    ensures |b| <= |c|
    ensures |b| > 0 <==> exists i :: 0 <= i < |c| && c[i].region == region && c[i].key == key
  {
    if c == [] then []
    else
      var rest := Bucket(c[1..], region, key);
      assert forall i :: 0 <= i < |c| - 1 ==> c[1..][i] == c[i + 1];
      if c[0].region == region && c[0].key == key then [c[0].value] + rest else rest
  }

  lemma {:induction false} BucketAppend(a: seq<Contribution>, b: seq<Contribution>, region: int, key: string)
    ensures Bucket(a + b, region, key) == Bucket(a, region, key) + Bucket(b, region, key)
  {
    if a == [] {
      assert a + b == b;
    } else {
      assert (a + b)[1..] == a[1..] + b;
      BucketAppend(a[1..], b, region, key);
    }
  }

  /** One region's averages: a key per non-empty bucket. */
  function RegionEntry(c: seq<Contribution>, r: int, average: seq<Value> -> Value): (m: map<string, Value>)
    ensures forall k :: k in m <==> |Bucket(c, r, k)| > 0
    ensures forall k :: k in m ==> m[k] == average(Bucket(c, r, k))
  {
    var keys := set i | 0 <= i < |c| && c[i].region == r :: c[i].key;
    map k | k in keys :: average(Bucket(c, r, k))
  }

  /** The final loop of `compute_region_averages`: a region appears exactly
      when something was collected for it, and within it a key appears
      exactly when its bucket is non-empty, holding the average of that
      bucket. */
  function Averages(c: seq<Contribution>, average: seq<Value> -> Value): (avgs: map<int, map<string, Value>>)
    ensures forall r :: r in avgs <==> exists i :: 0 <= i < |c| && c[i].region == r
    ensures forall r, k :: r in avgs ==> (k in avgs[r] <==> |Bucket(c, r, k)| > 0)
    ensures forall r, k :: r in avgs && k in avgs[r] ==> avgs[r][k] == average(Bucket(c, r, k))
  {
    var regionIds := set i | 0 <= i < |c| :: c[i].region;
    map r | r in regionIds :: RegionEntry(c, r, average)
  }

  /** What one `(slug, state)` pair adds to the bucket of region `r` and
      key `k`: the slug's value when the slug has data, the state lies in
      `r` and the value is present and not `None`. */
  function PairValue(metrics: MetricTable, regions: map<string, int>, slug: string, state: string, r: int, k: string)
    : seq<Value>
  {
    if HasData(metrics, slug) && RegionOf(regions, state) == Some(r) && k in MetricKeys
       && k in metrics[slug] && !metrics[slug][k].Null?
    then [metrics[slug][k]] else []
  }

  /** The values averaged for region `r` and key `k`, pair by pair in loop
      order. */
  function RegionValues(metrics: MetricTable, regions: map<string, int>, pairs: seq<(string, string)>,
                        r: int, k: string): seq<Value>
    decreases |pairs|
  {
    if pairs == [] then []
    else
      var last := pairs[|pairs| - 1];
      RegionValues(metrics, regions, pairs[..|pairs| - 1], r, k) + PairValue(metrics, regions, last.0, last.1, r, k)
  }

  /** The bucket the loops fill is the pair-by-pair list of values. */
  lemma {:induction false} BucketRegionValues(metrics: MetricTable, regions: map<string, int>,
                                              pairs: seq<(string, string)>, r: int, k: string)
    ensures Bucket(Contributions(metrics, regions, pairs), r, k) == RegionValues(metrics, regions, pairs, r, k)
    decreases |pairs|
  {
    if pairs != [] {
      var init, last := pairs[..|pairs| - 1], pairs[|pairs| - 1];
      assert pairs == init + [last];
      ContributionsStep(metrics, regions, init, last.0, last.1, r, k);
      BucketRegionValues(metrics, regions, init, r, k);
    }
  }

  /** `compute_region_averages`: a key of a region holds the average of the
      values collected for it, and is present exactly when some value was
      collected; a region is present only with at least one key. */
  function RegionAverages(metrics: MetricTable, regions: map<string, int>, table: seq<(string, seq<string>)>,
                          average: seq<Value> -> Value)
    : (avgs: map<int, map<string, Value>>)
    ensures forall r, k :: RegionValues(metrics, regions, Pairs(table), r, k) != [] ==>
      r in avgs && k in avgs[r] && avgs[r][k] == average(RegionValues(metrics, regions, Pairs(table), r, k))
    ensures forall r, k :: r in avgs && k in avgs[r] ==> RegionValues(metrics, regions, Pairs(table), r, k) != []
    ensures forall r :: r in avgs ==> avgs[r] != map[]
  {
    var pairs := Pairs(table);
    var c := Contributions(metrics, regions, pairs);
    forall r, k ensures Bucket(c, r, k) == RegionValues(metrics, regions, pairs, r, k) {
      BucketRegionValues(metrics, regions, pairs, r, k);
    }
    var avgs := Averages(c, average);
    forall r | r in avgs ensures avgs[r] != map[] {
      var i :| 0 <= i < |c| && c[i].region == r;
      assert |Bucket(c, r, c[i].key)| > 0;
      assert c[i].key in avgs[r];
    }
    avgs
  }

  /** The bucket of one key for one pair: its value once when the slug has
      data, the state has that region and the value is present and not
      `None`; nothing otherwise. */
  lemma {:induction false} KeyBucket(data: map<string, Value>, region: int, keys: seq<string>, r: int, k: string)
    requires forall i, j :: 0 <= i < j < |keys| ==> keys[i] != keys[j]
    ensures Bucket(KeyContributions(data, region, keys), r, k)
      == if r == region && k in keys && k in data && !data[k].Null? then [data[k]] else []
  {
    if keys != [] {
      var rest := keys[1..];
      assert forall i, j :: 0 <= i < j < |rest| ==> rest[i] == keys[i + 1] && rest[j] == keys[j + 1];
      KeyBucket(data, region, rest, r, k);
      assert k in keys <==> k == keys[0] || k in rest;
      assert keys[0] !in rest;
    }
  }

  /** The loops in order: a pair adds at most one value to a bucket, after
      everything the earlier pairs added. A slug listed under several states
      of one region therefore counts once per state. */
  lemma ContributionsStep(metrics: MetricTable, regions: map<string, int>, pairs: seq<(string, string)>,
                          slug: string, state: string, r: int, k: string)
    ensures Bucket(Contributions(metrics, regions, pairs + [(slug, state)]), r, k)
      == Bucket(Contributions(metrics, regions, pairs), r, k)
         + if HasData(metrics, slug) && RegionOf(regions, state) == Some(r) && k in MetricKeys
              && k in metrics[slug] && !metrics[slug][k].Null?
           then [metrics[slug][k]] else []
  {
    ContributionsAppend(metrics, regions, pairs, [(slug, state)]);
    assert Contributions(metrics, regions, [(slug, state)]) == PairContributions(metrics, regions, slug, state);
    BucketAppend(Contributions(metrics, regions, pairs), PairContributions(metrics, regions, slug, state), r, k);
    if HasData(metrics, slug) && RegionOf(regions, state).Some? {
      MetricKeysDistinct();
      KeyBucket(metrics[slug], RegionOf(regions, state).value, MetricKeys, r, k);
    }
  }

  lemma {:induction false} ContributionsAppend(metrics: MetricTable, regions: map<string, int>,
                                               a: seq<(string, string)>, b: seq<(string, string)>)
    ensures Contributions(metrics, regions, a + b) == Contributions(metrics, regions, a) + Contributions(metrics, regions, b)
  {
    if a == [] {
      assert a + b == b;
    } else {
      assert (a + b)[1..] == a[1..] + b;
      ContributionsAppend(metrics, regions, a[1..], b);
    }
  }

  // ---------------------------------------------------------------------------
  // ensure_catalog_entry

  /** `ensure_catalog_entry`: appends an entry for `slug` unless the catalog
      already lists it. */
  function EnsureCatalogEntry(catalog: seq<CatalogItem>, slug: string, name: string): (c: seq<CatalogItem>)
    ensures |catalog| <= |c| <= |catalog| + 1 && c[..|catalog|] == catalog
    ensures slug in ExistingSlugs(catalog) ==> c == catalog
    ensures |c| > |catalog| ==> c[|catalog|] == CatalogItem(Some(name), Some(TeleportHref(slug)))
  {
    if slug in ExistingSlugs(catalog) then catalog
    else catalog + [CatalogItem(Some(name), Some(TeleportHref(slug)))]
  }

  /** A slug ending in a slash does not read back from its href
      (`rstrip("/")` removes the slash), so every call appends it again. */
  lemma EnsureCatalogEntryReappends(catalog: seq<CatalogItem>, slug: string, name: string)
    requires |slug| > 0 && slug[|slug| - 1] == '/'
    ensures EnsureCatalogEntry(catalog, slug, name) == catalog + [CatalogItem(Some(name), Some(TeleportHref(slug)))]
  {
    SlashSlugNeverListed(catalog, slug);
  }

  /** A slug that reads back from its href is listed afterwards, so a second
      call appends nothing, whatever name it is given. */
  lemma EnsureCatalogEntryIdempotent(catalog: seq<CatalogItem>, slug: string, name: string, name': string)
    requires WellFormedSlug(slug)
    ensures slug in ExistingSlugs(EnsureCatalogEntry(catalog, slug, name))
    ensures var c := EnsureCatalogEntry(catalog, slug, name); EnsureCatalogEntry(c, slug, name') == c
  {
    var c := EnsureCatalogEntry(catalog, slug, name);
    if slug !in ExistingSlugs(catalog) {
      HrefSlugRoundTrip(slug);
      assert c[|catalog|].href == Some(TeleportHref(slug));
    }
  }

  lemma EnsureCatalogEntryLists(catalog: seq<CatalogItem>, slug: string, name: string)
    ensures WellFormedSlug(slug) ==> slug in ExistingSlugs(EnsureCatalogEntry(catalog, slug, name))
  {
    if WellFormedSlug(slug) {
      EnsureCatalogEntryIdempotent(catalog, slug, name, name);
    }
  }

  // ---------------------------------------------------------------------------
  // The backfill loop of main

  /** `DISPLAY_NAMES`. */
  const DisplayNameEntries: seq<(string, string)> := [
    ("birmingham-al", "Birmingham, Alabama"),
    ("little-rock", "Little Rock, Arkansas"),
    ("wilmington-de", "Wilmington, Delaware"),
    ("portland-me", "Portland, Maine"),
    ("jackson-ms", "Jackson, Mississippi"),
    ("billings", "Billings, Montana"),
    ("fargo", "Fargo, North Dakota"),
    ("manchester-nh", "Manchester, New Hampshire"),
    ("newark", "Newark, New Jersey"),
    ("las-vegas", "Las Vegas, Nevada"),
    ("burlington-vt", "Burlington, Vermont"),
    ("charleston-wv", "Charleston, West Virginia"),
    ("cheyenne", "Cheyenne, Wyoming"),
    ("sioux-falls", "Sioux Falls, South Dakota")
  ]

  /** `DISPLAY_NAMES.get(slug, <title-cased slug>)`. */
  function DisplayName(slug: string): (name: string)
    ensures (slug, name) in DisplayNameEntries || name == SlugTitle(slug)
    ensures (forall e :: e in DisplayNameEntries ==> e.0 != slug) ==> name == SlugTitle(slug)
  {
    var names := CostOfLiving.ToMap(DisplayNameEntries);
    if slug in names then names[slug] else SlugTitle(slug)
  }

  /** The state of the backfill: the metrics, the catalog and the count. */
  datatype Backfilled = Backfilled(metrics: MetricTable, catalog: seq<CatalogItem>, added: nat)

  /** Whether the loop fills in `slug` from `state`'s region. */
  predicate Fills(metrics: MetricTable, regions: map<string, int>, avgs: map<int, map<string, Value>>,
                  state: string, slug: string)
  {
    slug !in metrics && RegionOf(regions, state).Some? && RegionOf(regions, state).value in avgs
  }

  /** `value` is what the loop fills in for `slug` from some state of
      `defaults` whose default it is. */
  ghost predicate FilledFrom(metrics: MetricTable, regions: map<string, int>, avgs: map<int, map<string, Value>>,
                             defaults: seq<(string, string)>, slug: string, value: map<string, Value>)
  {
    exists j :: 0 <= j < |defaults| && defaults[j].1 == slug && Fills(metrics, regions, avgs, defaults[j].0, slug)
      && value == avgs[regions[defaults[j].0]]
  }

  /** One iteration of the loop over `STATE_DEFAULT_SLUGS`; `names` gives
      the catalog name of a new slug (`DisplayName` in `main`). */
  function BackfillStep(b: Backfilled, regions: map<string, int>, avgs: map<int, map<string, Value>>,
                        names: string -> string, state: string, slug: string)
    : (b': Backfilled)
    ensures !Fills(b.metrics, regions, avgs, state, slug) ==> b' == b
    ensures Fills(b.metrics, regions, avgs, state, slug) ==>
      && b'.metrics.Keys == b.metrics.Keys + {slug}
      && b'.metrics[slug] == avgs[regions[state]]
      && b'.added == b.added + 1
    ensures forall s :: s in b.metrics ==> s in b'.metrics && b'.metrics[s] == b.metrics[s]
    ensures Fills(b.metrics, regions, avgs, state, slug) ==>
      b'.catalog == if slug in ExistingSlugs(b.catalog) then b.catalog
                    else b.catalog + [CatalogItem(Some(names(slug)), Some(TeleportHref(slug)))]
    ensures Fills(b.metrics, regions, avgs, state, slug) && WellFormedSlug(slug) ==>
      slug in ExistingSlugs(b'.catalog)
  {
    if !Fills(b.metrics, regions, avgs, state, slug) then b
    else
      var region := RegionOf(regions, state).value;
      EnsureCatalogEntryLists(b.catalog, slug, names(slug));
      Backfilled(b.metrics[slug := avgs[region]],
                 EnsureCatalogEntry(b.catalog, slug, names(slug)),
                 b.added + 1)
  }

  /** `b'` extends `b`: every metric is kept with its value, `added` grew by
      the number of new slugs, and the catalog grew by appending at most
      that many entries. */
  predicate Grows(b: Backfilled, b': Backfilled) {
    && b.metrics.Keys <= b'.metrics.Keys
    && (forall s :: s in b.metrics ==> b'.metrics[s] == b.metrics[s])
    && |b'.metrics.Keys| == |b.metrics.Keys| + (b'.added - b.added)
    && |b.catalog| <= |b'.catalog| <= |b.catalog| + (b'.added - b.added)
    && b'.catalog[..|b.catalog|] == b.catalog
  }

  lemma GrowsTrans(b: Backfilled, m: Backfilled, c: Backfilled)
    requires Grows(b, m) && Grows(m, c)
    ensures Grows(b, c)
  {
    assert c.catalog[..|b.catalog|] == c.catalog[..|m.catalog|][..|b.catalog|];
  }

  /** The loop of `main`: existing metrics are never overwritten, a new slug
      is the default slug of a state with regional averages and holds a copy
      of them, and `added` counts the newly inserted slugs. */
  function Backfill(b: Backfilled, regions: map<string, int>, avgs: map<int, map<string, Value>>,
                    names: string -> string, defaults: seq<(string, string)>)
    : (b': Backfilled)
    ensures Grows(b, b')
    ensures forall s :: s in b'.metrics && s !in b.metrics ==>
      FilledFrom(b.metrics, regions, avgs, defaults, s, b'.metrics[s])
    decreases |defaults|
  {
    if defaults == [] then b
    else
      var step := BackfillStep(b, regions, avgs, names, defaults[0].0, defaults[0].1);
      var b' := Backfill(step, regions, avgs, names, defaults[1..]);
      BackfillStepGrows(b, regions, avgs, names, defaults[0].0, defaults[0].1);
      GrowsTrans(b, step, b');
      BackfillNewSlugs(b, step, b', regions, avgs, names, defaults);
      b'
  }

  /** One step keeps every metric, adds one slug exactly when it counts one,
      and appends at most that many catalog entries. */
  lemma BackfillStepGrows(b: Backfilled, regions: map<string, int>, avgs: map<int, map<string, Value>>,
                          names: string -> string, state: string, slug: string)
    ensures Grows(b, BackfillStep(b, regions, avgs, names, state, slug))
  {
    var step := BackfillStep(b, regions, avgs, names, state, slug);
    if Fills(b.metrics, regions, avgs, state, slug) {
      assert step.metrics.Keys == b.metrics.Keys + {slug};
      assert |b.metrics.Keys + {slug}| == |b.metrics.Keys| + 1;
    }
  }

  /** Where the new slugs of the loop come from, unfolded for one step. */
  lemma BackfillNewSlugs(b: Backfilled, step: Backfilled, b': Backfilled, regions: map<string, int>,
                         avgs: map<int, map<string, Value>>, names: string -> string, defaults: seq<(string, string)>)
    requires |defaults| > 0
    requires step == BackfillStep(b, regions, avgs, names, defaults[0].0, defaults[0].1)
    requires step.metrics.Keys <= b'.metrics.Keys
    requires forall s :: s in step.metrics ==> b'.metrics[s] == step.metrics[s]
    requires forall s :: s in b'.metrics && s !in step.metrics ==>
      FilledFrom(step.metrics, regions, avgs, defaults[1..], s, b'.metrics[s])
    ensures forall s :: s in b'.metrics && s !in b.metrics ==>
      FilledFrom(b.metrics, regions, avgs, defaults, s, b'.metrics[s])
  {
    forall s | s in b'.metrics && s !in b.metrics
      ensures FilledFrom(b.metrics, regions, avgs, defaults, s, b'.metrics[s])
    {
      if s in step.metrics {
        assert defaults[0].1 == s && Fills(b.metrics, regions, avgs, defaults[0].0, s);
      } else {
        assert FilledFrom(step.metrics, regions, avgs, defaults[1..], s, b'.metrics[s]);
        var j :| 0 <= j < |defaults[1..]| && defaults[1..][j].1 == s && Fills(step.metrics, regions, avgs, defaults[1..][j].0, s)
          && b'.metrics[s] == avgs[regions[defaults[1..][j].0]];
        assert defaults[j + 1] == defaults[1..][j];
      }
    }
  }

  /** The catalog entry of a slug the loop added. */
  ghost predicate NamedNew(b: Backfilled, b': Backfilled, names: string -> string, item: CatalogItem) {
    exists t :: t in b'.metrics && t !in b.metrics && item == CatalogItem(Some(names(t)), Some(TeleportHref(t)))
  }

  /** After the loop every added slug that reads back from its href is
      listed in the catalog. */
  lemma {:induction false} BackfillLists(b: Backfilled, regions: map<string, int>, avgs: map<int, map<string, Value>>,
                                         names: string -> string, defaults: seq<(string, string)>)
    ensures var b' := Backfill(b, regions, avgs, names, defaults);
      forall s :: s in b'.metrics && s !in b.metrics && WellFormedSlug(s) ==> s in ExistingSlugs(b'.catalog)
    decreases |defaults|
  {
    if defaults != [] {
      var state, slug := defaults[0].0, defaults[0].1;
      var step := BackfillStep(b, regions, avgs, names, state, slug);
      var b' := Backfill(step, regions, avgs, names, defaults[1..]);
      assert Backfill(b, regions, avgs, names, defaults) == b';
      BackfillLists(step, regions, avgs, names, defaults[1..]);
      assert b'.catalog == step.catalog + b'.catalog[|step.catalog|..];
      TeleportFallback.ExistingSlugsAppend(step.catalog, b'.catalog[|step.catalog|..]);
      forall s | s in b'.metrics && s !in b.metrics && WellFormedSlug(s)
        ensures s in ExistingSlugs(b'.catalog)
      {
        if s in step.metrics {
          assert s == slug && Fills(b.metrics, regions, avgs, state, slug);
        }
      }
    }
  }

  /** Every catalog entry the loop appends is the named entry of a slug it
      added. */
  lemma {:induction false} BackfillNames(b: Backfilled, regions: map<string, int>, avgs: map<int, map<string, Value>>,
                                         names: string -> string, defaults: seq<(string, string)>)
    ensures NamedFrom(b, Backfill(b, regions, avgs, names, defaults), names, |b.catalog|)
    decreases |defaults|
  {
    if defaults != [] {
      var state, slug := defaults[0].0, defaults[0].1;
      var step := BackfillStep(b, regions, avgs, names, state, slug);
      var b' := Backfill(step, regions, avgs, names, defaults[1..]);
      assert Backfill(b, regions, avgs, names, defaults) == b';
      BackfillNames(step, regions, avgs, names, defaults[1..]);
      BackfillStepGrows(b, regions, avgs, names, state, slug);
      NamedFromStep(b, step, b', names, slug);
    }
  }

  /** One step of the loop keeps the appended entries named: the entry it
      may append is that of the slug it adds. */
  lemma NamedFromStep(b: Backfilled, step: Backfilled, b': Backfilled, names: string -> string, slug: string)
    requires step.catalog == b.catalog
          || (step.catalog == b.catalog + [CatalogItem(Some(names(slug)), Some(TeleportHref(slug)))]
              && slug in step.metrics && slug !in b.metrics)
    requires b.metrics.Keys <= step.metrics.Keys && step.metrics.Keys <= b'.metrics.Keys
    requires |step.catalog| <= |b'.catalog| && b'.catalog[..|step.catalog|] == step.catalog
    requires NamedFrom(step, b', names, |step.catalog|)
    ensures NamedFrom(b, b', names, |b.catalog|)
  {
    NamedNewWiden(b, step, b', names, |step.catalog|);
    if step.catalog != b.catalog {
      assert b'.catalog[|b.catalog|] == step.catalog[|b.catalog|];
      NamedNewOf(b, b', names, slug);
      NamedFromExtend(b, b', names, |step.catalog|);
    }
  }

  /** The named entry of a slug the loop added. */
  lemma NamedNewOf(b: Backfilled, b': Backfilled, names: string -> string, t: string)
    requires t in b'.metrics && t !in b.metrics
    ensures NamedNew(b, b', names, CatalogItem(Some(names(t)), Some(TeleportHref(t))))
  {
  }

  /** Every entry of `b'` from index `from` on is the named entry of a slug
      added since `b`. */
  ghost predicate NamedFrom(b: Backfilled, b': Backfilled, names: string -> string, from: nat) {
    forall i :: from <= i < |b'.catalog| ==> NamedNew(b, b', names, b'.catalog[i])
  }

  lemma NamedFromExtend(b: Backfilled, b': Backfilled, names: string -> string, from: nat)
    requires 0 < from <= |b'.catalog| && NamedFrom(b, b', names, from)
    requires NamedNew(b, b', names, b'.catalog[from - 1])
    ensures NamedFrom(b, b', names, from - 1)
  {
  }

  /** Entries named for slugs added after `m` were added after `b` too,
      when `m` kept every slug of `b`. */
  lemma NamedNewWiden(b: Backfilled, m: Backfilled, b': Backfilled, names: string -> string, from: nat)
    requires NamedFrom(m, b', names, from)
    requires b.metrics.Keys <= m.metrics.Keys
    ensures NamedFrom(b, b', names, from)
  {
    forall i | from <= i < |b'.catalog| ensures NamedNew(b, b', names, b'.catalog[i]) {
      assert NamedNew(m, b', names, b'.catalog[i]);
      var t :| t in b'.metrics && t !in m.metrics && b'.catalog[i] == CatalogItem(Some(names(t)), Some(TeleportHref(t)));
      assert t !in b.metrics;
    }
  }

  /** States without a region, or whose region has no averages, change
      nothing. */
  lemma {:induction false} BackfillSkips(b: Backfilled, regions: map<string, int>, avgs: map<int, map<string, Value>>,
                                         names: string -> string, defaults: seq<(string, string)>)
    requires forall j :: 0 <= j < |defaults| ==>
      RegionOf(regions, defaults[j].0).None? || RegionOf(regions, defaults[j].0).value !in avgs
    ensures Backfill(b, regions, avgs, names, defaults) == b
    decreases |defaults|
  {
    if defaults != [] {
      assert forall j :: 0 <= j < |defaults| - 1 ==> defaults[1..][j] == defaults[j + 1];
      BackfillSkips(b, regions, avgs, names, defaults[1..]);
    }
  }

  /** Every default whose state has a region with averages ends up with an
      entry: it is filled in when missing and kept when present. */
  lemma {:induction false} BackfillCovers(b: Backfilled, regions: map<string, int>, avgs: map<int, map<string, Value>>,
                                          names: string -> string, defaults: seq<(string, string)>, j: nat)
    requires j < |defaults|
    requires RegionOf(regions, defaults[j].0).Some? && RegionOf(regions, defaults[j].0).value in avgs
    ensures defaults[j].1 in Backfill(b, regions, avgs, names, defaults).metrics
    decreases |defaults|
  {
    var step := BackfillStep(b, regions, avgs, names, defaults[0].0, defaults[0].1);
    var b' := Backfill(step, regions, avgs, names, defaults[1..]);
    assert Backfill(b, regions, avgs, names, defaults) == b';
    if j == 0 {
      assert defaults[0].1 in step.metrics;
    } else {
      assert defaults[1..][j - 1] == defaults[j];
      BackfillCovers(step, regions, avgs, names, defaults[1..], j - 1);
    }
  }

  /** `BackfillCovers` for every default at once. */
  lemma BackfillCoversAll(b: Backfilled, regions: map<string, int>, avgs: map<int, map<string, Value>>,
                          names: string -> string, defaults: seq<(string, string)>)
    ensures forall j :: 0 <= j < |defaults| && Covered(regions, avgs, defaults[j].0) ==>
      defaults[j].1 in Backfill(b, regions, avgs, names, defaults).metrics
  {
    forall j | 0 <= j < |defaults| && Covered(regions, avgs, defaults[j].0)
      ensures defaults[j].1 in Backfill(b, regions, avgs, names, defaults).metrics
    {
      BackfillCovers(b, regions, avgs, names, defaults, j);
    }
  }

  /** `state` has a region with averages. */
  predicate Covered(regions: map<string, int>, avgs: map<int, map<string, Value>>, state: string) {
    RegionOf(regions, state).Some? && RegionOf(regions, state).value in avgs
  }

  /** `main` on the loaded fallback: the averages of its metrics, then the
      backfill over the state defaults. A missing file raises
      `FileNotFoundError`. */
  function Augment(file: Option<TeleportFallback.Fallback>, regions: map<string, int>,
                   table: seq<(string, seq<string>)>, defaults: seq<(string, string)>,
                   average: seq<Value> -> Value)
    : (r: Result<(TeleportFallback.Fallback, nat), string>)
    ensures r.Err? <==> file.None?
    ensures r.Ok? ==> file.value.metrics.Keys <= r.value.0.metrics.Keys
    ensures r.Ok? ==> |file.value.catalog| <= |r.value.0.catalog|
    ensures r.Ok? ==> r.value.1 == |r.value.0.metrics.Keys| - |file.value.metrics.Keys|
    ensures r.Ok? ==> r.value.0.catalog[..|file.value.catalog|] == file.value.catalog
    ensures r.Ok? ==> var avgs := RegionAverages(file.value.metrics, regions, table, average);
      forall j :: 0 <= j < |defaults| && Covered(regions, avgs, defaults[j].0) ==> defaults[j].1 in r.value.0.metrics
  {
    match file
    case None => Err("FileNotFoundError")
    case Some(fallback) =>
      var avgs := RegionAverages(fallback.metrics, regions, table, average);
      var b := Backfill(Backfilled(fallback.metrics, fallback.catalog, 0), regions, avgs, DisplayName, defaults);
      BackfillCoversAll(Backfilled(fallback.metrics, fallback.catalog, 0), regions, avgs, DisplayName, defaults);
      Ok((TeleportFallback.Fallback(b.catalog, b.metrics), b.added))
  }
}

=== FILE: catalog.dfy ===
/** The Teleport urban-area catalog as it appears in API responses and in the
    fallback file: a list of `{"name": ..., "href": ...}` items whose `href`
    ends in `slug:<slug>/`. */
module Catalog {
  import opened Wrappers
  import opened Text

  /** One `ua:item` entry; an absent key is `None`. */
  datatype CatalogItem = CatalogItem(name: Option<string>, href: Option<string>)

  const HrefPrefix: string := "https://api.teleport.org/api/urban_areas/"

  /** `HREF_TEMPLATE.format(slug=slug)` (the same template is `TELEPORT_HREF`
      in the backfill script). */
  function TeleportHref(slug: string): string {
    HrefPrefix + "slug:" + slug + "/"
  }

  /** `href.rstrip("/").split("slug:")[-1]`: the text after the last
      `slug:` once trailing slashes are removed (the whole text when there is
      no `slug:`). */
  function HrefSlug(href: string): string {
    Last(Split(RStripChars(href, {'/'}), "slug:"))
  }

  /** `slug.replace("-", " ").title()`: the display name made up for a slug
      with no better one. */
  function SlugTitle(slug: string): (name: string)
    ensures |name| == |slug|
    ensures forall k :: 0 <= k < |name| ==>
      LowerChar(name[k]) == LowerChar(if slug[k] == '-' then ' ' else slug[k])
  {
    Title(ReplaceChar(slug, '-', ' '), false)
  }

  /** The slugs already present in a catalog: items that carry an `href`. */
  function ExistingSlugs(catalog: seq<CatalogItem>): set<string> {
    set k | 0 <= k < |catalog| && catalog[k].href.Some? :: HrefSlug(catalog[k].href.value)
  }

  /** A slug read back from an href never ends in a slash, since the slashes
      are stripped before the split. */
  lemma HrefSlugNoTrailingSlash(href: string)
    ensures var t := HrefSlug(href); |t| > 0 ==> t[|t| - 1] != '/'
  {
    var r := RStripChars(href, {'/'});
    SplitLastSuffix(r, "slug:");
  }

  /** So a slug ending in a slash is never listed, whatever the catalog. */
  lemma SlashSlugNeverListed(catalog: seq<CatalogItem>, slug: string)
    requires |slug| > 0 && slug[|slug| - 1] == '/'
    ensures slug !in ExistingSlugs(catalog)
  {
    forall k | 0 <= k < |catalog| && catalog[k].href.Some?
      ensures HrefSlug(catalog[k].href.value) != slug
    {
      HrefSlugNoTrailingSlash(catalog[k].href.value);
    }
  }

  /** A slug that survives the href round trip: it holds no `slug:` and does
      not end in a slash. */
  predicate WellFormedSlug(slug: string) {
    && (forall j :: 0 <= j <= |slug| ==> !OccursAt(slug, "slug:", j))
    && (|slug| > 0 ==> slug[|slug| - 1] != '/')
  }

  lemma RStripHref(slug: string)
    requires |slug| > 0 ==> slug[|slug| - 1] != '/'
    ensures RStripChars(TeleportHref(slug), {'/'}) == HrefPrefix + "slug:" + slug
  {
    var x := HrefPrefix + "slug:" + slug;
    var s := x + "/";
    assert TeleportHref(slug) == s;
    assert x[|x| - 1] != '/';
    var r := RStripBy(s, c => c in {'/'});
    assert r == s[..|r|];
    assert |r| == |x|;
    assert s[..|x|] == x;
  }

  lemma PrefixHasNoSlugMarker(slug: string)
    ensures IndexOf(HrefPrefix + "slug:" + slug, "slug:") == Some(|HrefPrefix|)
  {
    var x := HrefPrefix + "slug:" + slug;
    assert x[|HrefPrefix|..|HrefPrefix| + 5] == "slug:";
    forall j | 0 <= j < |HrefPrefix|
      ensures !OccursAt(x, "slug:", j)
    {
      assert x[j] == HrefPrefix[j];
      if j + 1 < |HrefPrefix| {
        assert x[j + 1] == HrefPrefix[j + 1];
      }
    }
    FirstOccurrence(x, "slug:", |HrefPrefix|);
  }

  /** Reading the slug back from the href built for it gives the slug. */
  lemma HrefSlugRoundTrip(slug: string)
    requires WellFormedSlug(slug)
    ensures HrefSlug(TeleportHref(slug)) == slug
  {
    var x := HrefPrefix + "slug:" + slug;
    RStripHref(slug);
    PrefixHasNoSlugMarker(slug);
    assert x[|HrefPrefix| + 5..] == slug;
    assert IndexOf(slug, "slug:").None?;
    assert Split(x, "slug:") == [x[..|HrefPrefix|]] + [slug];
  }
}

=== FILE: club_connectors.dfy ===
/** `scripts/clubs/connectors.py`: turning raw club sources (a paginated
    JSON API, a CSV file, inline records) into `ClubRecord`s. The HTTP
    session is a function from query parameters to the decoded response (or
    the error `raise_for_status` would raise), the CSV file is the list of
    rows `csv.DictReader` yields, and the clock is the `now` text. */
module ClubConnectors {
  import opened Wrappers
  import opened Text
  import opened PyValue
  import opened ClubModels
  import opened Float64

  // ---------------------------------------------------------------------------
  // _coerce_int and _coerce_bool

  /** `int(x)` for a float: truncation toward zero. */
  function Truncate(x: real): (r: int)
    ensures x >= 0.0 ==> 0 <= r && r as real <= x < r as real + 1.0
    ensures x < 0.0 ==> r <= 0 && r as real - 1.0 < x <= r as real
  {
    if x >= 0.0 then x.Floor else -((-x).Floor)
  }

  /** `_coerce_int`: `None` and `""` give `None`; otherwise
      `int(float(v))`. `float` of an integer rounds it to binary64, and of
      text reads it as `float()` does; the `TypeError` of a container and
      the `ValueError` of unreadable text or of `int` on a NaN give `None`.
      The `OverflowError` of an infinity or a value past the binary64
      range is not caught and comes out as an error. A `Float` already
      holds a binary64 value, so only the truncation applies to it. */
  function CoerceInt(v: Value): (r: Result<Option<int>, string>)
    ensures v.Bool? ==> r == Ok(Some(if v.b then 1 else 0))
    ensures v.Null? || v == Str("") || v.List? || v.Tuple? || v.PySet? || v.Dict? ==> r == Ok(None)
    ensures v.Float? ==> r.Ok? && r.value.Some? && -1.0 < r.value.value as real - v.r < 1.0
    ensures v.Int? && r.Ok? ==> r.value.Some?
    ensures v.Str? && v.s != "" && ParseFloat(v.s).None? ==> r == Ok(None)
    ensures v.Str? && ParseFloat(v.s) == Some(NotANumber) ==> r == Ok(None)
    ensures r.Err? ==> r.error == "OverflowError" && (v.Int? || v.Str?)
  {
    match v
    case Null => Ok(None)
    case Bool(b) => Ok(Some(if b then 1 else 0))
    case Int(i) => TruncatedText(Binary64, Decimal(i < 0, if i < 0 then -i else i, 0))
    case Float(x) => Ok(Some(Truncate(x)))
    case Str(s) =>
      if s == "" then Ok(None)
      else
        (match ParseFloat(s)
         case None => Ok(None)
         case Some(t) => TruncatedText(Binary64, t))
    case _ => Ok(None)
  }

  /** Integers up to 2^53 in size are binary64 values and come back
      unchanged. */
  lemma CoerceIntExact(i: int)
    requires (if i < 0 then -i else i) <= Pow2(Binary64.precision)
    ensures CoerceInt(Int(i)) == Ok(Some(i))
  {
    CoerceIntOfInt(i);
    TruncatedTextExact(Binary64, i < 0, if i < 0 then -i else i);
    SignedAbs(i);
  }

  /** An integer goes through the binary64 truncation as a whole decimal. */
  lemma CoerceIntOfInt(i: int)
    ensures CoerceInt(Int(i)) == TruncatedText(Binary64, Decimal(i < 0, if i < 0 then -i else i, 0))
  {
  }

  /** 2^53 + 1 is not a binary64 value: `float` rounds it to 2^53. */
  lemma CoerceIntTie(n: nat, m: nat)
    requires n == Pow2(Binary64.precision) && m == n + 1
    ensures CoerceInt(Int(m)) == Ok(Some(n))
  {
    CoerceIntOfNat(m);
    TruncatedTextTieAt(Binary64, n, m);
  }

  lemma CoerceIntOfNat(n: nat)
    ensures CoerceInt(Int(n)) == TruncatedText(Binary64, Decimal(false, n, 0))
  {
  }

  /** 2^1024 and beyond raise `OverflowError` in `float`. */
  lemma CoerceIntOverflow(k: nat)
    requires k >= Binary64.maxExponent
    ensures CoerceInt(Int(Pow2(k))).Err?
  {
    CoerceIntOfNat(Pow2(k));
    TruncatedTextOverflow(Binary64, false, k);
  }

  /** The decimal text of an integer up to 2^53 in size coerces to that
      integer. */
  lemma CoerceIntText(i: int)
    requires (if i < 0 then -i else i) <= Pow2(Binary64.precision)
    ensures CoerceInt(Str(IntToString(i))) == Ok(Some(i))
  {
    var t := Decimal(i < 0, if i < 0 then -i else i, 0);
    ParseFloatIntText(i);
    CoerceIntParsed(IntToString(i), t);
    TruncatedTextExact(Binary64, i < 0, if i < 0 then -i else i);
    SignedAbs(i);
  }

  /** Decimal text `w.f` coerces to the whole part `w` when `w < 2^52` and
      the fraction is below three quarters: binary64 keeps it apart from
      `w + 1`. */
  lemma CoerceIntDropsFraction(whole: string, frac: string)
    requires |whole| > 0 && AllDigits(whole) && AllDigits(frac)
    requires DigitsValue(whole) < Pow2(Binary64.precision - 1)
    requires 4 * DigitsValue(frac) < 3 * Pow10(|frac|)
    ensures CoerceInt(Str(whole + "." + frac)) == Ok(Some(DigitsValue(whole)))
  {
    TruncatedDecimalText(Binary64, whole, frac);
    CoerceIntParsed(whole + "." + frac, ParseFloat(whole + "." + frac).value);
  }

  /** Seventeen or more nines after the point round up: `"0.99999999999999999"`
      coerces to 1. */
  lemma CoerceIntRoundsUp(k: nat)
    requires k >= 17
    ensures CoerceInt(Str("0." + Nines(k))) == Ok(Some(1))
  {
    var s := "0." + Nines(k);
    assert s == "0" + "." + Nines(k);
    Pow10CoversBinary64(k);
    TruncatedNinesText(Binary64, k);
    CoerceIntParsed(s, ParseFloat(s).value);
  }

  /** Non-empty text that `float` reads goes through the binary64
      truncation. */
  lemma CoerceIntParsed(s: string, t: FloatText)
    requires ParseFloat(s) == Some(t)
    ensures CoerceInt(Str(s)) == TruncatedText(Binary64, t)
  {
  }

  /** `inf` and `infinity` in any case raise `OverflowError`; `nan` gives
      `None`. */
  lemma CoerceIntSpecial(w: string)
    requires Lower(w) in {"inf", "infinity", "nan"}
    ensures CoerceInt(Str(w)) == (if Lower(w) == "nan" then Ok(None) else Err("OverflowError"))
  {
    ParseFloatSpecial(w);
  }

  /** `_coerce_bool`: booleans as they are, the words true/yes/1 and
      false/no/0 in any case and surrounded by whitespace, and numbers by
      their truth value; anything else is `None`. */
  function CoerceBool(v: Value): (r: Option<bool>)
    ensures v.Bool? || v.Int? || v.Float? ==> r == Some(Truthy(v))
    ensures v.Str? ==> (r == Some(true) <==> Lower(Strip(v.s)) in {"true", "yes", "1"})
    ensures v.Str? ==> (r == Some(false) <==> Lower(Strip(v.s)) in {"false", "no", "0"})
    ensures v.Str? && r.Some? ==> Lower(Strip(v.s)) in {"true", "yes", "1", "false", "no", "0"}
    ensures !(v.Bool? || v.Int? || v.Float? || v.Str?) ==> r.None?
  {
    match v
    case Bool(b) => Some(b)
    case Str(s) =>
      var lowered := Lower(Strip(s));
      if lowered in {"true", "yes", "1"} then Some(true)
      else if lowered in {"false", "no", "0"} then Some(false)
      else None
    case Int(i) => Some(i != 0)
    case Float(x) => Some(x != 0.0)
    case _ => None
  }

  /** `str(b)`. */
  function BoolText(b: bool): string {
    if b then "True" else "False"
  }

  /** A boolean written out by Python reads back as itself. */
  lemma CoerceBoolText(b: bool)
    ensures CoerceBool(Str(BoolText(b))) == Some(b)
  {
    var s := BoolText(b);
    StripByNoop(s, IsSpace);
    if b {
      assert Lower(s) == "true";
    } else {
      assert Lower(s) == "false";
    }
  }

  // ---------------------------------------------------------------------------
  // Tags

  /** The stripped, non-empty pieces, in order. */
  function KeepTags(parts: seq<string>): (r: seq<string>)
    ensures forall k :: 0 <= k < |r| ==> r[k] != "" && Strip(r[k]) == r[k]
    ensures |r| <= |parts|
  {
    if |parts| == 0 then []
    else
      var t := Strip(parts[0]);
      StripIdempotent(parts[0], IsSpace);
      (if t != "" then [t] else []) + KeepTags(parts[1..])
  }

  /** `[tag.strip() for tag in s.split(sep) if tag.strip()]`. */
  function ParseTags(s: string, sep: string): seq<string>
    requires |sep| > 0
  {
    KeepTags(Split(s, sep))
  }

  lemma {:induction false} KeepTagsKeepsClean(tags: seq<string>)
    requires forall k :: 0 <= k < |tags| ==> tags[k] != "" && Strip(tags[k]) == tags[k]
    ensures KeepTags(tags) == tags
  {
    if |tags| > 0 {
      KeepTagsKeepsClean(tags[1..]);
      assert tags == [tags[0]] + tags[1..];
    }
  }

  /** Tags that are stripped, non-empty and free of commas come back out of
      their comma-joined text, as `to_row` writes it, unchanged. */
  lemma TagsRoundTrip(tags: seq<string>)
    requires forall k :: 0 <= k < |tags| ==> tags[k] != "" && Strip(tags[k]) == tags[k] && ',' !in tags[k]
    ensures ParseTags(Join(tags, ","), ",") == tags
  {
    if |tags| == 0 {
      SplitNoSeparator("", ',');
      assert Split("", ",") == [""];
      assert Strip("") == "";
    } else {
      SplitJoin(tags, ',');
      KeepTagsKeepsClean(tags);
    }
  }

  /** The row `to_row` writes for a record with clean string tags hands
      those tags back to the connectors' tag parser. */
  lemma RowTagsParseBack(r: ClubRecord)
    requires AllStrings(r.tags) && r.tags != []
    requires forall k :: 0 <= k < |r.tags| ==>
      r.tags[k].s != "" && Strip(r.tags[k].s) == r.tags[k].s && ',' !in r.tags[k].s
    ensures ToRow(r).Ok? && ToRow(r).value.tags.Str?
    ensures ParseTags(ToRow(r).value.tags.s, ",") == Strings(r.tags)
  {
    var tags := Strings(r.tags);
    TagsRoundTrip(tags);
  }

  /** The maximal runs of non-whitespace characters: `s.split()`. */
  function Words(s: string): (r: seq<string>)
    ensures forall k :: 0 <= k < |r| ==> r[k] != "" && Run(r[k], IsSpace)
  {
    Runs(s, IsSpace)
  }

  /** No item of `w` is a separator. */
  predicate Run<T>(w: seq<T>, sep: T -> bool) {
    forall j :: 0 <= j < |w| ==> !sep(w[j])
  }

  /** The maximal runs of items that are not separators. */
  function Runs<T>(s: seq<T>, sep: T -> bool): (r: seq<seq<T>>)
    ensures forall k :: 0 <= k < |r| ==> r[k] != [] && Run(r[k], sep)
    decreases |s|
  {
    var t := LStripBy(s, sep);
    if t == [] then []
    else
      var n := RunLength(t, 0, sep);
      assert n > 0;
      var word := t[..n];
      assert Run(word, sep) by {
        assert forall j :: 0 <= j < n ==> word[j] == t[j];
      }
      var rest := Runs(t[n..], sep);
      RunsCons(word, rest, sep);
      [word] + rest
  }

  lemma RunsCons<T>(word: seq<T>, rest: seq<seq<T>>, sep: T -> bool)
    requires word != [] && Run(word, sep)
    requires forall k :: 0 <= k < |rest| ==> rest[k] != [] && Run(rest[k], sep)
    ensures forall k :: 0 <= k < |[word] + rest| ==> ([word] + rest)[k] != [] && Run(([word] + rest)[k], sep)
  {
    var r := [word] + rest;
    assert forall k :: 1 <= k < |r| ==> r[k] == rest[k - 1];
  }

  /** A run followed by a separator (or by nothing) is read as one piece,
      and the rest is read on its own. */
  lemma RunsWord<T>(w: seq<T>, rest: seq<T>, sep: T -> bool)
    requires w != [] && Run(w, sep)
    requires rest == [] || sep(rest[0])
    ensures Runs(w + rest, sep) == [w] + Runs(rest, sep)
  {
    var t := w + rest;
    assert t[0] == w[0];
    assert LStripBy(t, sep) == t;
    RunLengthOfWord(w, rest, sep, 0);
    assert t[..|w|] == w && t[|w|..] == rest;
  }

  /** The run starting inside `w` ends where `w` does. */
  lemma {:induction false} RunLengthOfWord<T>(w: seq<T>, rest: seq<T>, sep: T -> bool, i: nat)
    requires Run(w, sep) && (rest == [] || sep(rest[0])) && i <= |w|
    ensures RunLength(w + rest, i, sep) == |w|
    decreases |w| - i
  {
    var t := w + rest;
    if i < |w| {
      assert t[i] == w[i];
      RunLengthOfWord(w, rest, sep, i + 1);
    } else if rest != [] {
      assert t[i] == rest[0];
    }
  }

  /** A leading separator is skipped. */
  lemma RunsSkip<T>(x: T, s: seq<T>, sep: T -> bool)
    requires sep(x)
    ensures Runs([x] + s, sep) == Runs(s, sep)
  {
    assert ([x] + s)[1..] == s;
    assert LStripBy([x] + s, sep) == LStripBy(s, sep);
  }

  /** Round trip: `" ".join(words).split()` gives back non-empty words
      without whitespace. */
  lemma WordsJoin(words: seq<string>)
    requires forall k :: 0 <= k < |words| ==> words[k] != "" && Run(words[k], IsSpace)
    ensures Words(Join(words, " ")) == words
  {
    assert " " == [' '] && IsSpace(' ');
    RunsJoin(words, ' ', IsSpace);
  }

  /** Splitting runs joined by a separator gives the runs back. */
  lemma {:induction false} RunsJoin<T>(words: seq<seq<T>>, x: T, sep: T -> bool)
    requires sep(x)
    requires forall k :: 0 <= k < |words| ==> words[k] != [] && Run(words[k], sep)
    ensures Runs(Join(words, [x]), sep) == words
    decreases |words|
  {
    if |words| == 1 {
      RunsJoinOne(words[0], x, sep);
    } else if |words| > 1 {
      var rest := words[1..];
      assert forall k :: 0 <= k < |rest| ==> rest[k] != [] && Run(rest[k], sep) by {
        assert forall k :: 0 <= k < |rest| ==> rest[k] == words[k + 1];
      }
      RunsJoin(rest, x, sep);
      RunsJoinStep(words, x, sep);
    }
  }

  lemma RunsJoinOne<T>(w: seq<T>, x: T, sep: T -> bool)
    requires w != [] && Run(w, sep)
    ensures Runs(Join([w], [x]), sep) == [w]
  {
    RunsWord(w, [], sep);
    assert w + [] == w;
  }

  /** The inductive step of `RunsJoin`: the first run is read, the
      separator after it skipped, and the rest read back by hypothesis. */
  lemma RunsJoinStep<T>(words: seq<seq<T>>, x: T, sep: T -> bool)
    requires sep(x) && |words| > 1 && words[0] != [] && Run(words[0], sep)
    requires Runs(Join(words[1..], [x]), sep) == words[1..]
    ensures Runs(Join(words, [x]), sep) == words
  {
    var w, rest := words[0], words[1..];
    var tail := Join(rest, [x]);
    calc {
      Runs(Join(words, [x]), sep);
      { JoinCons(words, [x]); }
      Runs(w + ([x] + tail), sep);
      { RunsWord(w, [x] + tail, sep); }
      [w] + Runs([x] + tail, sep);
      { RunsSkip(x, tail, sep); }
      [w] + rest;
      words;
    }
  }

  /** The end of the run of non-separators starting at `i`. */
  function RunLength<T>(t: seq<T>, i: nat, sep: T -> bool): (n: nat)
    requires i <= |t|
    ensures i <= n <= |t|
    ensures forall j :: i <= j < n ==> !sep(t[j])
    ensures n < |t| ==> sep(t[n])
    decreases |t| - i
  {
    if i == |t| || sep(t[i]) then i else RunLength(t, i + 1, sep)
  }

  // ---------------------------------------------------------------------------
  // _build_record

  /** A path a field map may name: `None` (always the default) or text.
      `dot_lookup` splits any other path and raises `AttributeError`, unless
      the payload is `None`, for which it returns the default first. */
  predicate ValidPath(v: Value) {
    v.Null? || v.Str?
  }

  /** A field map entry: a path, or a list of paths. */
  predicate ValidSpec(v: Value) {
    ValidPath(v) || (v.List? && forall k :: 0 <= k < |v.items| ==> ValidPath(v.items[k]))
  }

  /** `dot_lookup(payload, path)` with the default `None`. */
  function LookupPath(payload: Value, path: Value): Value
    requires payload.Null? || ValidPath(path)
  {
    DotLookup(payload, if path.Str? then Some(path.s) else None, Null)
  }

  /** The value of one field: the lookup of its path, or the list of the
      lookups of its paths. */
  function FieldValue(payload: Value, spec: Value): Value
    requires payload.Null? || ValidSpec(spec)
  {
    if spec.List? then List(seq(|spec.items|, k requires 0 <= k < |spec.items| => LookupPath(payload, spec.items[k])))
    else LookupPath(payload, spec)
  }

  /** `v` is what the path `path` finds in `payload`: `None` for a `None`
      payload or path, and the dotted lookup of a text path. */
  predicate Found(payload: Value, path: Value, v: Value) {
    if payload.Null? || path.Null? then v == Null
    else path.Str? && v == DotLookup(payload, Some(path.s), Null)
  }

  /** `v` is what the field map entry `spec` finds: one found value per
      path of a list, or the value its single path finds. */
  predicate FoundAll(payload: Value, spec: Value, v: Value) {
    if spec.List? then
      v.List? && |v.items| == |spec.items| && forall j :: 0 <= j < |spec.items| ==> Found(payload, spec.items[j], v.items[j])
    else Found(payload, spec, v)
  }

  lemma FieldValueFound(payload: Value, spec: Value)
    requires payload.Null? || ValidSpec(spec)
    ensures FoundAll(payload, spec, FieldValue(payload, spec))
  {
  }

  /** The tag list: text is split on `tags_separator` (default ",", and
      `None` meaning whitespace) keeping stripped non-empty pieces; anything
      else goes through `ensure_list`. */
  function RecordTags(source: map<string, Value>, tagsValue: Value): (r: Result<seq<Value>, string>)
    ensures !tagsValue.Str? ==> r == Ok(EnsureList(tagsValue))
    ensures tagsValue.Str? && r.Ok? ==> AllStrings(r.value)
    ensures tagsValue.Str? && r.Ok? ==> forall k :: 0 <= k < |r.value| ==> r.value[k].s != "" && Strip(r.value[k].s) == r.value[k].s
    ensures tagsValue.Str? ==> var sep := DictGet(source, "tags_separator", Str(","));
      && (sep.Str? && sep.s != "" ==> r == Ok(StrValues(KeepTags(Split(tagsValue.s, sep.s)))))
      && (sep.Null? ==> r == Ok(StrValues(Words(tagsValue.s))))
      && (sep == Str("") ==> r == Err("ValueError"))
      && (!sep.Str? && !sep.Null? ==> r == Err("TypeError"))
  {
    if !tagsValue.Str? then Ok(EnsureList(tagsValue))
    else
      var sep := DictGet(source, "tags_separator", Str(","));
      var parts :=
        if sep.Str? && sep.s != "" then Ok(ParseTags(tagsValue.s, sep.s))
        else if sep.Null? then Ok(KeepTags(Words(tagsValue.s)))
        else if sep.Str? then Err("ValueError")
        else Err("TypeError");
      if sep.Null? then
        WordsClean(tagsValue.s);
        KeepTagsKeepsClean(Words(tagsValue.s));
        Ok(StrValues(parts.value))
      else if parts.Err? then Err(parts.error)
      else Ok(StrValues(parts.value))
  }

  /** Whitespace-split words are already stripped, so `tag.strip()` keeps
      each of them. */
  lemma WordsClean(s: string)
    ensures forall k :: 0 <= k < |Words(s)| ==> Words(s)[k] != "" && Strip(Words(s)[k]) == Words(s)[k]
  {
    var w := Words(s);
    forall k | 0 <= k < |w|
      ensures Strip(w[k]) == w[k]
    {
      StripByNoop(w[k], IsSpace);
    }
  }

  /** The `field_map` loop: every mapped field's value, or the
      `AttributeError` a field map entry that is not a path or a list of paths
      raises (on a payload other than `None`), or that a `field_map` without
      `items` raises. */
  function FieldValues(source: map<string, Value>, payload: Value): (r: Result<map<string, Value>, string>)
    ensures var fm := DictGet(source, "field_map", Dict(map[]));
      r.Err? <==> !fm.Dict? || (!payload.Null? && exists f :: f in fm.entries && !ValidSpec(fm.entries[f]))
    ensures r.Err? ==> r.error == "AttributeError"
    ensures r.Ok? ==> DictGet(source, "field_map", Dict(map[])).Dict?
    ensures r.Ok? ==> r.value.Keys == DictGet(source, "field_map", Dict(map[])).entries.Keys
    ensures r.Ok? ==> forall f :: f in r.value ==> FoundAll(payload, source["field_map"].entries[f], r.value[f])
  {
    var fieldMap := DictGet(source, "field_map", Dict(map[]));
    if !fieldMap.Dict? then Err("AttributeError")
    else
      var fm := fieldMap.entries;
      if !payload.Null? && !(forall k :: k in fm ==> ValidSpec(fm[k])) then Err("AttributeError")
      else
        var kw := map k | k in fm :: FieldValue(payload, fm[k]);
        assert forall f :: f in kw ==> FoundAll(payload, fm[f], kw[f]) by {
          forall f | f in kw ensures FoundAll(payload, fm[f], kw[f]) {
            FieldValueFound(payload, fm[f]);
          }
        }
        Ok(kw)
  }

  /** A `None` payload finds `None` for every field, whatever the field map
      names, without raising. */
  lemma FieldValuesNullPayload(source: map<string, Value>)
    requires DictGet(source, "field_map", Dict(map[])).Dict?
    ensures var r := FieldValues(source, Null);
      && r.Ok?
      && forall f :: f in r.value ==>
           r.value[f] == Null || (r.value[f].List? && forall j :: 0 <= j < |r.value[f].items| ==> r.value[f].items[j] == Null)
  {
    var r := FieldValues(source, Null);
    forall f | f in r.value
      ensures r.value[f] == Null || (r.value[f].List? && forall j :: 0 <= j < |r.value[f].items| ==> r.value[f].items[j] == Null)
    {
      var spec := source["field_map"].entries[f];
      assert FoundAll(Null, spec, r.value[f]);
      if spec.List? {
        forall j | 0 <= j < |r.value[f].items| ensures r.value[f].items[j] == Null {
          assert Found(Null, spec.items[j], r.value[f].items[j]);
        }
      }
    }
  }

  /** The club name `(club_name or "")`, before stripping. */
  function NameValue(kw: map<string, Value>): Value {
    Or(DictGet(kw, "club_name", Null), Str(""))
  }

  /** The rest of `_build_record`, from the mapped field values `kw`: no
      record for a blank name; then, in the order Python evaluates them, the
      error of a non-text name, of the tags, of a school without
      `school_name`, or of `_coerce_int`; otherwise the record, holding the
      school metadata, the stripped name, the mapped fields, the parsed tags,
      the coerced size and flag and the source's name and type. */
  function RecordFromFields(meta: map<string, Value>, source: map<string, Value>, kw: map<string, Value>, now: string)
    : (r: Result<Option<ClubRecord>, string>)
    ensures r.Ok? && r.value.Some? ==> r.value.value.clubName != ""
    ensures r.Ok? && r.value.Some? ==> Strip(r.value.value.clubName) == r.value.value.clubName
    ensures r == Ok(None) <==> NameValue(kw).Str? && Strip(NameValue(kw).s) == ""
    ensures !NameValue(kw).Str? ==> r == Err("AttributeError")
    ensures var name, tags := NameValue(kw), RecordTags(source, DictGet(kw, "tags", Null));
      name.Str? && Strip(name.s) != "" && tags.Err? ==> r == Err(tags.error)
    ensures var name, tags := NameValue(kw), RecordTags(source, DictGet(kw, "tags", Null));
      name.Str? && Strip(name.s) != "" && tags.Ok? && "school_name" !in meta ==> r == Err("KeyError")
    ensures var name, tags := NameValue(kw), RecordTags(source, DictGet(kw, "tags", Null));
      var size := CoerceInt(DictGet(kw, "membership_size", Null));
      name.Str? && Strip(name.s) != "" && tags.Ok? && "school_name" in meta && size.Err? ==> r == Err(size.error)
    ensures var name, tags := NameValue(kw), RecordTags(source, DictGet(kw, "tags", Null));
      var size := CoerceInt(DictGet(kw, "membership_size", Null));
      r.Ok? && r.value.Some? <==> name.Str? && Strip(name.s) != "" && tags.Ok? && "school_name" in meta && size.Ok?
    ensures r.Ok? && r.value.Some? ==> var c := r.value.value;
      && "school_name" in meta && c.schoolName == meta["school_name"]
      && c.unitId == DictGet(meta, "unit_id", Null)
      && c.schoolCity == DictGet(meta, "city", Null)
      && c.schoolState == DictGet(meta, "state", Null)
      && NameValue(kw).Str? && c.clubName == Strip(NameValue(kw).s)
      && c.summary == DictGet(kw, "summary", Null)
      && c.category == DictGet(kw, "category", Null)
      && c.subcategory == DictGet(kw, "subcategory", Null)
      && c.tags == RecordTags(source, DictGet(kw, "tags", Null)).value
      && c.membershipSize == CoerceInt(DictGet(kw, "membership_size", Null)).value
      && c.meetingCadence == DictGet(kw, "meeting_cadence", Null)
      && c.isVirtual == CoerceBool(DictGet(kw, "is_virtual", Null))
      && c.contactEmail == DictGet(kw, "contact_email", Null)
      && c.contactUrl == DictGet(kw, "contact_url", Null)
      && c.sourceName == DictGet(source, "name", Null)
      && c.sourceType == DictGet(source, "type", Null)
      && c.ingestedAt == now
  {
    var nameValue := NameValue(kw);
    if !nameValue.Str? then Err("AttributeError")
    else
      var name := Strip(nameValue.s);
      StripIdempotent(nameValue.s, IsSpace);
      if name == "" then Ok(None)
      else
        var tags := RecordTags(source, DictGet(kw, "tags", Null));
        if tags.Err? then Err(tags.error)
        else if "school_name" !in meta then Err("KeyError")
        else
          var size := CoerceInt(DictGet(kw, "membership_size", Null));
          if size.Err? then Err(size.error)
          else
            Ok(Some(ClubRecord(
              meta["school_name"],
              DictGet(meta, "unit_id", Null),
              DictGet(meta, "city", Null),
              DictGet(meta, "state", Null),
              name,
              DictGet(kw, "summary", Null),
              DictGet(kw, "category", Null),
              DictGet(kw, "subcategory", Null),
              tags.value,
              size.value,
              DictGet(kw, "meeting_cadence", Null),
              CoerceBool(DictGet(kw, "is_virtual", Null)),
              DictGet(kw, "contact_email", Null),
              DictGet(kw, "contact_url", Null),
              DictGet(source, "name", Null),
              DictGet(source, "type", Null),
              now)))
  }

  /** `_build_record`: the field values of the payload, then the record
      made of them. */
  function BuildRecord(meta: map<string, Value>, source: map<string, Value>, payload: Value, now: string)
    : (r: Result<Option<ClubRecord>, string>)
    ensures r.Ok? && r.value.Some? ==> r.value.value.clubName != ""
    ensures r.Ok? && r.value.Some? ==> Strip(r.value.value.clubName) == r.value.value.clubName
    ensures r.Ok? && r.value.Some? ==> "school_name" in meta && r.value.value.schoolName == meta["school_name"]
    ensures r.Ok? && r.value.Some? ==> r.value.value.ingestedAt == now
    ensures FieldValues(source, payload).Err? ==> r == Err("AttributeError")
    ensures FieldValues(source, payload).Ok? ==> r == RecordFromFields(meta, source, FieldValues(source, payload).value, now)
    ensures r.Ok? && r.value.Some? ==> var c, kw := r.value.value, FieldValues(source, payload).value;
      && "club_name" in kw && kw["club_name"].Str? && c.clubName == Strip(kw["club_name"].s)
      && FoundAll(payload, source["field_map"].entries["club_name"], kw["club_name"])
  {
    var kw := FieldValues(source, payload);
    if kw.Err? then Err(kw.error)
    else
      var r := RecordFromFields(meta, source, kw.value, now);
      assert r.Ok? && r.value.Some? ==> Truthy(DictGet(kw.value, "club_name", Null));
      r
  }

  /** A field map naming only the club name, by a one-segment path, reads
      that one key of a dictionary payload. */
  lemma FieldValuesNameOnly(source: map<string, Value>, m: map<string, Value>, key: string)
    requires source == map["field_map" := Dict(map["club_name" := Str(key)])]
    requires '.' !in key
    ensures FieldValues(source, Dict(m)) == Ok(map["club_name" := DotLookup(Dict(m), Some(key), Null)])
  {
    FieldValuesSingle(source, Dict(m), "club_name", Str(key));
    assert FieldValue(Dict(m), Str(key)) == DotLookup(Dict(m), Some(key), Null);
  }

  /** A field map of one field yields that one field's value. */
  lemma FieldValuesSingle(source: map<string, Value>, payload: Value, field: string, spec: Value)
    requires source == map["field_map" := Dict(map[field := spec])]
    requires ValidSpec(spec)
    ensures FieldValues(source, payload) == Ok(map[field := FieldValue(payload, spec)])
  {
    var fm := map[field := spec];
    assert DictGet(source, "field_map", Dict(map[])) == Dict(fm);
    assert forall k :: k in fm ==> ValidSpec(fm[k]);
    var kw := map k | k in fm :: FieldValue(payload, fm[k]);
    assert kw.Keys == {field};
    assert kw == map[field := FieldValue(payload, spec)];
  }

  /** A payload whose mapped club name is missing, falsy or blank is
      skipped, whatever else the school and source hold. */
  lemma BuildRecordSkipsBlankName(meta: map<string, Value>, source: map<string, Value>,
                                  kw: map<string, Value>, now: string)
    requires var v := DictGet(kw, "club_name", Null); !Truthy(v) || (v.Str? && Strip(v.s) == "")
    ensures RecordFromFields(meta, source, kw, now) == Ok(None)
  {
    if !Truthy(DictGet(kw, "club_name", Null)) {
      assert Strip("") == "";
    }
  }

  /** With a field map naming only the club name, a dictionary payload
      holding a non-blank name under that key becomes a record with the
      stripped name and every other field at its default; a blank one is
      skipped. */
  lemma BuildRecordNameOnly(meta: map<string, Value>, source: map<string, Value>,
                            m: map<string, Value>, key: string, name: string, now: string)
    requires source == map["field_map" := Dict(map["club_name" := Str(key)])]
    requires '.' !in key && key in m && m[key] == Str(name)
    requires "school_name" in meta
    ensures var r := BuildRecord(meta, source, Dict(m), now);
      && r.Ok?
      && (r.value.None? <==> Strip(name) == "")
      && (r.value.Some? ==>
            r.value.value.clubName == Strip(name) && r.value.value.tags == []
            && r.value.value.membershipSize.None? && r.value.value.isVirtual.None?)
  {
    FieldValuesNameOnly(source, m, key);
    DotLookupSingleKey(m, key, Null);
    var kw := map["club_name" := Str(name)];
    assert BuildRecord(meta, source, Dict(m), now) == RecordFromFields(meta, source, kw, now);
    assert DictGet(kw, "club_name", Null) == Str(name);
    assert DictGet(kw, "tags", Null) == Null;
    assert DictGet(kw, "membership_size", Null) == Null;
    assert DictGet(kw, "is_virtual", Null) == Null;
    RecordFromNameOnly(meta, source, kw, name, now);
  }

  /** Fields holding a club name and no tags, size or virtual flag give a
      record of that name, stripped, with those fields at their defaults, or
      nothing for a blank name. */
  lemma RecordFromNameOnly(meta: map<string, Value>, source: map<string, Value>, kw: map<string, Value>,
                           name: string, now: string)
    requires "school_name" in meta
    requires DictGet(kw, "club_name", Null) == Str(name)
    requires DictGet(kw, "tags", Null) == Null
    requires DictGet(kw, "membership_size", Null) == Null
    requires DictGet(kw, "is_virtual", Null) == Null
    ensures var r := RecordFromFields(meta, source, kw, now);
      && r.Ok?
      && (r.value.None? <==> Strip(name) == "")
      && (r.value.Some? ==>
            r.value.value.clubName == Strip(name) && r.value.value.tags == []
            && r.value.value.membershipSize.None? && r.value.value.isVirtual.None?)
  {
    assert RecordTags(source, Null) == Ok([]);
    assert CoerceInt(Null) == Ok(None);
    if Strip(name) == "" {
      BuildRecordSkipsBlankName(meta, source, kw, now);
    } else {
      assert name != "";
    }
  }

  /** `x` is the record `build` makes of one of the payloads. */
  ghost predicate Built<P, T>(build: P -> Result<Option<T>, string>, payloads: seq<P>, x: T) {
    exists j :: 0 <= j < |payloads| && build(payloads[j]) == Ok(Some(x))
  }

  /** The record a build produced, if any, as a list. */
  function Kept<T>(x: Option<T>): (r: seq<T>)
    ensures x.Some? ==> r == [x.value]
    ensures x.None? <==> r == []
  {
    if x.Some? then [x.value] else []
  }

  /** `[r for r in map(build, payloads) if r]`, stopping at the first
      exception. */
  function CollectRecords<P, T>(build: P -> Result<Option<T>, string>, payloads: seq<P>)
    : (r: Result<seq<T>, string>)
    ensures r.Ok? ==> |r.value| <= |payloads|
    decreases |payloads|
  {
    if |payloads| == 0 then Ok([])
    else
      var first := build(payloads[0]);
      if first.Err? then Err(first.error)
      else
        var rest := CollectRecords(build, payloads[1..]);
        if rest.Err? then Err(rest.error)
        else
          Ok(Kept(first.value) + rest.value)
  }

  /** Collecting page by page is collecting from all payloads at once: the
      records of two consecutive batches are the records of their
      concatenation. */
  lemma {:induction false} CollectRecordsAppend<P, T>(build: P -> Result<Option<T>, string>,
                                                a: seq<P>, b: seq<P>)
    requires CollectRecords(build, a).Ok? && CollectRecords(build, b).Ok?
    ensures CollectRecords(build, a + b) == Ok(CollectRecords(build, a).value + CollectRecords(build, b).value)
    decreases |a|
  {
    var y := CollectRecords(build, b).value;
    if |a| == 0 {
      assert a + b == b;
      assert CollectRecords(build, a).value + y == y;
    } else {
      var rest, ab := a[1..], a + b;
      assert ab[0] == a[0] && ab[1..] == rest + b;
      CollectRecordsCons(build, a);
      CollectRecordsAppend(build, rest, b);
      var head, x := Kept(build(a[0]).value), CollectRecords(build, rest).value;
      CollectRecordsConsOk(build, ab, x + y);
      assert head + (x + y) == (head + x) + y;
    }
  }

  /** A successful collection from a non-empty list: the first payload's
      record, then the records of the rest. */
  lemma CollectRecordsCons<P, T>(build: P -> Result<Option<T>, string>, xs: seq<P>)
    requires |xs| > 0 && CollectRecords(build, xs).Ok?
    ensures build(xs[0]).Ok? && CollectRecords(build, xs[1..]).Ok?
    ensures CollectRecords(build, xs).value == Kept(build(xs[0]).value) + CollectRecords(build, xs[1..]).value
  {
  }

  lemma CollectRecordsConsOk<P, T>(build: P -> Result<Option<T>, string>, xs: seq<P>, rest: seq<T>)
    requires |xs| > 0 && build(xs[0]).Ok? && CollectRecords(build, xs[1..]) == Ok(rest)
    ensures CollectRecords(build, xs) == Ok(Kept(build(xs[0]).value) + rest)
  {
  }

  /** Collection stops at the first payload that fails to build, with its
      error. */
  lemma {:induction false} CollectRecordsFirstError<P, T>(build: P -> Result<Option<T>, string>, xs: seq<P>, k: nat)
    requires k < |xs| && build(xs[k]).Err?
    requires forall j :: 0 <= j < k ==> build(xs[j]).Ok?
    ensures CollectRecords(build, xs) == Err(build(xs[k]).error)
    decreases k
  {
    if k > 0 {
      var rest := xs[1..];
      assert forall j :: 0 <= j < k - 1 ==> rest[j] == xs[j + 1];
      assert rest[k - 1] == xs[k];
      CollectRecordsFirstError(build, rest, k - 1);
    }
  }

  /** Every collected record was built from one of the payloads. */
  lemma {:induction false} CollectRecordsBuilt<P, T>(build: P -> Result<Option<T>, string>, payloads: seq<P>)
    requires CollectRecords(build, payloads).Ok?
    ensures var r := CollectRecords(build, payloads).value;
      forall k :: 0 <= k < |r| ==> Built(build, payloads, r[k])
    decreases |payloads|
  {
    if |payloads| > 0 {
      CollectRecordsCons(build, payloads);
      var rest := payloads[1..];
      CollectRecordsBuilt(build, rest);
      var r := CollectRecords(build, payloads).value;
      var head := Kept(build(payloads[0]).value);
      var tail := CollectRecords(build, rest).value;
      forall k | 0 <= k < |r|
        ensures Built(build, payloads, r[k])
      {
        if k < |head| {
          assert r[k] == head[k];
          assert build(payloads[0]) == Ok(Some(r[k]));
        } else {
          assert r[k] == tail[k - |head|];
          var j :| 0 <= j < |rest| && build(rest[j]) == Ok(Some(r[k]));
          assert payloads[j + 1] == rest[j];
        }
      }
    }
  }

  /** The records a connector builds from its payloads. */
  function BuildRecords(meta: map<string, Value>, source: map<string, Value>, payloads: seq<Value>, now: string)
    : (r: Result<seq<ClubRecord>, string>)
    ensures r.Ok? ==> |r.value| <= |payloads|
    ensures r.Ok? ==> forall k :: 0 <= k < |r.value| ==> r.value[k].clubName != "" && r.value[k].ingestedAt == now
  {
    var build := p => BuildRecord(meta, source, p, now);
    var r := CollectRecords(build, payloads);
    if r.Ok? then
      CollectRecordsBuilt(build, payloads);
      r
    else r
  }

  // ---------------------------------------------------------------------------
  // JSONAPIConnector._extract_items and pagination

  /** The items a response holds: a list's elements, a dictionary itself,
      and nothing for anything else (which the source only logs). */
  function ItemsOf(p: Value): (r: seq<Value>)
    ensures p.List? ==> r == p.items
    ensures p.Dict? ==> r == [p]
    ensures !p.List? && !p.Dict? ==> r == []
  {
    if p.List? then p.items else if p.Dict? then [p] else []
  }

  /** `_extract_items`: the items of the payload, after following
      `data_path` when it is truthy. A truthy path that is not text cannot
      be split, unless the payload is `None`, for which `dot_lookup` returns
      the default first. */
  function ExtractItems(payload: Value, dataPath: Value): (r: Result<seq<Value>, string>)
    ensures r.Err? <==> Truthy(dataPath) && !dataPath.Str? && !payload.Null?
    ensures r.Err? ==> r.error == "AttributeError"
    ensures payload.Null? ==> r == Ok([])
    ensures !Truthy(dataPath) ==> r == Ok(ItemsOf(payload))
  {
    if !Truthy(dataPath) then Ok(ItemsOf(payload))
    else if dataPath.Str? then Ok(ItemsOf(DotLookup(payload, Some(dataPath.s), Null)))
    else if payload.Null? then Ok([])
    else Err("AttributeError")
  }

  /** Following the data path `p.q` is following `p` and then `q`. */
  lemma ExtractItemsCompose(payload: Value, p: string, q: string)
    requires q != ""
    ensures ExtractItems(payload, Str(p + "." + q)) == ExtractItems(DotLookup(payload, Some(p), Null), Str(q))
  {
    var path := p + "." + q;
    assert |path| > 0;
    ExtractItemsAlong(payload, path);
    ExtractItemsAlong(DotLookup(payload, Some(p), Null), q);
    DotLookupCompose(payload, p, q);
  }

  lemma ExtractItemsAlong(payload: Value, path: string)
    requires path != ""
    ensures ExtractItems(payload, Str(path)) == Ok(ItemsOf(DotLookup(payload, Some(path), Null)))
  {
  }

  /** The lists one after the other. */
  function Concat<T>(xs: seq<seq<T>>): (r: seq<T>)
    ensures xs == [] ==> r == []
    decreases |xs|
  {
    if xs == [] then [] else xs[0] + Concat(xs[1..])
  }

  lemma ConcatCons<T>(x: seq<T>, xs: seq<seq<T>>)
    ensures Concat([x] + xs) == x + Concat(xs)
  {
    assert ([x] + xs)[1..] == xs;
  }

  /** What a payload generator did: the query parameters of each request it
      sent, the items each answered request yielded, and how it ended:
      `None` when it stopped on its own, otherwise the error it raised after
      yielding its items. */
  datatype Crawl = Crawl(requests: seq<map<string, Value>>, batches: seq<seq<Value>>, error: Option<string>)
  {
    /** The items the generator yields: the batches one after the other. */
    function Items(): seq<Value> {
      Concat(batches)
    }
  }

  /** The crawl that makes `request` first, yielding `items`, and then
      continues as `c`. */
  function Extend(request: map<string, Value>, items: seq<Value>, c: Crawl): (r: Crawl)
    ensures |r.requests| == |c.requests| + 1 && r.requests[0] == request
    ensures forall k :: 1 <= k < |r.requests| ==> r.requests[k] == c.requests[k - 1]
    ensures |r.batches| == |c.batches| + 1 && r.batches[0] == items
    ensures forall k :: 1 <= k < |r.batches| ==> r.batches[k] == c.batches[k - 1]
    ensures r.error == c.error
    ensures r.Items() == items + c.Items()
  {
    ConcatCons(items, c.batches);
    Crawl([request] + c.requests, [items] + c.batches, c.error)
  }

  /** The items one request yields. */
  function Batch(fetch: map<string, Value> -> Result<Value, string>, request: map<string, Value>, dataPath: Value)
    : Result<seq<Value>, string>
  {
    var payload := fetch(request);
    if payload.Err? then Err(payload.error) else ExtractItems(payload.value, dataPath)
  }

  /** Each answered request's batch is what that request fetched; when one
      request more was sent than answered, it raised the crawl's error. */
  predicate Fetched(fetch: map<string, Value> -> Result<Value, string>, c: Crawl, dataPath: Value) {
    && |c.batches| <= |c.requests| <= |c.batches| + 1
    && (forall k :: 0 <= k < |c.batches| ==> Batch(fetch, c.requests[k], dataPath) == Ok(c.batches[k]))
    && (|c.requests| == |c.batches| + 1 ==>
          c.error.Some? && Batch(fetch, c.requests[|c.batches|], dataPath) == Err(c.error.value))
  }

  lemma ExtendFetched(fetch: map<string, Value> -> Result<Value, string>, request: map<string, Value>,
                      items: seq<Value>, c: Crawl, dataPath: Value)
    requires Batch(fetch, request, dataPath) == Ok(items)
    requires Fetched(fetch, c, dataPath)
    ensures Fetched(fetch, Extend(request, items, c), dataPath)
  {
    var r := Extend(request, items, c);
    if |r.requests| == |r.batches| + 1 {
      assert r.requests[|r.batches|] == c.requests[|c.batches|];
    }
  }

  /** The offset loop's stop rule: every batch before the last yielded
      items; a crawl that stopped on its own stopped at an empty batch, and
      one that raised did so before any empty batch. */
  predicate StopsAtFirstEmpty(c: Crawl) {
    && (forall k :: 0 <= k < |c.batches| - 1 ==> c.batches[k] != [])
    && (c.error.None? ==> |c.batches| > 0 && c.batches[|c.batches| - 1] == [])
    && (c.error.Some? ==> forall k :: 0 <= k < |c.batches| ==> c.batches[k] != [])
  }

  lemma ExtendStops(request: map<string, Value>, items: seq<Value>, c: Crawl)
    requires items != [] && StopsAtFirstEmpty(c)
    ensures StopsAtFirstEmpty(Extend(request, items, c))
  {
  }

  /** The parameters of an offset request: the earlier ones with the page
      size and the offset set. */
  function OffsetRequest(params: map<string, Value>, sizeParam: string, offsetParam: string, pageSize: int,
                         offset: int): (r: map<string, Value>)
    ensures offsetParam in r && r[offsetParam] == Int(offset)
    ensures sizeParam != offsetParam ==> sizeParam in r && r[sizeParam] == Int(pageSize)
    ensures forall key :: key in params || key == sizeParam || key == offsetParam <==> key in r
  {
    params[sizeParam := Int(pageSize)][offsetParam := Int(offset)]
  }

  /** Offset pagination: request `page_size` items at `offset`, then at
      `offset + page_size`, and so on, until a page yields nothing or a
      request fails. `fuel` bounds the number of requests; running out of it
      is a model-only error. */
  function OffsetCrawl(fetch: map<string, Value> -> Result<Value, string>, params: map<string, Value>,
                       sizeParam: string, offsetParam: string, pageSize: int, offset: int,
                       dataPath: Value, fuel: nat): (c: Crawl)
    ensures Fetched(fetch, c, dataPath) && StopsAtFirstEmpty(c)
    ensures c.error.Some? && |c.requests| == |c.batches| ==> c.error == Some("OutOfFuel")
    ensures sizeParam != offsetParam ==> AllCarry(c.requests, sizeParam, Int(pageSize))
    ensures OffsetsFrom(c.requests, offsetParam, offset, pageSize)
    decreases fuel
  {
    if fuel == 0 then Crawl([], [], Some("OutOfFuel"))
    else
      var request := OffsetRequest(params, sizeParam, offsetParam, pageSize, offset);
      var batch := Batch(fetch, request, dataPath);
      if batch.Err? then Crawl([request], [], Some(batch.error))
      else if batch.value == [] then Crawl([request], [[]], None)
      else
        var rest := OffsetCrawl(fetch, request, sizeParam, offsetParam, pageSize, offset + pageSize, dataPath, fuel - 1);
        ExtendFetched(fetch, request, batch.value, rest, dataPath);
        ExtendStops(request, batch.value, rest);
        ExtendKeeps(request, batch.value, rest, sizeParam, Int(pageSize), sizeParam != offsetParam);
        ExtendOffsets(request, batch.value, rest, offsetParam, offset, pageSize);
        Extend(request, batch.value, rest)
  }

  /** Every request sets `key` to `v`. */
  predicate AllCarry(requests: seq<map<string, Value>>, key: string, v: Value) {
    forall k :: 0 <= k < |requests| ==> key in requests[k] && requests[k][key] == v
  }

  /** Request `k` sets `key` to page `page + k`. */
  predicate NumberedFrom(requests: seq<map<string, Value>>, key: string, page: int) {
    forall k :: 0 <= k < |requests| ==> key in requests[k] && requests[k][key] == Int(page + k)
  }

  /** A parameter every request of a crawl sets to `v` stays so when a
      request setting it to `v` goes in front (when `holds`). */
  lemma ExtendKeeps(request: map<string, Value>, items: seq<Value>, c: Crawl, key: string, v: Value, holds: bool)
    requires holds ==> key in request && request[key] == v
    requires holds ==> AllCarry(c.requests, key, v)
    ensures holds ==> AllCarry(Extend(request, items, c).requests, key, v)
  {
    var r := Extend(request, items, c).requests;
    if holds {
      forall k | 0 <= k < |r| ensures key in r[k] && r[k][key] == v {
        if k > 0 {
          assert r[k] == c.requests[k - 1];
        }
      }
    }
  }

  /** Putting the request at `start` in front of a crawl that starts one
      page later numbers the offsets from `start`. */
  lemma ExtendOffsets(request: map<string, Value>, items: seq<Value>, c: Crawl, key: string, start: int, pageSize: int)
    requires key in request && request[key] == Int(start)
    requires OffsetsFrom(c.requests, key, start + pageSize, pageSize)
    ensures OffsetsFrom(Extend(request, items, c).requests, key, start, pageSize)
  {
    var r := Extend(request, items, c).requests;
    forall k | 0 <= k < |r| ensures key in r[k] && r[k][key] == Int(OffsetOf(start, pageSize, k)) {
      if k > 0 {
        assert r[k] == c.requests[k - 1];
      }
    }
  }

  /** Request `k` sets `key` to the `k`-th offset from `start`. */
  predicate OffsetsFrom(requests: seq<map<string, Value>>, key: string, start: int, pageSize: int) {
    forall k :: 0 <= k < |requests| ==> key in requests[k] && requests[k][key] == Int(OffsetOf(start, pageSize, k))
  }

  /** The `k`-th offset from `start` is `start + k * page_size`. */
  lemma OffsetsFromValue(requests: seq<map<string, Value>>, key: string, start: int, pageSize: int)
    requires OffsetsFrom(requests, key, start, pageSize)
    ensures forall k :: 0 <= k < |requests| ==> key in requests[k] && requests[k][key] == Int(start + k * pageSize)
  {
    forall k | 0 <= k < |requests| ensures requests[k][key] == Int(start + k * pageSize) {
      OffsetOfValue(start, pageSize, k);
    }
  }

  /** The offset of request `k` of a crawl starting at `start`: each
      request moves on by one page. */
  function OffsetOf(start: int, pageSize: int, k: nat): int
    decreases k
  {
    if k == 0 then start else OffsetOf(start + pageSize, pageSize, k - 1)
  }

  lemma {:induction false} OffsetOfValue(start: int, pageSize: int, k: nat)
    ensures OffsetOf(start, pageSize, k) == start + k * pageSize
    decreases k
  {
    if k > 0 {
      OffsetOfValue(start + pageSize, pageSize, k - 1);
    }
  }

  /** The k-th request of an offset crawl asks for offset
      `start + k * page_size`. */
  lemma OffsetCrawlOffsets(fetch: map<string, Value> -> Result<Value, string>, params: map<string, Value>,
                           sizeParam: string, offsetParam: string, pageSize: int, offset: int,
                           dataPath: Value, fuel: nat)
    ensures var c := OffsetCrawl(fetch, params, sizeParam, offsetParam, pageSize, offset, dataPath, fuel);
      forall k :: 0 <= k < |c.requests| ==>
        offsetParam in c.requests[k] && c.requests[k][offsetParam] == Int(offset + k * pageSize)
  {
    var c := OffsetCrawl(fetch, params, sizeParam, offsetParam, pageSize, offset, dataPath, fuel);
    OffsetsFromValue(c.requests, offsetParam, offset, pageSize);
  }

  /** Whether `stop_after_pages` ends the crawl once the page counter has
      reached `page`: only when it is truthy and `page` exceeds it. */
  function PastStop(stop: Value, page: int): Result<bool, string> {
    if !Truthy(stop) then Ok(false)
    else
      match stop
      case Int(n) => Ok(page > n)
      case Bool(_) => Ok(page > 1)
      case Float(x) => Ok(page as real > x)
      case _ => Err("TypeError")
  }

  /** The parameters of a page request: the earlier ones with the page
      number and the page size set. */
  function PageRequest(params: map<string, Value>, pageParam: string, sizeParam: string, pageSize: Value,
                       page: int): (r: map<string, Value>)
    ensures sizeParam in r && r[sizeParam] == pageSize
    ensures pageParam != sizeParam ==> pageParam in r && r[pageParam] == Int(page)
    ensures forall key :: key in params || key == pageParam || key == sizeParam <==> key in r
  {
    params[pageParam := Int(page)][sizeParam := pageSize]
  }

  /** The page loop's stop rule, for a crawl starting at page `page`: every
      batch before the last yielded items and left the page counter within
      `stop_after_pages`; a crawl that stopped on its own stopped at an
      empty batch or once the counter passed the limit; one that raised
      after its last batch raised comparing the counter with the limit
      (or ran out of fuel). */
  predicate StopsAtEmptyOrLimit(c: Crawl, page: int, stop: Value) {
    && (forall k :: 0 <= k < |c.batches| - 1 ==> c.batches[k] != [] && PastStop(stop, page + k + 1) == Ok(false))
    && (c.error.None? ==>
          |c.batches| > 0 && (c.batches[|c.batches| - 1] == [] || PastStop(stop, page + |c.batches|) == Ok(true)))
    && (c.error.Some? && |c.requests| == |c.batches| && c.error != Some("OutOfFuel") ==>
          |c.batches| > 0 && c.batches[|c.batches| - 1] != []
          && PastStop(stop, page + |c.batches|) == Err(c.error.value))
  }

  lemma ExtendStopsAtLimit(request: map<string, Value>, items: seq<Value>, c: Crawl, page: int, stop: Value)
    requires items != [] && PastStop(stop, page + 1) == Ok(false)
    requires StopsAtEmptyOrLimit(c, page + 1, stop)
    requires c.error.None? || |c.requests| == |c.batches| + 1 || c.error == Some("OutOfFuel") || |c.batches| > 0
    ensures StopsAtEmptyOrLimit(Extend(request, items, c), page, stop)
  {
    var r := Extend(request, items, c);
    forall k | 0 <= k < |r.batches| - 1
      ensures r.batches[k] != [] && PastStop(stop, page + k + 1) == Ok(false)
    {
      if k > 0 {
        assert r.batches[k] == c.batches[k - 1];
        assert page + k + 1 == (page + 1) + (k - 1) + 1;
      }
    }
  }

  /** Putting the request for page `page` in front of a crawl that starts
      at the next page numbers the pages from `page` (when `holds`). */
  lemma ExtendPages(request: map<string, Value>, items: seq<Value>, c: Crawl, key: string, page: int, holds: bool)
    requires holds ==> key in request && request[key] == Int(page)
    requires holds ==> NumberedFrom(c.requests, key, page + 1)
    ensures holds ==> NumberedFrom(Extend(request, items, c).requests, key, page)
  {
    var r := Extend(request, items, c).requests;
    if holds {
      forall k | 0 <= k < |r| ensures key in r[k] && r[k][key] == Int(page + k) {
        if k > 0 {
          assert r[k] == c.requests[k - 1];
        }
      }
    }
  }

  /** The number of requests a crawl from page `page` makes under an
      integer `stop_after_pages`: pages up to the limit, and at least one. */
  predicate WithinLimit(c: Crawl, page: int, stop: Value) {
    stop.Int? && stop.i != 0 ==> |c.requests| <= if stop.i - page + 1 >= 1 then stop.i - page + 1 else 1
  }

  lemma ExtendWithinLimit(request: map<string, Value>, items: seq<Value>, c: Crawl, page: int, stop: Value)
    requires PastStop(stop, page + 1) == Ok(false)
    requires WithinLimit(c, page + 1, stop)
    ensures WithinLimit(Extend(request, items, c), page, stop)
  {
  }

  /** Page pagination: request page `page`, `page + 1`, ... until a page
      yields nothing, a request fails, or the next page number exceeds
      `stop_after_pages`. `fuel` bounds the number of requests; running out
      of it is a model-only error. */
  function PageCrawl(fetch: map<string, Value> -> Result<Value, string>, params: map<string, Value>,
                     pageParam: string, sizeParam: string, pageSize: Value, page: int, stop: Value,
                     dataPath: Value, fuel: nat): (c: Crawl)
    ensures Fetched(fetch, c, dataPath) && StopsAtEmptyOrLimit(c, page, stop)
    ensures WithinLimit(c, page, stop)
    ensures AllCarry(c.requests, sizeParam, pageSize)
    ensures pageParam != sizeParam ==> NumberedFrom(c.requests, pageParam, page)
    decreases fuel
  {
    if fuel == 0 then Crawl([], [], Some("OutOfFuel"))
    else
      var request := PageRequest(params, pageParam, sizeParam, pageSize, page);
      var batch := Batch(fetch, request, dataPath);
      if batch.Err? then Crawl([request], [], Some(batch.error))
      else if batch.value == [] then Crawl([request], [[]], None)
      else
        var past := PastStop(stop, page + 1);
        if past.Err? then Crawl([request], [batch.value], Some(past.error))
        else if past.value then Crawl([request], [batch.value], None)
        else
          var rest := PageCrawl(fetch, request, pageParam, sizeParam, pageSize, page + 1, stop, dataPath, fuel - 1);
          ExtendFetched(fetch, request, batch.value, rest, dataPath);
          ExtendStopsAtLimit(request, batch.value, rest, page, stop);
          ExtendWithinLimit(request, batch.value, rest, page, stop);
          ExtendKeeps(request, batch.value, rest, sizeParam, pageSize, true);
          ExtendPages(request, batch.value, rest, pageParam, page, pageParam != sizeParam);
          Extend(request, batch.value, rest)
  }

  /** A text-valued pagination setting with its default. */
  function TextSetting(pagination: map<string, Value>, key: string, default: string): Result<string, string> {
    var v := DictGet(pagination, key, Str(default));
    if v.Str? then Ok(v.s) else Err("UnsupportedKey")
  }

  /** An integer-valued pagination setting with its default. */
  function IntSetting(pagination: map<string, Value>, key: string, default: int): Result<int, string> {
    var v := DictGet(pagination, key, Int(default));
    if v.Int? then Ok(v.i) else Err("TypeError")
  }

  /** A generator that raised before sending any request. */
  function Failed(error: string): (c: Crawl)
    ensures c.Items() == [] && c.error == Some(error)
  {
    Crawl([], [], Some(error))
  }

  /** `_iterate_payloads`: one request without pagination, otherwise the
      offset or page crawl the `pagination.mode` names. */
  function IteratePayloads(source: map<string, Value>, fetch: map<string, Value> -> Result<Value, string>, fuel: nat)
    : (c: Crawl)
    ensures Fetched(fetch, c, DictGet(source, "data_path", Null))
    ensures var p := DictGet(source, "pagination", Null);
      (DictGet(source, "params", Dict(map[])).Dict? && p.Dict? && Truthy(p)
       && DictGet(p.entries, "mode", Null) !in {Str("offset"), Str("page")}) ==> c == Failed("ValueError")
    ensures var p, params := DictGet(source, "pagination", Null), DictGet(source, "params", Dict(map[]));
      !Truthy(p) && params.Dict? && "url" in source ==> c.requests == [params.entries] && |c.batches| <= 1
    ensures "url" !in source ==> c.Items() == [] && c.error.Some?
  {
    var pagination := DictGet(source, "pagination", Null);
    var paramsValue := DictGet(source, "params", Dict(map[]));
    var dataPath := DictGet(source, "data_path", Null);
    if !paramsValue.Dict? then Failed("TypeError")
    else
      var params := paramsValue.entries;
      if !Truthy(pagination) then
        if "url" !in source then Failed("KeyError")
        else
          var batch := Batch(fetch, params, dataPath);
          if batch.Err? then Crawl([params], [], Some(batch.error)) else Crawl([params], [batch.value], None)
      else if !pagination.Dict? then Failed("AttributeError")
      else
        var pg := pagination.entries;
        var mode := DictGet(pg, "mode", Null);
        if mode == Str("offset") then
          var sizeParam := TextSetting(pg, "size_param", "limit");
          var offsetParam := TextSetting(pg, "offset_param", "offset");
          var pageSize := IntSetting(pg, "page_size", 100);
          var start := IntSetting(pg, "start", 0);
          if sizeParam.Err? then Failed(sizeParam.error)
          else if offsetParam.Err? then Failed(offsetParam.error)
          else if pageSize.Err? then Failed(pageSize.error)
          else if start.Err? then Failed(start.error)
          else if "url" !in source then Failed("KeyError")
          else OffsetCrawl(fetch, params, sizeParam.value, offsetParam.value, pageSize.value, start.value, dataPath, fuel)
        else if mode == Str("page") then
          var pageParam := TextSetting(pg, "page_param", "page");
          var sizeParam := TextSetting(pg, "size_param", "per_page");
          var start := IntSetting(pg, "start", 1);
          if pageParam.Err? then Failed(pageParam.error)
          else if sizeParam.Err? then Failed(sizeParam.error)
          else if start.Err? then Failed(start.error)
          else if "url" !in source then Failed("KeyError")
          else PageCrawl(fetch, params, pageParam.value, sizeParam.value, DictGet(pg, "page_size", Int(100)),
                         start.value, DictGet(pg, "stop_after_pages", Null), dataPath, fuel)
        else Failed("ValueError")
  }

  // ---------------------------------------------------------------------------
  // The connectors

  datatype ConnectorKind = JsonApi | CsvFile | StaticRecords

  /** `build_connector`: the connector class for `type`. The membership
      test hashes `type`, so a list or dict raises `TypeError`; any other
      unknown type raises `ValueError`. */
  function BuildConnector(source: map<string, Value>): (r: Result<ConnectorKind, string>)
    ensures r.Ok? <==> DictGet(source, "type", Null) in {Str("json_api"), Str("csv_file"), Str("static")}
    ensures r.Err? ==> r.error == if Hashable(DictGet(source, "type", Null)) then "ValueError" else "TypeError"
    ensures r.Ok? && r.value == JsonApi ==> source["type"] == Str("json_api")
    ensures r.Ok? && r.value == CsvFile ==> source["type"] == Str("csv_file")
    ensures r.Ok? && r.value == StaticRecords ==> source["type"] == Str("static")
  {
    var t := DictGet(source, "type", Null);
    if !Hashable(t) then Err("TypeError")
    else if t == Str("json_api") then Ok(JsonApi)
    else if t == Str("csv_file") then Ok(CsvFile)
    else if t == Str("static") then Ok(StaticRecords)
    else Err("ValueError")
  }

  /** `StaticConnector.fetch`: the records of the inline `records` list,
      built payload by payload in order. */
  function StaticFetch(meta: map<string, Value>, source: map<string, Value>, now: string)
    : (r: Result<seq<ClubRecord>, string>)
    ensures "records" !in source ==> r == Ok([])
    ensures var v := DictGet(source, "records", List([]));
      v.List? || v.Tuple? ==> r == BuildRecords(meta, source, v.items, now)
  {
    var records := DictGet(source, "records", List([]));
    if records.List? || records.Tuple? then BuildRecords(meta, source, records.items, now)
    else Err("TypeError")
  }

  /** `CSVConnector.fetch`: `rows` is `None` when the file at `path` does not
      exist, otherwise the rows of the file as dictionaries. */
  function CsvFetch(meta: map<string, Value>, source: map<string, Value>,
                    rows: Option<seq<map<string, Value>>>, now: string)
    : (r: Result<seq<ClubRecord>, string>)
    ensures "path" !in source ==> r == Err("KeyError")
    ensures "path" in source && rows.None? ==> r == Err("FileNotFoundError")
    ensures "path" in source && rows.Some? ==>
      r == BuildRecords(meta, source, seq(|rows.value|, k requires 0 <= k < |rows.value| => Dict(rows.value[k])), now)
  {
    if "path" !in source then Err("KeyError")
    else if rows.None? then Err("FileNotFoundError")
    else BuildRecords(meta, source, seq(|rows.value|, k requires 0 <= k < |rows.value| => Dict(rows.value[k])), now)
  }

  /** `JSONAPIConnector.fetch`: records are built as the generator yields
      payloads, so a payload that fails to build raises before any later
      request is sent, and the generator's own error comes out only when
      every payload it yielded was built. */
  function JsonApiFetch(meta: map<string, Value>, source: map<string, Value>,
                        fetch: map<string, Value> -> Result<Value, string>, fuel: nat, now: string)
    : (r: Result<seq<ClubRecord>, string>)
    ensures var c := IteratePayloads(source, fetch, fuel);
      var built := BuildRecords(meta, source, c.Items(), now);
      && (built.Err? ==> r == Err(built.error))
      && (built.Ok? && c.error.Some? ==> r == Err(c.error.value))
      && (r.Ok? <==> built.Ok? && c.error.None?)
      && (r.Ok? ==> r.value == built.value)
  {
    var c := IteratePayloads(source, fetch, fuel);
    var built := BuildRecords(meta, source, c.Items(), now);
    if built.Err? then Err(built.error)
    else if c.error.Some? then Err(c.error.value)
    else Ok(built.value)
  }

  /** The first yielded payload that fails to build decides the error,
      whatever the generator would have done afterwards. */
  lemma JsonApiFetchFirstBuildError(meta: map<string, Value>, source: map<string, Value>,
                                    fetch: map<string, Value> -> Result<Value, string>, fuel: nat, now: string,
                                    k: nat)
    requires var items := IteratePayloads(source, fetch, fuel).Items();
      && k < |items| && BuildRecord(meta, source, items[k], now).Err?
      && forall j :: 0 <= j < k ==> BuildRecord(meta, source, items[j], now).Ok?
    ensures var items := IteratePayloads(source, fetch, fuel).Items();
      JsonApiFetch(meta, source, fetch, fuel, now) == Err(BuildRecord(meta, source, items[k], now).error)
  {
    var items := IteratePayloads(source, fetch, fuel).Items();
    CollectRecordsFirstError(p => BuildRecord(meta, source, p, now), items, k);
  }

  /** `build_connector(school_meta, source).fetch()`. */
  function FetchClubs(meta: map<string, Value>, source: map<string, Value>,
                      fetch: map<string, Value> -> Result<Value, string>, rows: Option<seq<map<string, Value>>>,
                      fuel: nat, now: string): (r: Result<seq<ClubRecord>, string>)
    ensures BuildConnector(source).Err? ==>
      r == Err(if Hashable(DictGet(source, "type", Null)) then "ValueError" else "TypeError")
    ensures r.Ok? ==> forall k :: 0 <= k < |r.value| ==> r.value[k].clubName != ""
  {
    var kind := BuildConnector(source);
    if kind.Err? then Err(kind.error)
    else
      match kind.value
      case JsonApi => JsonApiFetch(meta, source, fetch, fuel, now)
      case CsvFile => CsvFetch(meta, source, rows, now)
      case StaticRecords => StaticFetch(meta, source, now)
  }
}

=== FILE: club_models.dfy ===
/** `scripts/clubs/models.py`: the normalised club record and its row form. */
module ClubModels {
  import opened Wrappers
  import opened Text
  import opened PyValue

  /** `ClubRecord`. Fields the dataclass types as optional strings hold any
      value here, since nothing checks them; `ingestedAt` is the ISO-8601
      text of the ingestion time, which the model takes as given. */
  datatype ClubRecord = ClubRecord(
    schoolName: Value,
    unitId: Value,
    schoolCity: Value,
    schoolState: Value,
    clubName: string,
    summary: Value,
    category: Value,
    subcategory: Value,
    tags: seq<Value>,
    membershipSize: Option<int>,
    meetingCadence: Value,
    isVirtual: Option<bool>,
    contactEmail: Value,
    contactUrl: Value,
    sourceName: Value,
    sourceType: Value,
    ingestedAt: string
  )

  /** A record with every optional field at its default. */
  function DefaultClubRecord(schoolName: Value, ingestedAt: string): (r: ClubRecord)
    ensures r.schoolName == schoolName && r.ingestedAt == ingestedAt
    ensures r.clubName == "" && r.tags == []
    ensures r.membershipSize.None? && r.isVirtual.None?
  {
    ClubRecord(schoolName, Null, Null, Null, "", Null, Null, Null, [], None, Null, None,
               Null, Null, Null, Null, ingestedAt)
  }

  /** The dictionary `to_row` returns, one field per key of the same name
      (`school_name`, `unit_id`, ..., `ingested_at`). */
  datatype ClubRow = ClubRow(
    schoolName: Value,
    unitId: Value,
    schoolCity: Value,
    schoolState: Value,
    clubName: Value,
    summary: Value,
    category: Value,
    subcategory: Value,
    tags: Value,
    membershipSize: Value,
    meetingCadence: Value,
    isVirtual: Value,
    contactEmail: Value,
    contactUrl: Value,
    sourceName: Value,
    sourceType: Value,
    ingestedAt: Value
  )

  predicate AllStrings(xs: seq<Value>) {
    forall k :: 0 <= k < |xs| ==> xs[k].Str?
  }

  function Strings(xs: seq<Value>): (r: seq<string>)
    requires AllStrings(xs)
    ensures |r| == |xs| && forall k :: 0 <= k < |xs| ==> xs[k] == Str(r[k])
  {
    seq(|xs|, k requires 0 <= k < |xs| => xs[k].s)
  }

  function OptionInt(x: Option<int>): Value {
    if x.Some? then Int(x.value) else Null
  }

  function OptionBool(x: Option<bool>): Value {
    if x.Some? then Bool(x.value) else Null
  }

  /** `to_row`: the fields by name, with the tags joined by commas (`None`
      for no tags) and the ingestion time as text. Joining a tag that is not
      a string raises `TypeError`. */
  function ToRow(r: ClubRecord): (row: Result<ClubRow, string>)
    ensures row.Ok? <==> AllStrings(r.tags)
    ensures row.Ok? ==> row.value.clubName == Str(r.clubName) && row.value.ingestedAt == Str(r.ingestedAt)
    ensures row.Ok? ==> (row.value.tags == Null <==> r.tags == [])
    ensures row.Ok? && r.tags != [] ==> row.value.tags.Str?
    ensures row.Ok? && r.tags != [] && (forall k :: 0 <= k < |r.tags| ==> ',' !in r.tags[k].s) ==>
      Split(row.value.tags.s, ",") == Strings(r.tags)
    ensures row.Ok? ==> var w := row.value;
      && w.schoolName == r.schoolName && w.unitId == r.unitId
      && w.schoolCity == r.schoolCity && w.schoolState == r.schoolState
      && w.summary == r.summary && w.category == r.category && w.subcategory == r.subcategory
      && w.meetingCadence == r.meetingCadence && w.contactEmail == r.contactEmail
      && w.contactUrl == r.contactUrl && w.sourceName == r.sourceName && w.sourceType == r.sourceType
    ensures row.Ok? ==> (row.value.membershipSize == Null <==> r.membershipSize.None?)
    ensures row.Ok? && r.membershipSize.Some? ==> row.value.membershipSize == Int(r.membershipSize.value)
    ensures row.Ok? ==> (row.value.isVirtual == Null <==> r.isVirtual.None?)
    ensures row.Ok? && r.isVirtual.Some? ==> row.value.isVirtual == Bool(r.isVirtual.value)
  {
    if !AllStrings(r.tags) then Err("TypeError")
    else
      var tags := if r.tags == [] then Null else Str(Join(Strings(r.tags), ","));
      TagsSplit(Strings(r.tags));
      Ok(ClubRow(r.schoolName, r.unitId, r.schoolCity, r.schoolState, Str(r.clubName),
                 r.summary, r.category, r.subcategory, tags, OptionInt(r.membershipSize),
                 r.meetingCadence, OptionBool(r.isVirtual), r.contactEmail, r.contactUrl,
                 r.sourceName, r.sourceType, Str(r.ingestedAt)))
  }

  /** The pieces as Python strings. */
  function StrValues(parts: seq<string>): (r: seq<Value>)
    ensures |r| == |parts| && forall k :: 0 <= k < |r| ==> r[k] == Str(parts[k])
  {
    seq(|parts|, k requires 0 <= k < |parts| => Str(parts[k]))
  }

  /** A row read back as a record: text club name and timestamp, tags
      split on `,` (none for `None`), an integer or `None` size and a
      boolean or `None` virtual flag; `None` for a row of any other shape.
      This is the inverse `to_row` is checked against, not a function of
      the source. */
  function FromRow(w: ClubRow): (r: Option<ClubRecord>)
    ensures r.Some? ==> w.clubName == Str(r.value.clubName) && w.ingestedAt == Str(r.value.ingestedAt)
  {
    if !(w.clubName.Str? && w.ingestedAt.Str? && (w.tags.Null? || w.tags.Str?)
         && (w.membershipSize.Null? || w.membershipSize.Int?) && (w.isVirtual.Null? || w.isVirtual.Bool?))
    then None
    else
      Some(ClubRecord(
        w.schoolName, w.unitId, w.schoolCity, w.schoolState, w.clubName.s,
        w.summary, w.category, w.subcategory,
        if w.tags.Null? then [] else StrValues(Split(w.tags.s, ",")),
        if w.membershipSize.Int? then Some(w.membershipSize.i) else None,
        w.meetingCadence,
        if w.isVirtual.Bool? then Some(w.isVirtual.b) else None,
        w.contactEmail, w.contactUrl, w.sourceName, w.sourceType, w.ingestedAt.s))
  }

  /** Round trip: a record whose tags are comma-free strings is read back
      from its row unchanged, so `to_row` loses nothing else. */
  lemma ToRowRoundTrip(r: ClubRecord)
    requires AllStrings(r.tags) && forall k :: 0 <= k < |r.tags| ==> ',' !in r.tags[k].s
    ensures ToRow(r).Ok? && FromRow(ToRow(r).value) == Some(r)
  {
    if r.tags != [] {
      var tags := Strings(r.tags);
      assert StrValues(tags) == r.tags;
    }
  }

  /** Tags without commas split back out of their joined text. */
  lemma TagsSplit(tags: seq<string>)
    ensures tags != [] && (forall k :: 0 <= k < |tags| ==> ',' !in tags[k]) ==>
      Split(Join(tags, ","), ",") == tags
  {
    if tags != [] && (forall k :: 0 <= k < |tags| ==> ',' !in tags[k]) {
      SplitJoin(tags, ',');
    }
  }
}

=== FILE: config.dfy ===
/** `scripts/config.py`: environment variables with a fallback to the
    repository's `.env` file. The process environment is a map passed in and
    handed back (the hydration writes to it); the `.env` file is its text, or
    `None` when it does not exist, read once per process. */
module Config {
  import opened Wrappers
  import opened Text

  // ---------------------------------------------------------------------------
  // str.splitlines

  /** The characters `str.splitlines` breaks at. */
  predicate IsLineBreak(c: char) {
    c == '\n' || c == '\r' || c == '\U{b}' || c == '\U{c}'
    || c == '\U{1c}' || c == '\U{1d}' || c == '\U{1e}'
    || c == '\U{85}' || c == '\U{2028}' || c == '\U{2029}'
  }

  predicate NoLineBreak(s: string) {
    forall k :: 0 <= k < |s| ==> !IsLineBreak(s[k])
  }

  /** The index of the first line break at or after `i`, or `|s|`. */
  function NextBreak(s: string, i: nat): (n: nat)
    requires i <= |s|
    ensures i <= n <= |s|
    ensures forall k :: i <= k < n ==> !IsLineBreak(s[k])
    ensures n < |s| ==> IsLineBreak(s[n])
    decreases |s| - i
  {
    if i == |s| || IsLineBreak(s[i]) then i else NextBreak(s, i + 1)
  }

  /** `s.splitlines()`: the lines without their terminators, `\r\n` counting
      as one terminator and a final terminator not starting another line. */
  function SplitLines(s: string): (lines: seq<string>)
    ensures forall k :: 0 <= k < |lines| ==> NoLineBreak(lines[k])
    ensures s == "" <==> lines == []
    decreases |s|
  {
    if s == "" then []
    else
      var i := NextBreak(s, 0);
      if i == |s| then [s]
      else
        var width := if s[i] == '\r' && i + 1 < |s| && s[i + 1] == '\n' then 2 else 1;
        [s[..i]] + SplitLines(s[i + width..])
  }

  lemma NextBreakOfJoin(a: string, rest: string)
    requires NoLineBreak(a)
    ensures NextBreak(a + "\n" + rest, 0) == |a|
  {
    var s := a + "\n" + rest;
    NextBreakFrom(s, 0, |a|);
  }

  lemma {:induction false} NextBreakFrom(s: string, i: nat, n: nat)
    requires i <= n < |s| && IsLineBreak(s[n])
    requires forall k :: i <= k < n ==> !IsLineBreak(s[k])
    ensures NextBreak(s, i) == n
    decreases n - i
  {
    if i < n {
      NextBreakFrom(s, i + 1, n);
    }
  }

  lemma {:induction false} NextBreakNone(s: string, i: nat)
    requires i <= |s| && NoLineBreak(s)
    ensures NextBreak(s, i) == |s|
    decreases |s| - i
  {
    if i < |s| {
      NextBreakNone(s, i + 1);
    }
  }

  /** Lines without breaks, the last one non-empty, written one per `\n`
      line, split back into the same lines. */
  lemma {:induction false} SplitLinesJoin(lines: seq<string>)
    requires forall k :: 0 <= k < |lines| ==> NoLineBreak(lines[k])
    requires |lines| > 0 ==> lines[|lines| - 1] != ""
    ensures SplitLines(Join(lines, "\n")) == lines
    decreases |lines|
  {
    if |lines| == 1 {
      var s := lines[0];
      assert Join(lines, "\n") == s;
      NextBreakNone(s, 0);
    } else if |lines| > 1 {
      var a := lines[0];
      var rest := Join(lines[1..], "\n");
      var s := a + "\n" + rest;
      assert Join(lines, "\n") == s;
      NextBreakOfJoin(a, rest);
      assert s[..|a|] == a;
      assert s[|a|] == '\n';
      assert |a| + 1 < |s| ==> s[|a| + 1] == rest[0];
      assert rest != "" by {
        JoinNonEmpty(lines[1..]);
      }
      assert s[|a| + 1..] == rest;
      SplitLinesJoin(lines[1..]);
      assert lines == [a] + lines[1..];
    }
  }

  lemma {:induction false} JoinNonEmpty(lines: seq<string>)
    requires |lines| > 0 && lines[|lines| - 1] != ""
    ensures Join(lines, "\n") != ""
    decreases |lines|
  {
    if |lines| > 1 {
      assert Join(lines, "\n") == lines[0] + "\n" + Join(lines[1..], "\n");
    }
  }

  // ---------------------------------------------------------------------------
  // _read_env_file

  /** One line of `.env`: blank lines, `#` comments and lines without `=` are
      skipped; otherwise the stripped key before the first `=` and the value
      after it, stripped of whitespace, then of double quotes, then of single
      quotes. */
  function ParseEnvLine(raw: string): (r: Option<(string, string)>)
    ensures r.None? <==> Strip(raw) == "" || StartsWith(Strip(raw), "#") || '=' !in Strip(raw)
    ensures r.Some? ==> '=' !in r.value.0
  {
    ParseStripped(Strip(raw))
  }

  /** `ParseEnvLine` once the line is stripped. */
  function ParseStripped(line: string): (r: Option<(string, string)>)
    ensures r.None? <==> line == "" || StartsWith(line, "#") || '=' !in line
    ensures r.Some? ==> '=' !in r.value.0
  {
    if line == "" || StartsWith(line, "#") then None
    else
      match IndexOf(line, "=")
      case None =>
        IndexOfAbsent'(line, '=');
        None
      case Some(i) =>
        assert line[i] == '=' by { assert line[i..i + 1] == "="; }
        FirstEquals(line, i);
        var key := Strip(line[..i]);
        StripKeepsOut(line[..i], '=');
        Some((key, CleanValue(line[i + 1..])))
  }

  /** `value.strip().strip('"').strip("'")`. */
  function CleanValue(value: string): string {
    StripChars(StripChars(Strip(value), {'"'}), {'\''})
  }

  lemma FirstEquals(s: string, i: nat)
    requires IndexOf(s, "=") == Some(i)
    ensures '=' !in s[..i]
  {
    if '=' in s[..i] {
      var j :| 0 <= j < i && s[..i][j] == '=';
      assert s[j..j + 1] == "=";
      assert OccursAt(s, "=", j);
    }
  }

  /** Stripping never adds a character. */
  lemma StripKeepsOut(s: string, c: char)
    requires c !in s
    ensures c !in Strip(s)
  {
    var i, j := StripBySlice(s, IsSpace);
  }

  /** The values assigned by a sequence of parsed lines: later assignments
      win over earlier ones. */
  function Assignments(parsed: seq<Option<(string, string)>>): (m: map<string, string>)
    ensures forall k :: k in m ==> Some((k, m[k])) in parsed
  {
    if |parsed| == 0 then map[]
    else
      var m := Assignments(parsed[..|parsed| - 1]);
      assert forall x :: x in parsed[..|parsed| - 1] ==> x in parsed;
      match parsed[|parsed| - 1]
      case None => m
      case Some((key, value)) => m[key := value]
  }

  /** The `.env` file's values. */
  function ParseEnvLines(lines: seq<string>): seq<Option<(string, string)>> {
    seq(|lines|, j requires 0 <= j < |lines| => ParseEnvLine(lines[j]))
  }

  /** `_read_env_file`: nothing when the file is absent. */
  function ReadEnvFile(text: Option<string>): (m: map<string, string>)
    ensures text.None? ==> m == map[]
  {
    if text.None? then map[] else Assignments(ParseEnvLines(SplitLines(text.value)))
  }

  /** A key is set by the last line that sets it. */
  lemma {:induction false} AssignmentsLastWins(parsed: seq<Option<(string, string)>>, j: nat, key: string, value: string)
    requires j < |parsed| && parsed[j] == Some((key, value))
    requires forall k :: j < k < |parsed| ==> parsed[k].None? || parsed[k].value.0 != key
    ensures key in Assignments(parsed) && Assignments(parsed)[key] == value
    decreases |parsed|
  {
    if j < |parsed| - 1 {
      var init := parsed[..|parsed| - 1];
      assert init[j] == parsed[j];
      AssignmentsLastWins(init, j, key, value);
    }
  }

  /** The stripped line of an assignment whose key and value are already
      stripped is the line itself. */
  lemma StripAssignment(key: string, v: string)
    requires key != "" && Strip(key) == key
    requires v != "" && Strip(v) == v
    ensures Strip(key + "=" + v) == key + "=" + v
  {
    var line := key + "=" + v;
    var i, j := StripBySlice(key, IsSpace);
    var i', j' := StripBySlice(v, IsSpace);
    assert line[0] == key[0] && line[|line| - 1] == v[|v| - 1];
    StripByNoop(line, IsSpace);
  }

  /** The first `=` of `key=v` is the one after the key. */
  lemma SplitAssignment(key: string, v: string)
    requires '=' !in key
    ensures var line := key + "=" + v;
      IndexOf(line, "=") == Some(|key|) && line[..|key|] == key && line[|key| + 1..] == v
  {
    IndexOfSingle(key, '=', v);
    assert key + "=" + v == key + ['='] + v;
  }

  /** Cleaning a value that is stripped and free of quotes at its ends
      leaves it unchanged. */
  lemma CleanBareValue(value: string)
    requires value != "" && Strip(value) == value
    requires value[0] !in {'"', '\''} && value[|value| - 1] !in {'"', '\''}
    ensures CleanValue(value) == value
  {
    var last := value[|value| - 1];
    assert value[0] != '"' && value[0] != '\'' && last != '"' && last != '\'';
    assert value[0] !in {'"'} && last !in {'"'};
    assert value[0] !in {'\''} && last !in {'\''};
    StripCharsNoop(value, {'"'});
    StripCharsNoop(value, {'\''});
    assert CleanValue(value) == StripChars(StripChars(value, {'"'}), {'\''});
  }

  /** Cleaning a double-quoted such value gives the bare value. */
  lemma CleanQuotedValue(value: string)
    requires value != "" && Strip(value) == value
    requires value[0] !in {'"', '\''} && value[|value| - 1] !in {'"', '\''}
    ensures CleanValue("\"" + value + "\"") == value
  {
    var v := "\"" + value + "\"";
    StripByNoop(v, IsSpace);
    assert Strip(v) == v;
    StripQuotes(value);
    StripCharsNoop(value, {'\''});
  }

  /** An assignment line whose key and value are stripped parses into the
      key and the cleaned value. */
  lemma ParseAssignmentLine(key: string, v: string)
    requires key != "" && Strip(key) == key && '=' !in key && key[0] != '#'
    requires v != "" && Strip(v) == v
    ensures ParseEnvLine(key + "=" + v) == Some((key, CleanValue(v)))
  {
    var line := key + "=" + v;
    StripAssignment(key, v);
    SplitAssignment(key, v);
    assert line[0] == key[0];
    NotComment(line);
    ParsedAssignment(line, key, v);
  }

  /** A line whose first character is not `#` is not a comment. */
  lemma NotComment(line: string)
    requires line != "" && line[0] != '#'
    ensures !StartsWith(line, "#")
  {
    assert line[..1] == [line[0]];
  }

  /** A stripped line that is not a comment and splits at its first `=`
      into a stripped key and a value parses into them. */
  lemma ParsedAssignment(line: string, key: string, v: string)
    requires Strip(line) == line && line != "" && !StartsWith(line, "#")
    requires IndexOf(line, "=") == Some(|key|) && |key| < |line|
    requires line[..|key|] == key && line[|key| + 1..] == v && Strip(key) == key
    ensures ParseEnvLine(line) == Some((key, CleanValue(v)))
  {
    assert ParseEnvLine(line) == ParseStripped(line);
    ParseStrippedSplit(line, |key|);
  }

  /** A stripped line with content that is not a comment splits at its
      first `=`. */
  lemma ParseStrippedSplit(line: string, i: nat)
    requires line != "" && !StartsWith(line, "#")
    requires IndexOf(line, "=") == Some(i)
    ensures i < |line|
    ensures ParseStripped(line) == Some((Strip(line[..i]), CleanValue(line[i + 1..])))
  {
    assert OccursAt(line, "=", i);
  }

  /** A plain `KEY=value` line, the value optionally in double quotes, reads
      back as that key and value. */
  lemma ParseEnvLineAssignment(key: string, value: string, quoted: bool)
    requires key != "" && Strip(key) == key && '=' !in key && key[0] != '#'
    requires value != "" && Strip(value) == value
    requires value[0] !in {'"', '\''} && value[|value| - 1] !in {'"', '\''}
    ensures ParseEnvLine(key + "=" + (if quoted then "\"" + value + "\"" else value)) == Some((key, value))
  {
    if quoted {
      var v := "\"" + value + "\"";
      StripByNoop(v, IsSpace);
      ParseAssignmentLine(key, v);
      CleanQuotedValue(value);
    } else {
      ParseAssignmentLine(key, value);
      CleanBareValue(value);
    }
  }

  /** Stripping double quotes off a double-quoted value that does not itself
      start or end with one gives the value. */
  lemma StripQuotes(value: string)
    requires value != "" && value[0] != '"' && value[|value| - 1] != '"'
    ensures StripChars("\"" + value + "\"", {'"'}) == value
  {
    assert "\"" + value + "\"" == ['"'] + value + ['"'];
    StripWrapped(value, '"', {'"'});
  }

  /** Stripping a wrapping character off both ends of a value whose own
      ends are kept gives the value. */
  lemma StripWrapped(value: string, q: char, chars: set<char>)
    requires value != "" && q in chars && value[0] !in chars && value[|value| - 1] !in chars
    ensures StripChars([q] + value + [q], chars) == value
  {
    var drop := c => c in chars;
    var s := [q] + value + [q];
    assert StripChars(s, chars) == RStripBy(LStripBy(s, drop), drop);
    assert s == [q] + (value + [q]);
    LStripByWrapped(value + [q], q, drop);
    RStripByWrapped(value, q, drop);
  }

  // ---------------------------------------------------------------------------
  // get_env_var

  /** `get_env_var`: the process environment first, then the `.env` file
      (copying the value into the environment), then `default`, or
      `RuntimeError` when the variable is required. Returns the value and the
      environment afterwards. */
  function GetEnvVar(env: map<string, string>, envFile: Option<string>, name: string,
                     default: Option<string>, required: bool)
    : (r: Result<(Option<string>, map<string, string>), string>)
    ensures name in env ==> r == Ok((Some(env[name]), env))
    ensures r.Err? <==> name !in env && name !in ReadEnvFile(envFile) && required
    ensures r.Ok? && name !in env && name in ReadEnvFile(envFile) ==>
      r.value.0 == Some(ReadEnvFile(envFile)[name]) && r.value.1 == env[name := ReadEnvFile(envFile)[name]]
    ensures r.Ok? && name !in env && name !in ReadEnvFile(envFile) ==> r.value == (default, env)
  {
    if name in env then Ok((Some(env[name]), env))
    else
      var values := ReadEnvFile(envFile);
      if name in values then Ok((Some(values[name]), env[name := values[name]]))
      else if required then Err("RuntimeError")
      else Ok((default, env))
  }

  /** After a lookup found a value, asking again (with any default, required
      or not) finds the same value in the environment and changes nothing. */
  lemma GetEnvVarHydrates(env: map<string, string>, envFile: Option<string>, name: string,
                          default: Option<string>, required: bool, default': Option<string>, required': bool)
    requires name in env || name in ReadEnvFile(envFile)
    ensures var (v, env') := GetEnvVar(env, envFile, name, default, required).value;
      GetEnvVar(env', envFile, name, default', required') == Ok((v, env'))
  {
  }

  /** Entries other than `name` are never changed. */
  lemma GetEnvVarOthersUnchanged(env: map<string, string>, envFile: Option<string>, name: string,
                                 default: Option<string>, required: bool)
    requires GetEnvVar(env, envFile, name, default, required).Ok?
    ensures var env' := GetEnvVar(env, envFile, name, default, required).value.1;
      env'.Keys <= env.Keys + {name} && forall k :: k in env && k != name ==> k in env' && env'[k] == env[k]
  {
  }
}

=== FILE: cost_of_living.dfy ===
/** `scripts/cost_of_living.py`: matching a school's city and state to a
    Teleport urban-area slug, reading metrics out of Teleport's category
    payload, and the `location_costs` upsert. Network access, SQLite and the
    fallback file read are replaced by their in-memory inputs. */
module CostOfLiving {
  import opened Wrappers
  import opened Text
  import opened PyValue
  import opened Catalog
  import opened Metrics

  // ---------------------------------------------------------------------------
  // normalize_name

  predicate IsNameChar(c: char) {
    'a' <= c <= 'z' || '0' <= c <= '9'
  }

  /** The characters of `s` matching `[a-z0-9]`, in order. */
  function KeepNameChars(s: string): (r: string)
    ensures forall k :: 0 <= k < |r| ==> IsNameChar(r[k])
    ensures |r| <= |s|
  {
    if |s| == 0 then ""
    else (if IsNameChar(s[0]) then [s[0]] else "") + KeepNameChars(s[1..])
  }

  /** `normalize_name`: lower-case, then delete everything outside `[a-z0-9]`. */
  function NormalizeName(name: string): (r: string)
    ensures forall k :: 0 <= k < |r| ==> IsNameChar(r[k])
  {
    KeepNameChars(Lower(name))
  }

  lemma LowerNameChars(s: string)
    requires forall k :: 0 <= k < |s| ==> IsNameChar(s[k])
    ensures Lower(s) == s
  {
  }

  lemma {:induction false} KeepAllNameChars(s: string)
    requires forall k :: 0 <= k < |s| ==> IsNameChar(s[k])
    ensures KeepNameChars(s) == s
  {
    if |s| > 0 {
      KeepAllNameChars(s[1..]);
      assert [s[0]] + s[1..] == s;
    }
  }

  /** Normalising a normalised name changes nothing. */
  lemma NormalizeNameIdempotent(name: string)
    ensures NormalizeName(NormalizeName(name)) == NormalizeName(name)
  {
    var r := NormalizeName(name);
    LowerNameChars(r);
    KeepAllNameChars(r);
  }

  // ---------------------------------------------------------------------------
  // The slug tables

  /** A Python dict literal built from its entries in order: a repeated key
      keeps the value of its last occurrence. */
  function ToMap<K, V>(entries: seq<(K, V)>): (m: map<K, V>)
    ensures forall e :: e in entries ==> e.0 in m
    ensures forall k :: k in m ==> (k, m[k]) in entries
  {
    if |entries| == 0 then map[]
    else
      var init := entries[..|entries| - 1];
      var e := entries[|entries| - 1];
      assert forall x :: x in init ==> x in entries;
      assert entries == init + [e];
      ToMap(init)[e.0 := e.1]
  }

  const ManualSlugOverrideEntries: seq<(string, string)> := [
    ("newyork", "new-york"),
    ("washington", "washington-dc"),
    ("stlouis", "st-louis"),
    ("saintlouis", "st-louis"),
    ("sanjose", "san-jose"),
    ("lasvegas", "las-vegas"),
    ("losangeles", "los-angeles"),
    ("sanfrancisco", "san-francisco-bay-area"),
    ("denver", "denver"),
    ("phoenix", "phoenix"),
    ("miami", "miami"),
    ("austin", "austin"),
    ("dallas", "dallas"),
    ("nashville", "nashville"),
    ("raleigh", "raleigh"),
    ("pittsburgh", "pittsburgh"),
    ("minneapolis", "minneapolis"),
    ("columbus", "columbus"),
    ("madison", "madison"),
    ("annarbor", "ann-arbor"),
    ("gainesville", "gainesville"),
    ("boulder", "boulder"),
    ("tucson", "tucson"),
    ("orlando", "orlando"),
    ("charlotte", "charlotte"),
    ("saltlakecity", "salt-lake-city"),
    ("portland", "portland"),
    ("sandiego", "san-diego"),
    ("sacramento", "sacramento"),
    ("kansascity", "kansas-city"),
    ("detroit", "detroit"),
    ("philadelphia", "philadelphia"),
    ("baltimore", "baltimore"),
    ("richmond", "richmond"),
    ("neworleans", "new-orleans"),
    ("sanantonio", "san-antonio"),
    ("tampa", "tampa-bay-area"),
    ("jacksonville", "jacksonville"),
    ("indianapolis", "indianapolis"),
    ("cleveland", "cleveland"),
    ("cincinnati", "cincinnati"),
    ("milwaukee", "milwaukee"),
    ("memphis", "memphis"),
    ("oklahomacity", "oklahoma-city"),
    ("albuquerque", "albuquerque"),
    ("boise", "boise"),
    ("honolulu", "honolulu"),
    ("anchorage", "anchorage"),
    ("providence", "providence"),
    ("hartford", "hartford"),
    ("buffalo", "buffalo"),
    ("rochester", "rochester"),
    ("charleston", "charleston"),
    ("louisville", "louisville"),
    ("omaha", "omaha"),
    ("desmoines", "des-moines"),
    ("fresno", "fresno"),
    ("bakersfield", "bakersfield"),
    ("riverside", "riverside"),
    ("birmingham", "birmingham-al"),
    ("littlerock", "little-rock"),
    ("wilmington", "wilmington-de"),
    ("lasvegas", "las-vegas"),
    ("newark", "newark"),
    ("billings", "billings"),
    ("fargo", "fargo"),
    ("manchesternh", "manchester-nh"),
    ("burlingtonvt", "burlington-vt"),
    ("charlestonwv", "charleston-wv"),
    ("cheyenne", "cheyenne"),
    ("siouxfalls", "sioux-falls"),
    ("jacksonms", "jackson-ms"),
    ("portlandme", "portland-me")
  ]

  const SlugPrimaryStateEntries: seq<(string, seq<string>)> := [
    ("albuquerque", ["NM"]),
    ("anchorage", ["AK"]),
    ("ann-arbor", ["MI"]),
    ("atlanta", ["GA"]),
    ("austin", ["TX"]),
    ("bakersfield", ["CA"]),
    ("baltimore", ["MD"]),
    ("billings", ["MT"]),
    ("birmingham-al", ["AL"]),
    ("boise", ["ID"]),
    ("boston", ["MA"]),
    ("boulder", ["CO"]),
    ("buffalo", ["NY"]),
    ("burlington-vt", ["VT"]),
    ("charleston", ["SC"]),
    ("charleston-wv", ["WV"]),
    ("charlotte", ["NC"]),
    ("cheyenne", ["WY"]),
    ("chicago", ["IL"]),
    ("cincinnati", ["OH"]),
    ("cleveland", ["OH"]),
    ("columbus", ["OH"]),
    ("dallas", ["TX"]),
    ("denver", ["CO"]),
    ("des-moines", ["IA"]),
    ("detroit", ["MI"]),
    ("fargo", ["ND"]),
    ("fresno", ["CA"]),
    ("gainesville", ["FL"]),
    ("hartford", ["CT"]),
    ("honolulu", ["HI"]),
    ("houston", ["TX"]),
    ("indianapolis", ["IN"]),
    ("jackson-ms", ["MS"]),
    ("jacksonville", ["FL"]),
    ("kansas-city", ["KS", "MO"]),
    ("las-vegas", ["NV"]),
    ("little-rock", ["AR"]),
    ("los-angeles", ["CA"]),
    ("louisville", ["KY"]),
    ("madison", ["WI"]),
    ("manchester-nh", ["NH"]),
    ("memphis", ["TN"]),
    ("miami", ["FL"]),
    ("milwaukee", ["WI"]),
    ("minneapolis", ["MN"]),
    ("nashville", ["TN"]),
    ("new-orleans", ["LA"]),
    ("new-york", ["NY"]),
    ("newark", ["NJ"]),
    ("oklahoma-city", ["OK"]),
    ("omaha", ["NE"]),
    ("orlando", ["FL"]),
    ("philadelphia", ["PA"]),
    ("phoenix", ["AZ"]),
    ("pittsburgh", ["PA"]),
    ("portland", ["OR"]),
    ("portland-me", ["ME"]),
    ("providence", ["RI"]),
    ("raleigh", ["NC"]),
    ("richmond", ["VA"]),
    ("riverside", ["CA"]),
    ("rochester", ["NY"]),
    ("sacramento", ["CA"]),
    ("salt-lake-city", ["UT"]),
    ("san-antonio", ["TX"]),
    ("san-diego", ["CA"]),
    ("san-francisco-bay-area", ["CA"]),
    ("seattle", ["WA"]),
    ("sioux-falls", ["SD"]),
    ("tampa-bay-area", ["FL"]),
    ("tucson", ["AZ"]),
    ("wilmington-de", ["DE"]),
    ("washington-dc", ["DC"]),
    ("pago-pago", ["AS"]),
    ("kolonia", ["FM"]),
    ("hagatna", ["GU"]),
    ("majuro", ["MH"]),
    ("saipan", ["MP"]),
    ("san-juan", ["PR"]),
    ("koror", ["PW"]),
    ("charlotte-amalie", ["VI"])
  ]

  const StateDefaultSlugEntries: seq<(string, string)> := [
    ("AL", "birmingham-al"),
    ("AK", "anchorage"),
    ("AZ", "phoenix"),
    ("AR", "little-rock"),
    ("CA", "los-angeles"),
    ("CO", "denver"),
    ("CT", "hartford"),
    ("DE", "wilmington-de"),
    ("FL", "miami"),
    ("GA", "atlanta"),
    ("HI", "honolulu"),
    ("ID", "boise"),
    ("IL", "chicago"),
    ("IN", "indianapolis"),
    ("IA", "des-moines"),
    ("KS", "kansas-city"),
    ("KY", "louisville"),
    ("LA", "new-orleans"),
    ("ME", "portland-me"),
    ("MD", "baltimore"),
    ("MA", "boston"),
    ("MI", "detroit"),
    ("MN", "minneapolis"),
    ("MS", "jackson-ms"),
    ("MO", "kansas-city"),
    ("MT", "billings"),
    ("NE", "omaha"),
    ("NV", "las-vegas"),
    ("NH", "manchester-nh"),
    ("NJ", "newark"),
    ("NM", "albuquerque"),
    ("NY", "new-york"),
    ("NC", "charlotte"),
    ("ND", "fargo"),
    ("OH", "columbus"),
    ("OK", "oklahoma-city"),
    ("OR", "portland"),
    ("PA", "philadelphia"),
    ("RI", "providence"),
    ("SC", "charleston"),
    ("SD", "sioux-falls"),
    ("TN", "nashville"),
    ("TX", "houston"),
    ("UT", "salt-lake-city"),
    ("VT", "burlington-vt"),
    ("VA", "richmond"),
    ("WA", "seattle"),
    ("WV", "charleston-wv"),
    ("WI", "milwaukee"),
    ("WY", "cheyenne"),
    ("DC", "washington-dc"),
    ("AS", "pago-pago"),
    ("FM", "kolonia"),
    ("GU", "hagatna"),
    ("MH", "majuro"),
    ("MP", "saipan"),
    ("PR", "san-juan"),
    ("PW", "koror"),
    ("VI", "charlotte-amalie")
  ]

  /** The three lookup tables `resolve_slug` consults. */
  datatype SlugTables = SlugTables(
    overrides: map<string, string>,          // MANUAL_SLUG_OVERRIDES
    primaryStates: map<string, set<string>>, // SLUG_PRIMARY_STATES
    stateDefaults: map<string, string>       // STATE_DEFAULT_SLUGS
  )

  function StateSets(entries: seq<(string, seq<string>)>): seq<(string, set<string>)> {
    seq(|entries|, i requires 0 <= i < |entries| => (entries[i].0, set s | s in entries[i].1))
  }

  /** The tables as the script defines them. */
  const SourceTables: SlugTables := SlugTables(
    ToMap(ManualSlugOverrideEntries),
    ToMap(StateSets(SlugPrimaryStateEntries)),
    ToMap(StateDefaultSlugEntries))

  // ---------------------------------------------------------------------------
  // slug_allowed_for_state and resolve_slug

  /** `slug_allowed_for_state`: no state, or a slug without (or with an empty)
      primary-state set, allows everything; otherwise the state exactly as
      given (not upper-cased) must be in the set. */
  predicate SlugAllowedForState(t: SlugTables, slug: string, state: Option<string>) {
    if state.None? || state.value == "" then true
    else if slug !in t.primaryStates || t.primaryStates[slug] == {} then true
    else state.value in t.primaryStates[slug]
  }

  /** What `slug_allowed_for_state` decides: without a state, or for a slug
      with no primary states, every slug is allowed; otherwise exactly the
      listed states are. */
  lemma SlugAllowedRestricted(t: SlugTables, slug: string, state: Option<string>)
    ensures state.None? || state.value == "" ==> SlugAllowedForState(t, slug, state)
    ensures slug !in t.primaryStates || t.primaryStates[slug] == {} ==> SlugAllowedForState(t, slug, state)
    ensures state.Some? && state.value != "" && slug in t.primaryStates && t.primaryStates[slug] != {} ==>
      (SlugAllowedForState(t, slug, state) <==> state.value in t.primaryStates[slug])
  {
  }

  /** The state is compared as given: a lower-case code is refused by a
      slug whose primary states are upper-case. */
  lemma SlugAllowedCaseSensitive(t: SlugTables, slug: string)
    requires slug in t.primaryStates && t.primaryStates[slug] == {"WA"}
    ensures SlugAllowedForState(t, slug, Some("WA"))
    ensures !SlugAllowedForState(t, slug, Some("wa"))
  {
  }

  /** `slugs[i]` is allowed and no earlier slug is. */
  predicate FirstAllowedAt(t: SlugTables, slugs: seq<string>, state: Option<string>, i: int) {
    0 <= i < |slugs| && SlugAllowedForState(t, slugs[i], state)
    && forall k :: 0 <= k < i ==> !SlugAllowedForState(t, slugs[k], state)
  }

  /** The first slug of `slugs` allowed for `state`. */
  function FirstAllowed(t: SlugTables, slugs: seq<string>, state: Option<string>): (r: Option<string>)
    ensures r.None? ==> forall k :: 0 <= k < |slugs| ==> !SlugAllowedForState(t, slugs[k], state)
    ensures r.Some? ==> SlugAllowedForState(t, r.value, state)
    ensures r.Some? ==> exists i :: FirstAllowedAt(t, slugs, state, i) && slugs[i] == r.value
  {
    if |slugs| == 0 then None
    else if SlugAllowedForState(t, slugs[0], state) then Some(slugs[0])
    else
      var r := FirstAllowed(t, slugs[1..], state);
      assert forall i :: FirstAllowedAt(t, slugs[1..], state, i) ==> FirstAllowedAt(t, slugs, state, i + 1);
      r
  }

  /** `d.get(key)` on a string-valued table, with `""` for absent (both are
      falsy in the script's conditions). */
  function Lookup(m: map<string, string>, key: string): string {
    if key in m then m[key] else ""
  }

  /** The upper-cased state when one is given (`state.upper() if state`). */
  function StateCode(state: Option<string>): Option<string> {
    if state.Some? && state.value != "" then Some(Upper(state.value)) else None
  }

  /** The normalised `"{city}-{state_code}"` key. */
  function ComboKey(city: string, code: string): string {
    NormalizeName(city + "-" + code)
  }

  /** The last two rules: the combined city/state catalog entry, then the
      state's default slug. */
  function ResolveByState(t: SlugTables, city: string, state: Option<string>, code: string,
                          catalog: map<string, seq<string>>): Option<string>
  {
    var combo := ComboKey(city, code);
    var fromCombo := if combo in catalog then FirstAllowed(t, catalog[combo], state) else None;
    if fromCombo.Some? then fromCombo
    else if Lookup(t.stateDefaults, code) != "" then Some(Lookup(t.stateDefaults, code))
    else None
  }

  /** `resolve_slug`: the first applicable rule among the manual override for
      the city, the Washington-outside-DC redirect, the city+state override,
      the city's catalog slugs, the city+state catalog slugs and the state
      default. */
  function ResolveSlug(t: SlugTables, city: string, state: Option<string>,
                       catalog: map<string, seq<string>>): (r: Option<string>)
    ensures r.Some? ==> (r.value in t.overrides.Values
      || (exists k :: k in catalog && r.value in catalog[k])
      || r.value in t.stateDefaults.Values)
    ensures r.Some? ==> (SlugAllowedForState(t, r.value, state)
      || (StateCode(state).Some? && r.value == Lookup(t.stateDefaults, StateCode(state).value)))
  {
    var norm := NormalizeName(city);
    var code := StateCode(state);
    var candidate := Lookup(t.overrides, norm);
    if candidate != "" && SlugAllowedForState(t, candidate, state) then Some(candidate)
    else if norm == "washington" && code.Some? && code.value != "DC"
      && Lookup(t.stateDefaults, code.value) != "" then
      Some(Lookup(t.stateDefaults, code.value))
    else if code.Some? && Lookup(t.overrides, ComboKey(city, code.value)) != ""
      && SlugAllowedForState(t, Lookup(t.overrides, ComboKey(city, code.value)), state) then
      Some(Lookup(t.overrides, ComboKey(city, code.value)))
    else if norm in catalog && FirstAllowed(t, catalog[norm], state).Some? then
      FirstAllowed(t, catalog[norm], state)
    else if code.Some? then
      ResolveByState(t, city, state, code.value, catalog)
    else None
  }

  /** An allowed, non-empty manual override for the city always wins. */
  lemma ResolveSlugOverrideFirst(t: SlugTables, city: string, state: Option<string>,
                                 catalog: map<string, seq<string>>)
    requires NormalizeName(city) in t.overrides
    requires t.overrides[NormalizeName(city)] != ""
    requires SlugAllowedForState(t, t.overrides[NormalizeName(city)], state)
    ensures ResolveSlug(t, city, state, catalog) == Some(t.overrides[NormalizeName(city)])
  {
  }

  /** A city normalising to "washington" with a non-DC state whose default
      exists resolves to that default unless the Washington override itself
      is allowed for the state. */
  lemma ResolveSlugWashington(t: SlugTables, city: string, state: string,
                              catalog: map<string, seq<string>>)
    requires NormalizeName(city) == "washington"
    requires state != "" && Upper(state) != "DC"
    requires Lookup(t.stateDefaults, Upper(state)) != ""
    requires !(Lookup(t.overrides, "washington") != ""
               && SlugAllowedForState(t, Lookup(t.overrides, "washington"), Some(state)))
    ensures ResolveSlug(t, city, Some(state), catalog) == Some(t.stateDefaults[Upper(state)])
  {
  }

  /** Without a state every slug is allowed, so the resolution is: the
      override for the city, else the city's first catalog slug, else none. */
  lemma ResolveSlugWithoutState(t: SlugTables, city: string, catalog: map<string, seq<string>>)
    ensures var norm := NormalizeName(city);
      ResolveSlug(t, city, None, catalog)
        == if Lookup(t.overrides, norm) != "" then Some(t.overrides[norm])
           else if norm in catalog && |catalog[norm]| > 0 then Some(catalog[norm][0])
           else None
  {
  }

  // The rules of `resolve_slug` for a given state, in the order they are
  // tried; each lemma below says that a rule decides when every earlier one
  // does not apply.

  /** The city's own override, allowed for the state. */
  predicate OverrideRule(t: SlugTables, city: string, state: Option<string>) {
    var candidate := Lookup(t.overrides, NormalizeName(city));
    candidate != "" && SlugAllowedForState(t, candidate, state)
  }

  /** Washington outside DC with a default for the state. */
  predicate WashingtonRule(t: SlugTables, city: string, code: string) {
    NormalizeName(city) == "washington" && code != "DC" && Lookup(t.stateDefaults, code) != ""
  }

  /** The override for `"{city}-{state}"`, allowed for the state. */
  predicate ComboOverrideRule(t: SlugTables, city: string, state: string) {
    var combo := Lookup(t.overrides, ComboKey(city, Upper(state)));
    combo != "" && SlugAllowedForState(t, combo, Some(state))
  }

  /** The first allowed slug listed under the catalog key `key`. */
  function CatalogRule(t: SlugTables, key: string, state: Option<string>, catalog: map<string, seq<string>>)
    : Option<string>
  {
    if key in catalog then FirstAllowed(t, catalog[key], state) else None
  }

  /** With a state, an allowed override for `"{city}-{state}"` wins over the
      catalog. */
  lemma ResolveSlugComboOverride(t: SlugTables, city: string, state: string, catalog: map<string, seq<string>>)
    requires state != ""
    requires !OverrideRule(t, city, Some(state)) && !WashingtonRule(t, city, Upper(state))
    requires ComboOverrideRule(t, city, state)
    ensures ResolveSlug(t, city, Some(state), catalog) == Some(Lookup(t.overrides, ComboKey(city, Upper(state))))
  {
  }

  /** Next, the first allowed catalog slug of the city wins over the
      city+state catalog entry and the state default. */
  lemma ResolveSlugCityCatalog(t: SlugTables, city: string, state: string, catalog: map<string, seq<string>>)
    requires state != ""
    requires !OverrideRule(t, city, Some(state)) && !WashingtonRule(t, city, Upper(state))
    requires !ComboOverrideRule(t, city, state)
    requires CatalogRule(t, NormalizeName(city), Some(state), catalog).Some?
    ensures ResolveSlug(t, city, Some(state), catalog) == CatalogRule(t, NormalizeName(city), Some(state), catalog)
  {
  }

  /** Next, the first allowed slug under the city+state catalog key wins
      over the state default. */
  lemma ResolveSlugComboCatalog(t: SlugTables, city: string, state: string, catalog: map<string, seq<string>>)
    requires state != ""
    requires !OverrideRule(t, city, Some(state)) && !WashingtonRule(t, city, Upper(state))
    requires !ComboOverrideRule(t, city, state)
    requires CatalogRule(t, NormalizeName(city), Some(state), catalog).None?
    requires CatalogRule(t, ComboKey(city, Upper(state)), Some(state), catalog).Some?
    ensures ResolveSlug(t, city, Some(state), catalog)
         == CatalogRule(t, ComboKey(city, Upper(state)), Some(state), catalog)
  {
  }

  /** Last, the state default; with none, nothing resolves. */
  lemma ResolveSlugStateDefault(t: SlugTables, city: string, state: string, catalog: map<string, seq<string>>)
    requires state != ""
    requires !OverrideRule(t, city, Some(state)) && !WashingtonRule(t, city, Upper(state))
    requires !ComboOverrideRule(t, city, state)
    requires CatalogRule(t, NormalizeName(city), Some(state), catalog).None?
    requires CatalogRule(t, ComboKey(city, Upper(state)), Some(state), catalog).None?
    ensures ResolveSlug(t, city, Some(state), catalog)
         == if Lookup(t.stateDefaults, Upper(state)) != "" then Some(Lookup(t.stateDefaults, Upper(state))) else None
  {
  }

  /** A state whose upper-cased code has a non-empty default always gets a
      slug. */
  lemma ResolveSlugTotalForKnownStates(t: SlugTables, city: string, state: string,
                                       catalog: map<string, seq<string>>)
    requires state != "" && Upper(state) in t.stateDefaults
    requires t.stateDefaults[Upper(state)] != ""
    ensures ResolveSlug(t, city, Some(state), catalog).Some?
  {
  }

  // ---------------------------------------------------------------------------
  // fetch_urban_area_slugs: the catalog mapping

  /** The key and slug one catalog item contributes, or `None` when its slug
      is empty. A missing `name` or `href` reads as `""`. */
  function CatalogEntry(item: CatalogItem): Option<(string, string)> {
    var slug := HrefSlug(item.href.GetOr(""));
    if slug == "" then None else Some((NormalizeName(item.name.GetOr("")), slug))
  }

  /** The loop over `ua:item`: each non-empty slug is appended to the list of
      its normalised name. */
  function BuildCatalog(items: seq<CatalogItem>): (m: map<string, seq<string>>)
  {
    if |items| == 0 then map[]
    else
      var m := BuildCatalog(items[..|items| - 1]);
      match CatalogEntry(items[|items| - 1])
      case None => m
      case Some((key, slug)) => m[key := (if key in m then m[key] else []) + [slug]]
  }

  /** Reference definition: the slugs, in item order, of the items whose
      normalised name is `key`. */
  function SlugsNamed(items: seq<CatalogItem>, key: string): seq<string> {
    if |items| == 0 then []
    else
      SlugsNamed(items[..|items| - 1], key)
        + match CatalogEntry(items[|items| - 1])
          case Some((k, slug)) => if k == key then [slug] else []
          case None => []
  }

  /** A name is in the catalog exactly when some item with that normalised
      name has a non-empty slug, and it maps to all such slugs in item order. */
  lemma {:induction false} BuildCatalogSlugs(items: seq<CatalogItem>, key: string)
    ensures key in BuildCatalog(items) <==> SlugsNamed(items, key) != []
    ensures key in BuildCatalog(items) ==> BuildCatalog(items)[key] == SlugsNamed(items, key)
  {
    if |items| > 0 {
      BuildCatalogSlugs(items[..|items| - 1], key);
    }
  }

  // ---------------------------------------------------------------------------
  // extract_metric

  /** One entry of a category's `data` list; a missing key is `None`. */
  datatype MetricItem = MetricItem(labelValue: Value, currencyValue: Value, floatValue: Value, intValue: Value)

  /** One entry of the `categories` list; a missing `data` is the empty list. */
  datatype MetricCategory = MetricCategory(labelValue: Value, data: seq<MetricItem>)

  /** `currency_dollar_value or float_value or int_value`. */
  function ItemValue(item: MetricItem): (r: Value)
    ensures Truthy(item.currencyValue) ==> r == item.currencyValue
    ensures !Truthy(item.currencyValue) && Truthy(item.floatValue) ==> r == item.floatValue
    ensures !Truthy(item.currencyValue) && !Truthy(item.floatValue) ==> r == item.intValue
  {
    Or(Or(item.currencyValue, item.floatValue), item.intValue)
  }

  /** Item `i` of category `c` has the wanted labels. */
  predicate MatchesAt(cats: seq<MetricCategory>, categoryLabel: string, itemLabel: string, c: int, i: int) {
    && 0 <= c < |cats| && cats[c].labelValue == Str(categoryLabel)
    && 0 <= i < |cats[c].data| && cats[c].data[i].labelValue == Str(itemLabel)
  }

  /** No match comes before position (c, i) in the scan order. */
  ghost predicate NoMatchBefore(cats: seq<MetricCategory>, categoryLabel: string, itemLabel: string, c: int, i: int) {
    forall c', i' :: (c' < c || (c' == c && i' < i)) ==> !MatchesAt(cats, categoryLabel, itemLabel, c', i')
  }

  /** The position of the first item labelled `itemLabel` in `data`, from `i`. */
  function FindItem(data: seq<MetricItem>, itemLabel: string, i: nat): (r: Option<nat>)
    requires i <= |data|
    ensures r.Some? ==> i <= r.value < |data| && data[r.value].labelValue == Str(itemLabel)
    ensures forall k :: i <= k < |data| && (r.None? || k < r.value) ==> data[k].labelValue != Str(itemLabel)
    decreases |data| - i
  {
    if i == |data| then None
    else if data[i].labelValue == Str(itemLabel) then Some(i)
    else FindItem(data, itemLabel, i + 1)
  }

  /** The scan of `extract_metric` from category `c` onwards. */
  function FindMetric(cats: seq<MetricCategory>, categoryLabel: string, itemLabel: string, c: nat): (r: Option<(nat, nat)>)
    requires c <= |cats|
    requires NoMatchBefore(cats, categoryLabel, itemLabel, c, 0)
    ensures r.Some? ==> MatchesAt(cats, categoryLabel, itemLabel, r.value.0, r.value.1)
    ensures r.Some? ==> NoMatchBefore(cats, categoryLabel, itemLabel, r.value.0, r.value.1)
    ensures r.None? ==> forall c', i' :: !MatchesAt(cats, categoryLabel, itemLabel, c', i')
    decreases |cats| - c
  {
    if c == |cats| then None
    else
      var found := if cats[c].labelValue == Str(categoryLabel) then FindItem(cats[c].data, itemLabel, 0) else None;
      if found.Some? then Some((c, found.value))
      else FindMetric(cats, categoryLabel, itemLabel, c + 1)
  }

  /** `extract_metric`: the value of the first item, in scan order, whose
      category and item labels match; `None` when there is none. */
  function ExtractMetric(cats: seq<MetricCategory>, categoryLabel: string, itemLabel: string): (r: Value)
    ensures (forall c, i :: !MatchesAt(cats, categoryLabel, itemLabel, c, i)) ==> r == Null
    ensures forall c, i ::
      (MatchesAt(cats, categoryLabel, itemLabel, c, i) && NoMatchBefore(cats, categoryLabel, itemLabel, c, i))
      ==> r == ItemValue(cats[c].data[i])
  {
    match FindMetric(cats, categoryLabel, itemLabel, 0)
    case None => Null
    case Some((c, i)) =>
      FirstMatchUnique(cats, categoryLabel, itemLabel, c, i);
      ItemValue(cats[c].data[i])
  }

  /** At most one position is the first match. */
  lemma FirstMatchUnique(cats: seq<MetricCategory>, categoryLabel: string, itemLabel: string, c: int, i: int)
    requires MatchesAt(cats, categoryLabel, itemLabel, c, i) && NoMatchBefore(cats, categoryLabel, itemLabel, c, i)
    ensures forall c', i' ::
      (MatchesAt(cats, categoryLabel, itemLabel, c', i') && NoMatchBefore(cats, categoryLabel, itemLabel, c', i'))
      ==> c' == c && i' == i
  {
  }

  /** The Teleport item label of each metric key, in `MetricKeys` order. */
  const MetricLabels: seq<string> := [
    "Cost of Living Index",
    "Cost of Living Plus Rent Index",
    "Rent Index",
    "Groceries Index",
    "Restaurant Price Index",
    "Apartment (1 bedroom) in City Centre",
    "Apartment (3 bedrooms) in City Centre",
    "Meal, Inexpensive Restaurant",
    "Monthly Pass (Regular Price)"
  ]

  /** The metric dictionary `fetch_cost_metrics` builds from a details
      payload's categories: every metric key, each read from the "Cost of
      Living" category under its Teleport label. */
  function TeleportMetrics(cats: seq<MetricCategory>): (m: map<string, Value>)
    ensures m.Keys == set k | k in MetricKeys
    ensures forall j :: 0 <= j < |MetricKeys| ==>
      m[MetricKeys[j]] == ExtractMetric(cats, "Cost of Living", MetricLabels[j])
  {
    MetricMap(seq(|MetricLabels|, j requires 0 <= j < |MetricLabels| => ExtractMetric(cats, "Cost of Living", MetricLabels[j])))
  }

  // ---------------------------------------------------------------------------
  // _load_fallback_metric

  /** `_load_fallback_metric`: `fallback` is the fallback file's `metrics`
      dictionary, `None` when the file does not exist. A missing or empty
      entry gives `None`; otherwise the entry without its `_`-prefixed keys,
      and its `_source` (default "fallback"). */
  function LoadFallbackMetric(fallback: Option<map<string, map<string, Value>>>, slug: string)
    : (r: Option<(map<string, Value>, Value)>)
    ensures r.None? <==> fallback.None? || slug !in fallback.value || fallback.value[slug] == map[]
    ensures r.Some? ==> r.value.0.Keys == set k | k in fallback.value[slug] && !StartsWith(k, "_")
    ensures r.Some? ==> forall k :: k in fallback.value[slug] && !StartsWith(k, "_") ==>
      k in r.value.0 && r.value.0[k] == fallback.value[slug][k]
    ensures r.Some? ==> r.value.1 == DictGet(fallback.value[slug], "_source", Str("fallback"))
  {
    if fallback.None? || slug !in fallback.value then None
    else
      var entry := fallback.value[slug];
      if entry == map[] then None
      else
        Some((map k | k in entry && !StartsWith(k, "_") :: entry[k], DictGet(entry, "_source", Str("fallback"))))
  }

  // ---------------------------------------------------------------------------
  // upsert_metric and the main loop

  /** A `location_costs` row without its `(city, state)` key; `metrics`
      holds the nine metric columns in `MetricKeys` order. */
  datatype CostRow = CostRow(
    slug: string,
    metrics: seq<Value>,
    latitude: Option<real>,
    longitude: Option<real>,
    source: Value,
    lastUpdated: string
  )

  type CostTable = map<(string, string), CostRow>

  /** `COALESCE(new, old)`. */
  function Coalesce<T>(x: Option<T>, y: Option<T>): Option<T> {
    if x.Some? then x else y
  }

  /** `upsert_metric`: insert the row for `(city, state)`, or on conflict
      overwrite everything but the coordinates, which keep their stored value
      when the new one is `None`. `timestamp` is the current UTC time. */
  function UpsertMetric(table: CostTable, city: string, state: string, slug: string,
                        metrics: map<string, Value>, latitude: Option<real>, longitude: Option<real>,
                        source: Value, timestamp: string): (t: CostTable)
    ensures t.Keys == table.Keys + {(city, state)}
    ensures forall k :: k in table && k != (city, state) ==> t[k] == table[k]
    ensures var row := t[(city, state)];
      && row.slug == slug && row.source == source && row.lastUpdated == timestamp
      && |row.metrics| == |MetricKeys|
      && (forall j :: 0 <= j < |MetricKeys| ==> row.metrics[j] == DictGet(metrics, MetricKeys[j], Null))
    ensures (city, state) !in table ==>
      t[(city, state)].latitude == latitude && t[(city, state)].longitude == longitude
    ensures (city, state) in table ==>
      && t[(city, state)].latitude == (if latitude.Some? then latitude else table[(city, state)].latitude)
      && t[(city, state)].longitude == (if longitude.Some? then longitude else table[(city, state)].longitude)
  {
    var columns := seq(|MetricKeys|, j requires 0 <= j < |MetricKeys| => DictGet(metrics, MetricKeys[j], Null));
    var prior := if (city, state) in table then table[(city, state)] else CostRow("", [], None, None, Null, "");
    var inserted := (city, state) !in table;
    table[(city, state) := CostRow(slug, columns,
      if inserted then latitude else Coalesce(latitude, prior.latitude),
      if inserted then longitude else Coalesce(longitude, prior.longitude),
      source, timestamp)]
  }

  /** Repeating an upsert changes nothing. */
  lemma UpsertMetricIdempotent(table: CostTable, city: string, state: string, slug: string,
                               metrics: map<string, Value>, latitude: Option<real>, longitude: Option<real>,
                               source: Value, timestamp: string)
    ensures var once := UpsertMetric(table, city, state, slug, metrics, latitude, longitude, source, timestamp);
      UpsertMetric(once, city, state, slug, metrics, latitude, longitude, source, timestamp) == once
  {
  }

  /** One city of the ingestion loop: `(city, state, latitude, longitude)`. */
  datatype CityRow = CityRow(city: string, state: string, latitude: Option<real>, longitude: Option<real>)

  /** The result of the ingestion loop. */
  datatype IngestResult = IngestResult(table: CostTable, updated: nat, missing: nat)

  /** The `location_costs` key of a city. */
  function KeyOf(row: CityRow): (string, string) {
    (row.city, row.state)
  }

  /** `resolve_slug(city, state, catalog)` for one city of the loop. */
  function CitySlug(t: SlugTables, catalog: map<string, seq<string>>, row: CityRow): Option<string> {
    ResolveSlug(t, row.city, if row.state == "" then None else Some(row.state), catalog)
  }

  /** The loop upserts `row`: its slug resolves to non-empty text and the
      metrics are found. */
  predicate Upserted(t: SlugTables, catalog: map<string, seq<string>>,
                     fetch: string -> Option<(map<string, Value>, Value)>, row: CityRow)
  {
    var slug := CitySlug(t, catalog, row);
    slug.Some? && slug.value != "" && fetch(slug.value).Some?
  }

  /** The number of cities the loop upserts. */
  function CountUpserted(t: SlugTables, catalog: map<string, seq<string>>,
                         fetch: string -> Option<(map<string, Value>, Value)>, cities: seq<CityRow>): (n: nat)
    ensures n <= |cities|
  {
    if |cities| == 0 then 0
    else
      CountUpserted(t, catalog, fetch, cities[..|cities| - 1])
        + (if Upserted(t, catalog, fetch, cities[|cities| - 1]) then 1 else 0)
  }

  /** No city of `cities` upserts key `k`. */
  predicate Untouched(t: SlugTables, catalog: map<string, seq<string>>,
                      fetch: string -> Option<(map<string, Value>, Value)>, cities: seq<CityRow>, k: (string, string))
  {
    forall j :: 0 <= j < |cities| && Upserted(t, catalog, fetch, cities[j]) ==> KeyOf(cities[j]) != k
  }

  /** `cities[j]` is upserted and no later city upserts the same key, so its
      row is the one left in the table. */
  predicate LastUpsert(t: SlugTables, catalog: map<string, seq<string>>,
                       fetch: string -> Option<(map<string, Value>, Value)>, cities: seq<CityRow>, j: int)
  {
    0 <= j < |cities| && Upserted(t, catalog, fetch, cities[j])
    && Untouched(t, catalog, fetch, cities[j + 1..], KeyOf(cities[j]))
  }

  /** The row under `row`'s key carries its resolved slug, the source of its
      metrics and the time of the run. */
  predicate HoldsRow(t: SlugTables, catalog: map<string, seq<string>>,
                     fetch: string -> Option<(map<string, Value>, Value)>, table: CostTable, row: CityRow, now: string)
    requires Upserted(t, catalog, fetch, row)
  {
    var slug := CitySlug(t, catalog, row).value;
    KeyOf(row) in table && table[KeyOf(row)].slug == slug
    && table[KeyOf(row)].source == fetch(slug).value.1 && table[KeyOf(row)].lastUpdated == now
  }

  /** Every key `table'` has beyond `table` is the key of an upserted city. */
  ghost predicate NewKeysUpserted(t: SlugTables, catalog: map<string, seq<string>>,
                                  fetch: string -> Option<(map<string, Value>, Value)>, cities: seq<CityRow>, table: CostTable, table': CostTable)
  {
    forall k :: k in table' && k !in table ==>
      exists j :: 0 <= j < |cities| && Upserted(t, catalog, fetch, cities[j]) && k == KeyOf(cities[j])
  }

  /** A key of `table` that no city upserts keeps its row in `table'`. */
  predicate KeepsUntouched(t: SlugTables, catalog: map<string, seq<string>>,
                           fetch: string -> Option<(map<string, Value>, Value)>, cities: seq<CityRow>, table: CostTable, table': CostTable)
  {
    forall k :: k in table && Untouched(t, catalog, fetch, cities, k) ==> k in table' && table'[k] == table[k]
  }

  /** The last city upserted under each key left its row in `table'`. */
  predicate LastRowsHeld(t: SlugTables, catalog: map<string, seq<string>>,
                         fetch: string -> Option<(map<string, Value>, Value)>, cities: seq<CityRow>, table': CostTable, now: string)
  {
    forall j :: 0 <= j < |cities| && LastUpsert(t, catalog, fetch, cities, j) ==>
      HoldsRow(t, catalog, fetch, table', cities[j], now)
  }

  /** What the loop over `cities` did to `table`, giving `table'`: every key
      is kept, a new key is an upserted city's, a key no upserted city has
      keeps its row, and the last city upserted under a key left its row. */
  ghost predicate Ingested(t: SlugTables, catalog: map<string, seq<string>>,
                           fetch: string -> Option<(map<string, Value>, Value)>, cities: seq<CityRow>,
                           table: CostTable, table': CostTable, now: string)
  {
    && table.Keys <= table'.Keys
    && NewKeysUpserted(t, catalog, fetch, cities, table, table')
    && KeepsUntouched(t, catalog, fetch, cities, table, table')
    && LastRowsHeld(t, catalog, fetch, cities, table', now)
  }

  /** The loop of `main`: each city whose slug resolves and whose metrics are
      found is upserted and counted as updated, any other as missing.
      `fetch` stands for `fetch_cost_metrics` and `now` for the clock. */
  function Ingest(t: SlugTables, table: CostTable, cities: seq<CityRow>,
                  catalog: map<string, seq<string>>,
                  fetch: string -> Option<(map<string, Value>, Value)>, now: string): (r: IngestResult)
    ensures r.updated == CountUpserted(t, catalog, fetch, cities)
    ensures r.updated + r.missing == |cities|
    ensures Ingested(t, catalog, fetch, cities, table, r.table, now)
  {
    if |cities| == 0 then IngestResult(table, 0, 0)
    else
      var r := Ingest(t, table, cities[..|cities| - 1], catalog, fetch, now);
      var row := cities[|cities| - 1];
      var slug := CitySlug(t, catalog, row);
      NewKeysWiden(t, catalog, fetch, cities, table, r.table);
      if slug.None? || slug.value == "" || fetch(slug.value).None? then
        SkipKeeps(t, catalog, fetch, cities, table, r.table);
        SkipRows(t, catalog, fetch, cities, r.table, now);
        IngestResult(r.table, r.updated, r.missing + 1)
      else
        var bundle := fetch(slug.value).value;
        var t' := UpsertMetric(r.table, row.city, row.state, slug.value, bundle.0,
                               row.latitude, row.longitude, bundle.1, now);
        UpsertKeeps(t, catalog, fetch, cities, table, r.table, t', now);
        UpsertNew(t, catalog, fetch, cities, table, r.table, t');
        UpsertRows(t, catalog, fetch, cities, r.table, t', now);
        IngestResult(t', r.updated + 1, r.missing)
  }

  /** New keys of a prefix's loop are new keys of the whole loop. */
  lemma NewKeysWiden(t: SlugTables, catalog: map<string, seq<string>>,
                     fetch: string -> Option<(map<string, Value>, Value)>, cities: seq<CityRow>, table: CostTable, table': CostTable)
    requires |cities| > 0 && NewKeysUpserted(t, catalog, fetch, cities[..|cities| - 1], table, table')
    ensures NewKeysUpserted(t, catalog, fetch, cities, table, table')
  {
    var prefix := cities[..|cities| - 1];
    forall k | k in table' && k !in table
      ensures exists j :: 0 <= j < |cities| && Upserted(t, catalog, fetch, cities[j]) && k == KeyOf(cities[j])
    {
      var j :| 0 <= j < |prefix| && Upserted(t, catalog, fetch, prefix[j]) && k == KeyOf(prefix[j]);
      assert prefix[j] == cities[j];
    }
  }

  /** A key untouched by the whole loop is untouched by its prefix. */
  lemma UntouchedPrefix(t: SlugTables, catalog: map<string, seq<string>>,
                        fetch: string -> Option<(map<string, Value>, Value)>, cities: seq<CityRow>, k: (string, string))
    requires |cities| > 0 && Untouched(t, catalog, fetch, cities, k)
    ensures Untouched(t, catalog, fetch, cities[..|cities| - 1], k)
  {
    var prefix := cities[..|cities| - 1];
    assert forall j :: 0 <= j < |prefix| ==> prefix[j] == cities[j];
  }

  /** A city that is not upserted keeps the untouched rows. */
  lemma SkipKeeps(t: SlugTables, catalog: map<string, seq<string>>,
                  fetch: string -> Option<(map<string, Value>, Value)>, cities: seq<CityRow>, table: CostTable, table': CostTable)
    requires |cities| > 0 && KeepsUntouched(t, catalog, fetch, cities[..|cities| - 1], table, table')
    ensures KeepsUntouched(t, catalog, fetch, cities, table, table')
  {
    forall k | k in table && Untouched(t, catalog, fetch, cities, k)
      ensures k in table' && table'[k] == table[k]
    {
      UntouchedPrefix(t, catalog, fetch, cities, k);
    }
  }

  /** A city that is not upserted keeps the earlier last rows. */
  lemma SkipRows(t: SlugTables, catalog: map<string, seq<string>>,
                 fetch: string -> Option<(map<string, Value>, Value)>, cities: seq<CityRow>, table': CostTable, now: string)
    requires |cities| > 0 && !Upserted(t, catalog, fetch, cities[|cities| - 1])
    requires LastRowsHeld(t, catalog, fetch, cities[..|cities| - 1], table', now)
    ensures LastRowsHeld(t, catalog, fetch, cities, table', now)
  {
    forall j | 0 <= j < |cities| && LastUpsert(t, catalog, fetch, cities, j)
      ensures HoldsRow(t, catalog, fetch, table', cities[j], now)
    {
      LastUpsertOfPrefix(t, catalog, fetch, cities, j);
      assert cities[..|cities| - 1][j] == cities[j];
    }
  }

  /** An upserted city changes only its own key. */
  lemma UpsertKeeps(t: SlugTables, catalog: map<string, seq<string>>,
                    fetch: string -> Option<(map<string, Value>, Value)>, cities: seq<CityRow>,
                    table: CostTable, table': CostTable, table'': CostTable, now: string)
    requires |cities| > 0 && Upserted(t, catalog, fetch, cities[|cities| - 1])
    requires KeepsUntouched(t, catalog, fetch, cities[..|cities| - 1], table, table')
    requires var row := cities[|cities| - 1];
      var slug := CitySlug(t, catalog, row).value;
      table'' == UpsertMetric(table', row.city, row.state, slug, fetch(slug).value.0,
                              row.latitude, row.longitude, fetch(slug).value.1, now)
    ensures KeepsUntouched(t, catalog, fetch, cities, table, table'')
  {
    var row := cities[|cities| - 1];
    forall k | k in table && Untouched(t, catalog, fetch, cities, k)
      ensures k in table'' && table''[k] == table[k]
    {
      UntouchedPrefix(t, catalog, fetch, cities, k);
      assert k != KeyOf(row);
    }
  }

  /** An upserted city adds at most its own key. */
  lemma UpsertNew(t: SlugTables, catalog: map<string, seq<string>>,
                  fetch: string -> Option<(map<string, Value>, Value)>, cities: seq<CityRow>,
                  table: CostTable, table': CostTable, table'': CostTable)
    requires |cities| > 0 && Upserted(t, catalog, fetch, cities[|cities| - 1])
    requires NewKeysUpserted(t, catalog, fetch, cities, table, table')
    requires table''.Keys == table'.Keys + {KeyOf(cities[|cities| - 1])}
    ensures NewKeysUpserted(t, catalog, fetch, cities, table, table'')
  {
  }

  /** After an upsert of the final city, every last upsert's row is held. */
  lemma UpsertRows(t: SlugTables, catalog: map<string, seq<string>>,
                   fetch: string -> Option<(map<string, Value>, Value)>, cities: seq<CityRow>,
                   table': CostTable, table'': CostTable, now: string)
    requires |cities| > 0 && Upserted(t, catalog, fetch, cities[|cities| - 1])
    requires LastRowsHeld(t, catalog, fetch, cities[..|cities| - 1], table', now)
    requires var row := cities[|cities| - 1];
      var slug := CitySlug(t, catalog, row).value;
      table'' == UpsertMetric(table', row.city, row.state, slug, fetch(slug).value.0,
                              row.latitude, row.longitude, fetch(slug).value.1, now)
    ensures LastRowsHeld(t, catalog, fetch, cities, table'', now)
  {
    var n := |cities| - 1;
    forall j | 0 <= j < |cities| && LastUpsert(t, catalog, fetch, cities, j)
      ensures HoldsRow(t, catalog, fetch, table'', cities[j], now)
    {
      if j < n {
        LastUpsertOfPrefix(t, catalog, fetch, cities, j);
        assert cities[..n][j] == cities[j];
      }
      IngestUpsertRow(t, catalog, fetch, cities, table', table'', now, j);
    }
  }

  /** After an upsert of the final city, each last upsert's row is in the
      table. */
  lemma IngestUpsertRow(t: SlugTables, catalog: map<string, seq<string>>,
                        fetch: string -> Option<(map<string, Value>, Value)>, cities: seq<CityRow>,
                        table': CostTable, table'': CostTable, now: string, j: int)
    requires |cities| > 0 && Upserted(t, catalog, fetch, cities[|cities| - 1])
    requires LastUpsert(t, catalog, fetch, cities, j)
    requires j < |cities| - 1 ==> HoldsRow(t, catalog, fetch, table', cities[j], now)
    requires var row := cities[|cities| - 1];
      var slug := CitySlug(t, catalog, row).value;
      table'' == UpsertMetric(table', row.city, row.state, slug, fetch(slug).value.0,
                              row.latitude, row.longitude, fetch(slug).value.1, now)
    ensures HoldsRow(t, catalog, fetch, table'', cities[j], now)
  {
    var n := |cities| - 1;
    var row := cities[n];
    if j < n {
      assert cities[j + 1..][n - j - 1] == row;
      assert KeyOf(row) != KeyOf(cities[j]);
      HoldsRowFrame(t, catalog, fetch, table', table'', cities[j], now);
    } else {
      UpsertHolds(t, catalog, fetch, table', table'', row, now);
    }
  }

  /** Upserting a city leaves its row under its key. */
  lemma UpsertHolds(t: SlugTables, catalog: map<string, seq<string>>,
                    fetch: string -> Option<(map<string, Value>, Value)>, table: CostTable, table': CostTable,
                    row: CityRow, now: string)
    requires Upserted(t, catalog, fetch, row)
    requires var slug := CitySlug(t, catalog, row).value;
      table' == UpsertMetric(table, row.city, row.state, slug, fetch(slug).value.0,
                             row.latitude, row.longitude, fetch(slug).value.1, now)
    ensures HoldsRow(t, catalog, fetch, table', row, now)
  {
  }

  /** A row survives into a table that keeps it. */
  lemma HoldsRowFrame(t: SlugTables, catalog: map<string, seq<string>>,
                      fetch: string -> Option<(map<string, Value>, Value)>, a: CostTable, b: CostTable,
                      row: CityRow, now: string)
    requires Upserted(t, catalog, fetch, row) && HoldsRow(t, catalog, fetch, a, row, now)
    requires KeyOf(row) in b && b[KeyOf(row)] == a[KeyOf(row)]
    ensures HoldsRow(t, catalog, fetch, b, row, now)
  {
  }

  /** A last upsert before the final city is a last upsert of the prefix. */
  lemma LastUpsertOfPrefix(t: SlugTables, catalog: map<string, seq<string>>,
                           fetch: string -> Option<(map<string, Value>, Value)>, cities: seq<CityRow>, j: int)
    requires |cities| > 0 && j < |cities| - 1 && LastUpsert(t, catalog, fetch, cities, j)
    ensures LastUpsert(t, catalog, fetch, cities[..|cities| - 1], j)
  {
    var n := |cities| - 1;
    assert cities[..n][j] == cities[j];
    assert cities[..n][j + 1..] == cities[j + 1..][..n - j - 1];
  }
}

=== FILE: download_cache.dfy ===
/** `scripts/download_cache.py`: choosing which release assets to download.
    The release is the decoded GitHub API response, reduced to its `assets`
    list (`None` when the key is absent); each asset is a JSON object. */
module DownloadCache {
  import opened Wrappers
  import opened PyValue

  type Asset = map<string, Value>

  /** Why `select_assets` fails: an asset without `name` (`KeyError`), a
      name that cannot be looked up in a set (`TypeError`), or wanted names
      the release lacks (`SystemExit`, listing them). */
  datatype SelectError = MissingName | UnhashableName | MissingAssets(names: set<string>)

  /** `asset["name"] in wanted`. */
  predicate IsWanted(asset: Asset, wanted: set<string>)
    requires "name" in asset
  {
    asset["name"].Str? && asset["name"].s in wanted
  }

  /** Every asset has a hashable `name`, so the loop runs to the end. */
  predicate WellNamed(assets: seq<Asset>) {
    forall k :: 0 <= k < |assets| ==> "name" in assets[k] && Hashable(assets[k]["name"])
  }

  /** The loop of `select_assets`: the wanted assets in release order, or the
      error of the first asset whose name cannot be checked. */
  function Filter(assets: seq<Asset>, wanted: set<string>): (r: Result<seq<Asset>, SelectError>)
    ensures r.Ok? <==> WellNamed(assets)
    ensures r.Ok? ==> |r.value| <= |assets|
    ensures r.Ok? ==> forall k :: 0 <= k < |r.value| ==> r.value[k] in assets && "name" in r.value[k] && IsWanted(r.value[k], wanted)
    ensures r.Err? ==> r.error == MissingName || r.error == UnhashableName
  {
    if assets == [] then Ok([])
    else
      var asset := assets[0];
      assert forall k :: 0 <= k < |assets| - 1 ==> assets[1..][k] == assets[k + 1];
      if "name" !in asset then Err(MissingName)
      else if !Hashable(asset["name"]) then Err(UnhashableName)
      else
        match Filter(assets[1..], wanted)
        case Err(e) => Err(e)
        case Ok(rest) => Ok(if IsWanted(asset, wanted) then [asset] + rest else rest)
  }

  /** How many times an asset occurs in a list. */
  function Count(xs: seq<Asset>, x: Asset): nat {
    multiset(xs)[x]
  }

  /** The filter keeps every wanted asset, as often as the release lists
      it, and drops every other one. */
  lemma {:induction false} FilterCounts(assets: seq<Asset>, wanted: set<string>, x: Asset)
    requires WellNamed(assets)
    ensures Count(Filter(assets, wanted).value, x)
      == if "name" in x && IsWanted(x, wanted) then Count(assets, x) else 0
  {
    if assets != [] {
      var rest := assets[1..];
      assert assets == [assets[0]] + rest;
      assert WellNamed(rest) by {
        assert forall k :: 0 <= k < |rest| ==> rest[k] == assets[k + 1];
      }
      FilterCounts(rest, wanted, x);
    }
  }

  /** Release order: selecting from two stretches of the release is
      selecting from each and concatenating. */
  lemma {:induction false} FilterAppend(a: seq<Asset>, b: seq<Asset>, wanted: set<string>)
    requires WellNamed(a) && WellNamed(b)
    ensures WellNamed(a + b)
    ensures Filter(a + b, wanted) == Ok(Filter(a, wanted).value + Filter(b, wanted).value)
  {
    if a != [] {
      var rest := a[1..];
      assert (a + b)[1..] == rest + b;
      assert WellNamed(rest) by {
        assert forall k :: 0 <= k < |rest| ==> rest[k] == a[k + 1];
      }
      FilterAppend(rest, b, wanted);
      assert (a + b)[0] == a[0];
      assert WellNamed(a + b) by {
        forall k | 0 <= k < |a + b|
          ensures "name" in (a + b)[k] && Hashable((a + b)[k]["name"])
        {
          if k < |a| { assert (a + b)[k] == a[k]; } else { assert (a + b)[k] == b[k - |a|]; }
        }
      }
      var head := if IsWanted(a[0], wanted) then [a[0]] else [];
      assert Filter(a, wanted).value == head + Filter(rest, wanted).value;
      assert Filter(a + b, wanted).value == head + Filter(rest + b, wanted).value;
      assert head + (Filter(rest, wanted).value + Filter(b, wanted).value)
          == (head + Filter(rest, wanted).value) + Filter(b, wanted).value;
    } else {
      assert a + b == b;
      assert Filter(a, wanted).value == [];
      assert Filter(b, wanted).Ok?;
      assert Filter(a, wanted).value + Filter(b, wanted).value == Filter(b, wanted).value;
    }
  }

  /** The names of some assets. */
  function Names(assets: seq<Asset>): set<string> {
    set k | 0 <= k < |assets| && "name" in assets[k] && assets[k]["name"].Str? :: assets[k]["name"].s
  }

  /** `set(names)`. */
  function Wanted(names: seq<string>): set<string> {
    set n | n in names
  }

  /** `select_assets(release, names)`: the wanted assets in release order,
      or `SystemExit` naming every wanted name no asset carries. */
  function SelectAssets(assets: Option<seq<Asset>>, names: seq<string>): (r: Result<seq<Asset>, SelectError>)
    ensures var all := assets.GetOr([]);
      r.Ok? <==> WellNamed(all) && Wanted(names) <= Names(all)
    ensures var all := assets.GetOr([]);
      r.Ok? ==> forall k :: 0 <= k < |r.value| ==> r.value[k] in all && "name" in r.value[k] && IsWanted(r.value[k], Wanted(names))
    ensures var all := assets.GetOr([]);
      r.Err? && r.error.MissingAssets? ==> WellNamed(all) && r.error.names == Wanted(names) - Names(all) && r.error.names != {}
  {
    var all := assets.GetOr([]);
    var wanted := Wanted(names);
    match Filter(all, wanted)
    case Err(e) => Err(e)
    case Ok(selected) =>
      FoundNames(all, wanted);
      assert Names(selected) == wanted * Names(all);
      assert wanted - Names(selected) == wanted - Names(all);
      assert wanted <= Names(selected) <==> wanted <= Names(all);
      if wanted <= Names(selected) then Ok(selected)
      else
        NotSubset(wanted, Names(selected));
        Err(MissingAssets(wanted - Names(selected)))
  }

  lemma NotSubset(a: set<string>, b: set<string>)
    requires !(a <= b)
    ensures a - b != {}
  {
    var x :| x in a && x !in b;
    assert x in a - b;
  }

  /** The names found among the selected assets are the wanted names the
      release carries. */
  lemma FoundNames(assets: seq<Asset>, wanted: set<string>)
    requires WellNamed(assets)
    ensures Names(Filter(assets, wanted).value) == wanted * Names(assets)
  {
    var selected := Filter(assets, wanted).value;
    forall n | n in wanted * Names(assets)
      ensures n in Names(selected)
    {
      var k :| 0 <= k < |assets| && "name" in assets[k] && assets[k]["name"].Str? && assets[k]["name"].s == n;
      FilterCounts(assets, wanted, assets[k]);
      assert assets[k] in multiset(assets);
      assert assets[k] in multiset(selected);
      var j :| 0 <= j < |selected| && selected[j] == assets[k];
    }
    forall n | n in Names(selected)
      ensures n in wanted * Names(assets)
    {
      var j :| 0 <= j < |selected| && "name" in selected[j] && selected[j]["name"].Str? && selected[j]["name"].s == n;
      var k :| 0 <= k < |assets| && assets[k] == selected[j];
    }
  }

  /** A release without assets satisfies only an empty request. */
  lemma NoAssets(names: seq<string>)
    requires |names| > 0
    ensures SelectAssets(None, names) == Err(MissingAssets(Wanted(names)))
  {
    assert names[0] in Wanted(names);
    assert Filter([], Wanted(names)) == Ok([]);
    assert Names([]) == {};
    assert !(Wanted(names) <= Names([]));
    assert Wanted(names) - Names([]) == Wanted(names);
  }
}

=== FILE: export_school_names.dfy ===
/** `scripts/export_school_names.py`: the deduplicated school list, its
    preview on standard output and the choice between exporting and
    previewing. The query's rows arrive typed (`city` and `state` are
    coalesced to empty text by the query); `REGION_MAP` is a parameter;
    printed lines are returned instead of written. */
module ExportSchoolNames {
  import opened Wrappers
  import opened Text
  import opened PyValue
  import opened Regions

  datatype SchoolNameRow = SchoolNameRow(name: Option<string>, city: string, state: string, regionId: Value)

  /** A record of the export. */
  datatype SchoolRecord = SchoolRecord(name: Option<string>, city: string, state: string, regionId: Value,
                                       regionName: string)

  /** The record of one row. */
  function ToRecord(row: SchoolNameRow, regionNames: map<int, string>): SchoolRecord {
    SchoolRecord(row.name, row.city, row.state, row.regionId, RegionName(regionNames, row.regionId))
  }

  /** The loop of `fetch_school_records`: one record per row, in order, with
      the row's fields and its region's name. */
  function FetchSchoolRecords(rows: seq<SchoolNameRow>, regionNames: map<int, string>)
    : (records: seq<SchoolRecord>)
    ensures |records| == |rows|
    ensures forall k :: 0 <= k < |rows| ==>
      && records[k].name == rows[k].name && records[k].city == rows[k].city
      && records[k].state == rows[k].state && records[k].regionId == rows[k].regionId
      && records[k].regionName == RegionName(regionNames, rows[k].regionId)
  {
    seq(|rows|, k requires 0 <= k < |rows| => ToRecord(rows[k], regionNames))
  }

  // ---------------------------------------------------------------------------
  // print_names

  /** `", ".join(filter(None, [city, state]))`. */
  function LocationText(city: string, state: string): (r: string)
    ensures city != "" && state != "" ==> r == city + ", " + state
    ensures city == "" ==> r == state
    ensures state == "" ==> r == city
  {
    var parts := if city == "" then (if state == "" then [] else [state]) else (if state == "" then [city] else [city, state]);
    assert |parts| == 2 ==> parts[1..] == [state] && Join(parts[1..], ", ") == state;
    Join(parts, ", ")
  }

  /** `str(x)` of an optional text value. */
  function PyStr(x: Option<string>): string {
    match x
    case None => "None"
    case Some(s) => s
  }

  /** The preview line of one record. */
  function RecordLine(r: SchoolRecord): string {
    "- " + PyStr(r.name) + " (" + LocationText(r.city, r.state) + ") [" + r.regionName + "]"
  }

  function TotalLine(n: nat): string {
    "Total schools: " + NatToString(n)
  }

  function MoreLine(more: int): string {
    "...and " + IntToString(more) + " more (use --export to capture them all)."
  }

  /** `print_names`: the total, the line of each of the first `limit`
      records in order, and a closing line naming how many were left out
      exactly when there are more records than `limit`. */
  function PrintNames(records: seq<SchoolRecord>, limit: int): (lines: seq<string>)
    ensures var shown := SliceTo(records, limit);
      && |lines| == 1 + |shown| + (if |records| > limit then 1 else 0)
      && lines[0] == TotalLine(|records|)
      && (forall k :: 0 <= k < |shown| ==> lines[1 + k] == RecordLine(records[k]))
      && (|records| > limit ==> lines[|lines| - 1] == MoreLine(|records| - limit))
  {
    var shown := SliceTo(records, limit);
    var body := seq(|shown|, k requires 0 <= k < |shown| => RecordLine(shown[k]));
    [TotalLine(|records|)] + body + (if |records| > limit then [MoreLine(|records| - limit)] else [])
  }

  /** With a limit of at least the number of records, every record is
      previewed and no closing line is printed. */
  lemma PrintAll(records: seq<SchoolRecord>, limit: int)
    requires limit >= |records|
    ensures |PrintNames(records, limit)| == 1 + |records|
    ensures forall k :: 0 <= k < |records| ==> PrintNames(records, limit)[1 + k] == RecordLine(records[k])
  {
  }

  // ---------------------------------------------------------------------------
  // main

  datatype ExportFormat = Json | Csv

  /** What `main` does with the records. */
  datatype Outcome =
    | ExportFile(format: ExportFormat, destination: string, records: seq<SchoolRecord>)
    | Preview(lines: seq<string>)

  /** `main` after the query: with `--format`, an `--output` is required
      (the argument parser's error); without it, the preview is printed. */
  function ChooseOutcome(format: Option<ExportFormat>, output: Option<string>, preview: int, records: seq<SchoolRecord>)
    : (r: Result<Outcome, string>)
    ensures r.Err? <==> format.Some? && output.None?
    ensures format.None? ==> r == Ok(Preview(PrintNames(records, preview)))
    ensures format.Some? && output.Some? ==>
      r == Ok(ExportFile(format.value, output.value, records))
  {
    match format
    case None => Ok(Preview(PrintNames(records, preview)))
    case Some(f) =>
      if output.None? then Err("--output is required when --format is specified.")
      else Ok(ExportFile(f, output.value, records))
  }
}

=== FILE: float64.dfy ===
/** Python's `int(float(x))` for an exact rational `x`: `float` rounds to
    the nearest IEEE 754 binary64 value (ties to the even significand,
    section 4.3.1 of IEEE 754-2008), and `int` truncates toward zero. A
    value that rounds to 2^1024 or beyond has no finite binary64 form:
    `float(n)` of such an integer and `int(float("inf"))` both raise
    `OverflowError`. Everything here is integer arithmetic on the
    numerator and denominator. `ParseFloat` reads the text `float()`
    accepts. */
module Float64 {
  import opened Wrappers
  import opened Text

  function Pow2(k: nat): (r: nat)
    ensures r >= 1
  {
    if k == 0 then 1 else 2 * Pow2(k - 1)
  }

  lemma {:induction false} Pow2Mono(i: nat, j: nat)
    requires i <= j
    ensures Pow2(i) <= Pow2(j)
    decreases j
  {
    if i < j {
      Pow2Mono(i, j - 1);
    }
  }

  lemma {:induction false} Pow2Add(i: nat, j: nat)
    ensures Pow2(i + j) == Pow2(i) * Pow2(j)
    decreases j
  {
    if j > 0 {
      Pow2Add(i, j - 1);
      assert Pow2(i + j) == 2 * Pow2(i + j - 1);
      assert Pow2(j) == 2 * Pow2(j - 1);
    }
  }

  lemma Pow2Split(k: nat, i: nat)
    requires i <= k
    ensures Pow2(k) == Pow2(i) * Pow2(k - i)
    ensures BitLength(Pow2(k)) == k + 1
  {
    Pow2Add(i, k - i);
    BitLengthOf(Pow2(k), k);
  }

  /** The number of binary digits of `n` (none for 0). */
  function BitLength(n: nat): (len: nat)
    ensures n == 0 <==> len == 0
    ensures n > 0 ==> Pow2(len - 1) <= n < Pow2(len)
  {
    if n == 0 then 0 else 1 + BitLength(n / 2)
  }

  /** A number below `2^k` has at most `k` binary digits. */
  lemma BitLengthBelow(n: nat, k: nat)
    requires n < Pow2(k)
    ensures BitLength(n) <= k
  {
    if BitLength(n) > k {
      Pow2AtMost(n, k);
    }
  }

  /** Every power of two below the leading one is at most `n`. */
  lemma Pow2AtMost(n: nat, j: nat)
    requires j < BitLength(n)
    ensures Pow2(j) <= n
  {
    Pow2Mono(j, BitLength(n) - 1);
  }

  /** A number in `[2^k, 2^(k+1))` has exactly `k + 1` binary digits. */
  lemma BitLengthOf(n: nat, k: nat)
    requires Pow2(k) <= n < Pow2(k + 1)
    ensures BitLength(n) == k + 1
  {
    BitLengthBelow(n, k + 1);
    var len := BitLength(n);
    if len <= k {
      Pow2Mono(len, k);
    }
  }

  /** `a / d` rounded to the nearest whole number, ties to the even one. */
  function RoundHalfEven(a: nat, d: nat): (m: nat)
    requires d > 0
    ensures a / d <= m <= a / d + 1
  {
    var q := a / d;
    var rem := a % d;
    if 2 * rem > d || (2 * rem == d && q % 2 == 1) then q + 1 else q
  }

  /** A binary floating-point format: `precision` significand bits, and
      every finite value below `2^maxExponent`. */
  datatype Format = Format(precision: nat, maxExponent: nat)
  {
    predicate Valid() {
      2 <= precision < maxExponent
    }
  }

  /** IEEE 754 binary64, Python's `float`. */
  const Binary64 := Format(53, 1024)

  /** `int(float(a / b))` for `a >= 0` and `b > 0`, or `OverflowError`:
      a value below `2^(precision - 1)` is handled by `TruncatedSmall`, a
      larger one by `RoundedLarge`, and a rounded value of
      `2^maxExponent` or more overflows. */
  function TruncatedFloat(fmt: Format, a: nat, b: nat): (r: Result<nat, string>)
    requires fmt.Valid() && b > 0
    ensures a / b < Pow2(fmt.precision - 1) ==> r.Ok? && (r.value == a / b || r.value == a / b + 1)
    ensures r.Err? ==> r.error == "OverflowError" && a / b >= Pow2(fmt.precision - 1)
  {
    var n := a / b;
    if BitLength(n) < fmt.precision then
      Ok(TruncatedSmall(fmt, a, b))
    else
      Pow2AtMost(n, fmt.precision - 1);
      var v := RoundedLarge(fmt, a, b);
      if BitLength(v) > fmt.maxExponent then Err("OverflowError") else Ok(v)
  }

  /** Below `2^(precision - 1)` the representable values around
      `n = a / b` are spaced at most 1/2 apart and `n` is one of them. The
      spacing just below `n + 1` is `2^(len - precision)`, `len` the bit
      length of `n`; the value rounds up to `n + 1` exactly when it lies
      within half that spacing of it, a tie included (`n + 1` has the even
      significand). */
  function TruncatedSmall(fmt: Format, a: nat, b: nat): (n: nat)
    requires b > 0 && BitLength(a / b) < fmt.precision
    ensures a / b <= n <= a / b + 1
  {
    var gap := b - a % b;
    if gap * Pow2(fmt.precision + 1 - BitLength(a / b)) <= b then a / b + 1 else a / b
  }

  /** From `2^(precision - 1)` on the spacing `unit = 2^(len - precision)`
      is a whole number: the value rounds to the nearest multiple of it,
      ties to the even multiple, and truncation keeps that whole number. */
  function RoundedLarge(fmt: Format, a: nat, b: nat): nat
    requires b > 0 && BitLength(a / b) >= fmt.precision
  {
    var unit := Pow2(BitLength(a / b) - fmt.precision);
    MulPositive(b, unit);
    RoundHalfEven(a, b * unit) * unit
  }

  lemma MulPositive(x: nat, y: nat)
    requires x > 0 && y > 0
    ensures x * y > 0
  {
    MulAtLeast(y, x);
  }

  lemma MulNonneg(x: nat, y: nat)
    ensures x * y >= 0
  {
  }

  lemma MulAtLeast(x: int, b: nat)
    requires x >= 1
    ensures x * b >= b
  {
    MulNonneg(x - 1, b);
    assert x * b == (x - 1) * b + b;
  }

  /** Euclidean division is determined by quotient and remainder. */
  lemma DivUnique(a: int, b: nat, q: int, r: int)
    requires b > 0 && 0 <= r < b && a == q * b + r
    ensures a / b == q && a % b == r
  {
    var d := a / b - q;
    assert d * b == r - a % b by {
      assert a == (a / b) * b + a % b;
      assert d * b == (a / b) * b - q * b;
    }
    if d >= 1 {
      MulAtLeast(d, b);
    } else if d <= -1 {
      MulAtLeast(-d, b);
    }
  }

  lemma MulMono(x: nat, p: nat, q: nat)
    requires p <= q
    ensures x * p <= x * q
  {
    MulNonneg(x, q - p);
    assert x * q == x * p + x * (q - p);
  }

  /** A whole multiple of `d` rounds to its own quotient. */
  lemma RoundHalfEvenExact(m: nat, d: nat)
    requires d > 0
    ensures RoundHalfEven(m * d, d) == m
  {
    DivUnique(m * d, d, m, 0);
  }

  /** A whole number up to `2^precision` is representable, so it survives
      the conversion unchanged. */
  lemma TruncatedFloatExact(fmt: Format, a: nat)
    requires fmt.Valid() && a <= Pow2(fmt.precision)
    ensures TruncatedFloat(fmt, a, 1) == Ok(a)
  {
    var p := fmt.precision;
    DivUnique(a, 1, a, 0);
    var len := BitLength(a);
    if len < p {
      Pow2Mono(2, p + 1 - len);
      assert Pow2(2) == 4;
    } else {
      BitLengthBelow(a, p + 1);
      if len == p {
        RoundHalfEvenExact(a, 1);
      } else {
        assert a == Pow2(p) == 2 * Pow2(p - 1);
        assert Pow2(1) == 2;
        RoundHalfEvenExact(Pow2(p - 1), 2);
      }
    }
  }

  /** `2^precision + 1` is the first whole number that is not
      representable; it lies halfway between `2^precision` and
      `2^precision + 2` and goes to the even significand, `2^precision`. */
  lemma TruncatedFloatTie(fmt: Format)
    requires fmt.Valid()
    ensures TruncatedFloat(fmt, Pow2(fmt.precision) + 1, 1) == Ok(Pow2(fmt.precision))
  {
    var p := fmt.precision;
    var a := Pow2(p) + 1;
    DivUnique(a, 1, a, 0);
    assert Pow2(p) == 2 * Pow2(p - 1) && Pow2(p - 1) == 2 * Pow2(p - 2);
    BitLengthOf(a, p);
    assert Pow2(1) == 2;
    DivUnique(a, 2, Pow2(p - 1), 1);
    DivUnique(Pow2(p - 1), 2, Pow2(p - 2), 0);
    BitLengthOf(Pow2(p), p);
  }

  /** A fraction below three quarters is dropped for every whole part below
      `2^(precision - 1)`: the value does not come within a spacing of
      `n + 1`. */
  lemma TruncatedFloatDropsFraction(fmt: Format, n: nat, f: nat, b: nat, a: nat)
    requires fmt.Valid() && 0 < b && 4 * f < 3 * b
    requires n < Pow2(fmt.precision - 1) && a == n * b + f
    ensures TruncatedFloat(fmt, a, b) == Ok(n)
  {
    var p := fmt.precision;
    BitLengthBelow(n, p - 1);
    var len := BitLength(n);
    DivUnique(a, b, n, f);
    var spacing := Pow2(p + 1 - len);
    Pow2Mono(2, p + 1 - len);
    assert Pow2(2) == 4;
    MulMono(b - f, 4, spacing);
    TruncatedFloatStaysBelow(fmt, a, b, n, f, len, spacing);
  }

  /** Below `2^(precision - 1)` a value farther than half a spacing from
      `n + 1` truncates to `n`. */
  lemma TruncatedFloatStaysBelow(fmt: Format, a: nat, b: nat, n: nat, rem: nat, len: nat, spacing: nat)
    requires fmt.Valid() && b > 0 && a / b == n && a % b == rem
    requires BitLength(n) == len && len < fmt.precision
    requires spacing == Pow2(fmt.precision + 1 - len) && (b - rem) * spacing > b
    ensures TruncatedFloat(fmt, a, b) == Ok(n)
  {
  }

  /** Values that round to `2^maxExponent` or beyond overflow: `2^k` for
      every `k >= maxExponent`. */
  lemma TruncatedFloatOverflow(fmt: Format, k: nat)
    requires fmt.Valid() && k >= fmt.maxExponent
    ensures TruncatedFloat(fmt, Pow2(k), 1) == Err("OverflowError")
  {
    RoundedLargePow2(fmt, k);
    DivUnique(Pow2(k), 1, Pow2(k), 0);
  }

  /** Every power of two from `2^(precision - 1)` on is representable. */
  lemma RoundedLargePow2(fmt: Format, k: nat)
    requires 1 <= fmt.precision <= k + 1
    ensures BitLength(Pow2(k)) == k + 1
    ensures RoundedLarge(fmt, Pow2(k), 1) == Pow2(k)
  {
    var i := fmt.precision - 1;
    Pow2Split(k, i);
    RoundedLargeWhole(fmt, Pow2(k), Pow2(i), k - i);
  }

  /** A whole number whose bits below the significand are all zero is
      representable. */
  lemma RoundedLargeWhole(fmt: Format, a: nat, m: nat, s: nat)
    requires a == m * Pow2(s) && BitLength(a) == fmt.precision + s
    ensures RoundedLarge(fmt, a, 1) == a
  {
    DivUnique(a, 1, a, 0);
    var unit := Pow2(s);
    assert 1 * unit == unit;
    RoundHalfEvenExact(m, unit);
  }

  /** A value below 1 by at most `2^-(precision + 1)` rounds to `1.0`, so
      `int` gives 1. */
  lemma TruncatedFloatRoundsUp(fmt: Format, b: nat)
    requires fmt.Valid() && b >= Pow2(fmt.precision + 1)
    ensures TruncatedFloat(fmt, b - 1, b) == Ok(1)
  {
    DivUnique(b - 1, b, 0, b - 1);
  }

  // ---------------------------------------------------------------------------
  // float() of a string

  /** What the text given to `float()` denotes before rounding: the decimal
      `digits * 10^exponent` with a sign, an infinity, or a NaN. */
  datatype FloatText =
    | Decimal(negative: bool, digits: nat, exponent: int)
    | Infinity(negative: bool)
    | NotANumber

  /** A possibly empty digit part: `Some("")` for no text, else `Ungroup`. */
  function OptionalDigits(s: string): (r: Option<string>)
    ensures r.Some? ==> AllDigits(r.value)
    ensures s == "" ==> r == Some("")
  {
    if s == "" then Some("") else Ungroup(s)
  }

  /** Python's `[digitpart] "." digitpart | digitpart ["."]`: the digits
      with the point removed and how many of them follow the point. */
  function ParseMantissa(m: string): (r: Option<(nat, nat)>)
  {
    match IndexOf(m, ".")
    case None =>
      (match Ungroup(m)
       case None => None
       case Some(d) => Some((DigitsValue(d), 0)))
    case Some(k) =>
      var whole := OptionalDigits(m[..k]);
      var frac := OptionalDigits(m[k + 1..]);
      if whole.None? || frac.None? || whole.value + frac.value == "" then None
      else
        DigitsValueAppend(whole.value, frac.value);
        Some((DigitsValue(whole.value + frac.value), |frac.value|))
  }

  /** `float(s)` before rounding: surrounding whitespace, an optional sign,
      then `inf`, `infinity` or `nan` in any case, or a mantissa with an
      optional exponent `e`/`E`, optional sign and digits; digit parts may
      be grouped by single underscores. `None` is the `ValueError`. */
  function ParseFloat(s: string): (r: Option<FloatText>)
    ensures r.Some? ==> Strip(s) != ""
  {
    var t := Strip(s);
    var signed := |t| > 0 && (t[0] == '-' || t[0] == '+');
    ParseUnsigned(signed && t[0] == '-', Lower(if signed then t[1..] else t))
  }

  /** The lower-cased text after the sign. */
  function ParseUnsigned(negative: bool, body: string): (r: Option<FloatText>)
    ensures r.Some? ==> body != ""
  {
    if body == "inf" || body == "infinity" then Some(Infinity(negative))
    else if body == "nan" then Some(NotANumber)
    else ParseFinite(negative, body)
  }

  /** A mantissa and an optional exponent. */
  function ParseFinite(negative: bool, body: string): (r: Option<FloatText>)
    ensures r.Some? ==> r.value.Decimal? && body != ""
  {
    var split := IndexOf(body, "e");
    var mantissa := if split.Some? then body[..split.value] else body;
    var exponent := if split.Some? then ParseSignedDigits(body[split.value + 1..]) else Some(0);
    match ParseMantissa(mantissa)
    case None => None
    case Some(m) =>
      if exponent.None? then None
      else Some(Decimal(negative, m.0, exponent.value - m.1))
  }

  /** The decimal `digits * 10^exponent` as a fraction `num / den`. */
  function Fraction(digits: nat, exponent: int): (r: (nat, nat))
    ensures r.1 > 0
    ensures exponent >= 0 ==> r.1 == 1
  {
    if exponent >= 0 then (digits * Pow10(exponent), 1) else (digits, Pow10(-exponent))
  }

  lemma FractionWhole(n: nat)
    ensures Fraction(n, 0) == (n, 1)
  {
    assert Pow10(0) == 1;
  }

  function Signed(negative: bool, n: nat): (i: int)
    ensures (if i < 0 then -i else i) == n
    ensures i < 0 ==> negative
  {
    if negative then -(n as int) else n
  }

  lemma SignedAbs(i: int)
    ensures Signed(i < 0, if i < 0 then -i else i) == i
  {
  }

  /** `int(float(s))` once `s` is read: a NaN raises `ValueError` (`None`
      here), an infinity or a value beyond the binary64 range
      `OverflowError`; otherwise the rounded value truncated toward zero,
      signed. */
  function TruncatedText(fmt: Format, t: FloatText): (r: Result<Option<int>, string>)
    requires fmt.Valid()
    ensures r.Err? ==> r.error == "OverflowError"
    ensures t.NotANumber? <==> r == Ok(None)
    ensures t.Infinity? ==> r.Err?
  {
    match t
    case NotANumber => Ok(None)
    case Infinity(_) => Err("OverflowError")
    case Decimal(negative, digits, exponent) =>
      var f := Fraction(digits, exponent);
      match TruncatedFloat(fmt, f.0, f.1)
      case Err(e) => Err(e)
      case Ok(n) => Ok(Some(Signed(negative, n)))
  }

  /** Digits and points only: text that `Lower` leaves alone and that has
      no exponent. */
  predicate PlainNumber(s: string) {
    forall k :: 0 <= k < |s| ==> IsDigit(s[k]) || s[k] == '.'
  }

  lemma ParseFloatPlain(t: string, negative: bool, body: string)
    requires |body| > 0 && IsDigit(body[0]) && PlainNumber(body)
    requires t == (if negative then "-" else "") + body && Strip(t) == t
    requires ParseMantissa(body).Some?
    ensures ParseFloat(t) == Some(Decimal(negative, ParseMantissa(body).value.0, -(ParseMantissa(body).value.1 as int)))
  {
    ParseFloatSign(t, negative, body);
    ParseUnsignedPlain(negative, body);
  }

  lemma ParseFloatSign(t: string, negative: bool, body: string)
    requires |body| > 0 && IsDigit(body[0]) && PlainNumber(body)
    requires t == (if negative then "-" else "") + body && Strip(t) == t
    ensures ParseFloat(t) == ParseUnsigned(negative, body)
  {
    if negative {
      assert t[0] == '-' && t[1..] == body;
    } else {
      assert t == body;
    }
    LowerPlain(body);
  }

  lemma ParseUnsignedPlain(negative: bool, body: string)
    requires |body| > 0 && IsDigit(body[0]) && PlainNumber(body)
    requires ParseMantissa(body).Some?
    ensures ParseUnsigned(negative, body) == Some(Decimal(negative, ParseMantissa(body).value.0, -(ParseMantissa(body).value.1 as int)))
  {
    assert body != "inf" && body != "infinity" && body != "nan" by {
      assert IsDigit(body[0]);
    }
    IndexOfAbsent(body, 'e');
  }

  lemma LowerPlain(body: string)
    requires PlainNumber(body)
    ensures Lower(body) == body
  {
    forall k | 0 <= k < |body|
      ensures Lower(body)[k] == body[k]
    {
      assert IsDigit(body[k]) || body[k] == '.';
    }
  }

  /** Decimal digits, optionally after a minus sign, read as that whole
      number. */
  lemma ParseFloatDigits(negative: bool, d: string)
    requires |d| > 0 && AllDigits(d)
    ensures ParseFloat((if negative then "-" else "") + d) == Some(Decimal(negative, DigitsValue(d), 0))
  {
    var t := (if negative then "-" else "") + d;
    StripSignedDigits(negative, d);
    IndexOfAbsent(d, '.');
    UngroupDigits(d);
    assert ParseMantissa(d) == Some((DigitsValue(d), 0));
    ParseFloatPlain(t, negative, d);
  }

  lemma StripSignedDigits(negative: bool, d: string)
    requires |d| > 0 && AllDigits(d)
    ensures Strip((if negative then "-" else "") + d) == (if negative then "-" else "") + d
  {
    var t := (if negative then "-" else "") + d;
    assert IsDigit(d[|d| - 1]) && t[|t| - 1] == d[|d| - 1];
    assert IsDigit(d[0]);
    assert t[0] == '-' || t[0] == d[0];
    StripByNoop(t, IsSpace);
  }

  /** The decimal text of an integer reads as that integer. */
  lemma ParseFloatIntText(i: int)
    ensures ParseFloat(IntToString(i)) == Some(Decimal(i < 0, if i < 0 then -i else i, 0))
  {
    var n: nat := if i < 0 then -i else i;
    var d := NatToString(n);
    assert IntToString(i) == (if i < 0 then "-" else "") + d;
    ParseFloatDigits(i < 0, d);
    DigitsValueNatToString(n);
  }

  /** `w.f` reads as the decimal `wf * 10^-|f|`. */
  lemma ParseFloatDecimalText(whole: string, frac: string)
    requires |whole| > 0 && AllDigits(whole) && AllDigits(frac)
    ensures AllDigits(whole + frac)
    ensures ParseFloat(whole + "." + frac) == Some(Decimal(false, DigitsValue(whole + frac), -(|frac| as int)))
  {
    var s := whole + "." + frac;
    assert IsDigit(whole[0]) && s[0] == whole[0];
    StripDecimalText(whole, frac);
    ParseMantissaPoint(whole, frac);
    ParseFloatPlain(s, false, s);
  }

  lemma StripDecimalText(d: string, frac: string)
    requires |d| > 0 && IsDigit(d[0]) && AllDigits(frac)
    ensures Strip(d + "." + frac) == d + "." + frac
  {
    var s := d + "." + frac;
    assert s[0] == d[0];
    if |frac| > 0 {
      assert s[|s| - 1] == frac[|frac| - 1];
    } else {
      assert s[|s| - 1] == '.';
    }
    StripByNoop(s, IsSpace);
  }

  /** A point after a non-empty digit part. */
  lemma ParseMantissaPoint(whole: string, frac: string)
    requires |whole| > 0 && AllDigits(whole) && AllDigits(frac)
    ensures PlainNumber(whole + "." + frac)
    ensures AllDigits(whole + frac)
    ensures ParseMantissa(whole + "." + frac) == Some((DigitsValue(whole + frac), |frac|))
  {
    var s := whole + "." + frac;
    UngroupDigits(whole);
    assert OptionalDigits(frac) == Some(frac) by {
      if |frac| > 0 {
        UngroupDigits(frac);
      }
    }
    IndexOfSingle(whole, '.', frac);
    assert s == whole + ['.'] + frac;
    assert s[..|whole|] == whole && s[|whole| + 1..] == frac;
    DigitsValueAppend(whole, frac);
  }

  /** `inf`, `infinity` and `nan` are read in any letter case. */
  lemma ParseFloatSpecial(w: string)
    requires Lower(w) in {"inf", "infinity", "nan"}
    ensures ParseFloat(w) == Some(if Lower(w) == "nan" then NotANumber else Infinity(false))
  {
    var l := Lower(w);
    assert |w| >= 3 && l[0] == LowerChar(w[0]) && l[|w| - 1] == LowerChar(w[|w| - 1]);
    assert l[0] in {'i', 'n'} && l[|w| - 1] in {'f', 'y', 'n'};
    StripByNoop(w, IsSpace);
  }

  // ---------------------------------------------------------------------------
  // int(float(...)) of read text

  /** Whole numbers up to `2^precision`, with either sign, come back
      unchanged. */
  lemma TruncatedTextExact(fmt: Format, negative: bool, n: nat)
    requires fmt.Valid() && n <= Pow2(fmt.precision)
    ensures TruncatedText(fmt, Decimal(negative, n, 0)) == Ok(Some(Signed(negative, n)))
  {
    FractionWhole(n);
    TruncatedFloatExact(fmt, n);
  }

  /** `2^precision + 1` comes back as `2^precision`. */
  lemma TruncatedTextTie(fmt: Format, negative: bool)
    requires fmt.Valid()
    ensures TruncatedText(fmt, Decimal(negative, Pow2(fmt.precision) + 1, 0))
         == Ok(Some(Signed(negative, Pow2(fmt.precision))))
  {
    FractionWhole(Pow2(fmt.precision) + 1);
    TruncatedFloatTie(fmt);
  }

  /** The tie case of `TruncatedTextTie` for a positive value, stated through names. */
  lemma TruncatedTextTieAt(fmt: Format, n: nat, m: nat)
    requires fmt.Valid() && n == Pow2(fmt.precision) && m == n + 1
    ensures TruncatedText(fmt, Decimal(false, m, 0)) == Ok(Some(n))
  {
    TruncatedTextTie(fmt, false);
  }

  /** `2^k` overflows for every `k >= maxExponent`. */
  lemma TruncatedTextOverflow(fmt: Format, negative: bool, k: nat)
    requires fmt.Valid() && k >= fmt.maxExponent
    ensures TruncatedText(fmt, Decimal(negative, Pow2(k), 0)) == Err("OverflowError")
  {
    FractionWhole(Pow2(k));
    TruncatedFloatOverflow(fmt, k);
  }

  /** `n.f` with a fraction below three quarters truncates to `n` when
      `n < 2^(precision - 1)`. */
  lemma TruncatedTextDropsFraction(fmt: Format, n: nat, f: nat, places: nat, d: nat)
    requires fmt.Valid() && n < Pow2(fmt.precision - 1) && 4 * f < 3 * Pow10(places)
    requires d == n * Pow10(places) + f
    ensures TruncatedText(fmt, Decimal(false, d, -(places as int))) == Ok(Some(n))
  {
    var p := Pow10(places);
    TruncatedFloatDropsFraction(fmt, n, f, p, d);
    FractionScaled(d, places);
    TruncatedTextOfFloat(fmt, false, d, -(places as int), d, p, n);
  }

  /** `d * 10^-places` is the fraction `d / 10^places`. */
  lemma FractionScaled(d: nat, places: nat)
    ensures Fraction(d, -(places as int)) == (d, Pow10(places))
  {
    if places == 0 {
      assert Pow10(0) == 1;
    }
  }

  /** A decimal whose fraction truncates to `n` reads as the signed `n`. */
  lemma TruncatedTextOfFloat(fmt: Format, negative: bool, digits: nat, exponent: int, a: nat, b: nat, n: nat)
    requires fmt.Valid() && Fraction(digits, exponent) == (a, b) && TruncatedFloat(fmt, a, b) == Ok(n)
    ensures TruncatedText(fmt, Decimal(negative, digits, exponent)) == Ok(Some(Signed(negative, n)))
  {
  }

  /** `k` nines after the point, `0.99...9`. */
  function Nines(k: nat): (r: string)
    ensures |r| == k && AllDigits(r)
  {
    seq(k, _ => '9')
  }

  lemma {:induction false} NinesValue(k: nat)
    ensures DigitsValue(Nines(k)) == Pow10(k) - 1
  {
    if k > 0 {
      assert Nines(k)[..k - 1] == Nines(k - 1);
      NinesValue(k - 1);
    }
  }

  lemma {:induction false} Pow10Add(i: nat, j: nat)
    ensures Pow10(i + j) == Pow10(i) * Pow10(j)
    decreases j
  {
    if j > 0 {
      Pow10Add(i, j - 1);
      assert Pow10(i + j) == 10 * Pow10(i + j - 1);
      assert Pow10(j) == 10 * Pow10(j - 1);
    }
  }

  lemma Pow2Of54()
    ensures Pow2(54) == 18014398509481984
  {
    assert Pow2(3) == 8;
    Pow2Add(3, 3);
    assert Pow2(6) == 64;
    Pow2Add(6, 6);
    assert Pow2(12) == 4096;
    Pow2Add(12, 12);
    assert Pow2(24) == 16777216;
    Pow2Add(24, 24);
    assert Pow2(48) == 281474976710656;
    Pow2Add(48, 6);
  }

  lemma Pow10Of17()
    ensures Pow10(17) == 100000000000000000
  {
    assert Pow10(4) == 10000;
    Pow10Add(4, 4);
    assert Pow10(8) == 100000000;
    Pow10Add(8, 8);
    assert Pow10(16) == 10000000000000000;
    Pow10Add(16, 1);
  }

  /** `10^k` reaches `2^54`, half a binary64 unit below 1, from seventeen
      places on: `10^17 > 2^54 = 18014398509481984`. */
  lemma {:induction false} Pow10CoversBinary64(k: nat)
    requires k >= 17
    ensures Pow2(Binary64.precision + 1) <= Pow10(k)
  {
    if k == 17 {
      Pow2Of54();
      Pow10Of17();
    } else {
      Pow10CoversBinary64(k - 1);
    }
  }

  /** Enough nines after the point come within `2^-(precision + 1)` of 1:
      `float` gives `1.0` and `int` gives 1. For binary64 seventeen nines
      are enough (`Pow10CoversBinary64`). */
  lemma TruncatedTextRoundsUp(fmt: Format, k: nat, d: nat)
    requires fmt.Valid() && Pow2(fmt.precision + 1) <= Pow10(k) && d == Pow10(k) - 1
    ensures TruncatedText(fmt, Decimal(false, d, -(k as int))) == Ok(Some(1))
  {
    var b := Pow10(k);
    TruncatedFloatRoundsUp(fmt, b);
    FractionScaled(d, k);
    TruncatedTextOfFloat(fmt, false, d, -(k as int), d, b, 1);
  }

  /** The digits `w` then `f`, scaled by `10^-|f|`, truncate to `w` when
      `w < 2^(precision - 1)` and the fraction is below three quarters. */
  lemma TruncatedDigitsDropFraction(fmt: Format, whole: string, frac: string)
    requires fmt.Valid() && AllDigits(whole) && AllDigits(frac)
    requires DigitsValue(whole) < Pow2(fmt.precision - 1) && 4 * DigitsValue(frac) < 3 * Pow10(|frac|)
    ensures TruncatedText(fmt, Decimal(false, DigitsValue(whole + frac), -(|frac| as int))) == Ok(Some(DigitsValue(whole)))
  {
    DigitsValueAppend(whole, frac);
    TruncatedTextDropsFraction(fmt, DigitsValue(whole), DigitsValue(frac), |frac|, DigitsValue(whole + frac));
  }

  /** The text `w.f` reads as a decimal that truncates to `w`, when
      `w < 2^(precision - 1)` and the fraction is below three quarters. */
  lemma TruncatedDecimalText(fmt: Format, whole: string, frac: string)
    requires fmt.Valid() && |whole| > 0 && AllDigits(whole) && AllDigits(frac)
    requires DigitsValue(whole) < Pow2(fmt.precision - 1) && 4 * DigitsValue(frac) < 3 * Pow10(|frac|)
    ensures ParseFloat(whole + "." + frac).Some?
    ensures TruncatedText(fmt, ParseFloat(whole + "." + frac).value) == Ok(Some(DigitsValue(whole)))
  {
    ParseFloatDecimalText(whole, frac);
    TruncatedDigitsDropFraction(fmt, whole, frac);
  }

  /** Nines after a zero, scaled by `10^-k`, truncate to 1 when
      `10^k >= 2^(precision + 1)`. */
  lemma TruncatedNinesRoundUp(fmt: Format, k: nat)
    requires fmt.Valid() && Pow2(fmt.precision + 1) <= Pow10(k)
    ensures AllDigits("0" + Nines(k))
    ensures TruncatedText(fmt, Decimal(false, DigitsValue("0" + Nines(k)), -(k as int))) == Ok(Some(1))
  {
    var d := DigitsValue("0" + Nines(k));
    DigitsValueAppend("0", Nines(k));
    assert DigitsValue("0") == 0;
    NinesValue(k);
    TruncatedTextRoundsUp(fmt, k, d);
  }

  /** The text `0.99...9` with `k` nines reads as a decimal that truncates
      to 1, when `10^k >= 2^(precision + 1)`. */
  lemma TruncatedNinesText(fmt: Format, k: nat)
    requires fmt.Valid() && Pow2(fmt.precision + 1) <= Pow10(k)
    ensures ParseFloat("0" + "." + Nines(k)).Some?
    ensures TruncatedText(fmt, ParseFloat("0" + "." + Nines(k)).value) == Ok(Some(1))
  {
    ParseFloatDecimalText("0", Nines(k));
    TruncatedNinesRoundUp(fmt, k);
  }
}

=== FILE: location_profiles.dfy ===
/** `scripts/generate_location_profiles.py`: turning the rows of the state
    and city summary queries into profile records and the JSON payload that
    lists them. Rows are the query's tuples; `REGION_MAP` is a parameter
    (`regionNames`); `round(x, 2)` is the parameter `round2`; the generation
    timestamp is given as text. */
module LocationProfiles {
  import opened Wrappers
  import opened PyValue
  import opened Regions

  /** The averaged columns, in query order: student size, in-state tuition,
      out-of-state tuition, cost of attendance, net price. */
  const AverageCount: nat := 5

  /** A profile record. `city` is `None` for the state dimension, whose
      records have no `city` key. */
  datatype LocationRecord = LocationRecord(
    state: Value,
    city: Option<Value>,
    regionId: Value,
    regionName: string,
    schoolCount: Value,
    programCount: Value,
    averages: seq<Value>
  )

  /** The document `write_json` serialises. */
  datatype Payload = Payload(dimension: string, generatedAt: string, recordCount: int, records: seq<LocationRecord>)

  /** `_round_value`: `None` stays `None`; a number becomes the float
      `round(float(value), 2)`. Text is outside the model (the queries
      average numeric columns); containers raise `TypeError`. */
  function RoundValue(value: Value, round2: real -> real): (r: Result<Value, string>)
    ensures value.Null? ==> r == Ok(Null)
    ensures value.Float? ==> r == Ok(Float(round2(value.r)))
    ensures value.Int? ==> r == Ok(Float(round2(value.i as real)))
    ensures r.Ok? <==> value.Null? || value.Bool? || value.Int? || value.Float?
    ensures r.Ok? && !value.Null? ==> r.value.Float?
  {
    match value
    case Null => Ok(Null)
    case Bool(b) => Ok(Float(round2(if b then 1.0 else 0.0)))
    case Int(i) => Ok(Float(round2(i as real)))
    case Float(x) => Ok(Float(round2(x)))
    case Str(_) => Err("UnsupportedText")
    case _ => Err("TypeError")
  }

  predicate Roundable(v: Value) {
    v.Null? || v.Bool? || v.Int? || v.Float?
  }

  /** Rounds every average column, failing on the first that cannot be. */
  function RoundAll(values: seq<Value>, round2: real -> real): (r: Result<seq<Value>, string>)
    ensures r.Ok? <==> forall k :: 0 <= k < |values| ==> Roundable(values[k])
    ensures r.Ok? ==> |r.value| == |values|
    ensures r.Ok? ==> forall k :: 0 <= k < |values| ==> r.value[k] == RoundValue(values[k], round2).value
  {
    if values == [] then Ok([])
    else
      var rest := values[1..];
      assert forall k :: 0 <= k < |rest| ==> rest[k] == values[k + 1];
      match RoundValue(values[0], round2)
      case Err(e) => Err(e)
      case Ok(v) =>
        match RoundAll(rest, round2)
        case Err(e) => Err(e)
        case Ok(vs) => Ok([v] + vs)
  }

  /** The averaged columns of a row can all be rounded. */
  predicate AveragesRoundable(dimension: string, row: seq<Value>) {
    forall k :: Width(dimension) - AverageCount <= k < |row| ==> Roundable(row[k])
  }

  /** The number of columns a dimension's query returns. */
  function Width(dimension: string): nat {
    if dimension == "state" then 4 + AverageCount else 5 + AverageCount
  }

  /** `_build_record`: a row of the wrong width fails to unpack
      (`ValueError`); otherwise state, city, region id and counts are copied,
      the region is named, and the averages are rounded. */
  function BuildRecord(dimension: string, row: seq<Value>, regionNames: map<int, string>, round2: real -> real)
    : (r: Result<LocationRecord, string>)
    ensures |row| != Width(dimension) ==> r == Err("ValueError")
    ensures r.Ok? <==> |row| == Width(dimension) && AveragesRoundable(dimension, row)
    ensures r.Ok? ==> var head := Width(dimension) - AverageCount;
      && r.value.state == row[0]
      && (dimension == "state" <==> r.value.city.None?)
      && (dimension != "state" ==> r.value.city == Some(row[1]))
      && r.value.regionId == row[head - 3]
      && r.value.regionName == RegionName(regionNames, row[head - 3])
      && r.value.schoolCount == row[head - 2]
      && r.value.programCount == row[head - 1]
      && |r.value.averages| == AverageCount
      && forall k :: 0 <= k < AverageCount ==> r.value.averages[k] == RoundValue(row[head + k], round2).value
  {
    if |row| != Width(dimension) then Err("ValueError")
    else
      var head := Width(dimension) - AverageCount;
      var city := if dimension == "state" then None else Some(row[1]);
      var tail := row[head..];
      assert forall k :: 0 <= k < |tail| ==> tail[k] == row[head + k];
      match RoundAll(tail, round2)
      case Err(e) => Err(e)
      case Ok(averages) =>
        Ok(LocationRecord(row[0], city, row[head - 3], RegionName(regionNames, row[head - 3]),
                          row[head - 2], row[head - 1], averages))
  }

  /** `normalize_records`: one record per row, in row order (a built record
      is a non-empty dictionary, so none is dropped), or the error of the
      first row that fails. */
  function NormalizeRecords(dimension: string, rows: seq<seq<Value>>, regionNames: map<int, string>,
                            round2: real -> real)
    : (r: Result<seq<LocationRecord>, string>)
    ensures r.Ok? <==> forall k :: 0 <= k < |rows| ==> BuildRecord(dimension, rows[k], regionNames, round2).Ok?
    ensures r.Ok? ==> |r.value| == |rows|
    ensures r.Ok? ==> forall k :: 0 <= k < |rows| ==> r.value[k] == BuildRecord(dimension, rows[k], regionNames, round2).value
  {
    var normalize := row => NormalizeRow(dimension, row, regionNames, round2);
    forall row ensures normalize(row) == BuildRecord(dimension, row, regionNames, round2) {
      NormalizeRowBuilds(dimension, row, regionNames, round2);
    }
    MapAll(normalize, rows)
  }

  /** One pass of the loop: unpacking the state and the city or region
      fails on a row of fewer than two columns, before the record is built. */
  function NormalizeRow(dimension: string, row: seq<Value>, regionNames: map<int, string>, round2: real -> real)
    : Result<LocationRecord, string>
  {
    if |row| < 2 then Err("ValueError") else BuildRecord(dimension, row, regionNames, round2)
  }

  /** Every record is at least two columns wide, so the early unpacking
      raises exactly when building the record would. */
  lemma NormalizeRowBuilds(dimension: string, row: seq<Value>, regionNames: map<int, string>, round2: real -> real)
    ensures NormalizeRow(dimension, row, regionNames, round2) == BuildRecord(dimension, row, regionNames, round2)
  {
    if |row| < 2 {
      assert |row| != Width(dimension);
    }
  }

  /** Applies `f` to every item in order, stopping at the first error. */
  function MapAll<A, B, E>(f: A -> Result<B, E>, xs: seq<A>): (r: Result<seq<B>, E>)
    ensures r.Ok? <==> forall k :: 0 <= k < |xs| ==> f(xs[k]).Ok?
    ensures r.Ok? ==> |r.value| == |xs|
    ensures r.Ok? ==> forall k :: 0 <= k < |xs| ==> r.value[k] == f(xs[k]).value
  {
    if xs == [] then Ok([])
    else
      var rest := xs[1..];
      assert forall k :: 0 <= k < |rest| ==> rest[k] == xs[k + 1];
      match f(xs[0])
      case Err(e) => Err(e)
      case Ok(y) =>
        match MapAll(f, rest)
        case Err(e) => Err(e)
        case Ok(ys) => Ok([y] + ys)
  }

  /** The payload of `write_json`: the dimension, the timestamp and the
      records with their count. */
  function JsonPayload(records: seq<LocationRecord>, dimension: string, generatedAt: string): (p: Payload)
    ensures p.recordCount == |p.records| && p.records == records
    ensures p.dimension == dimension && p.generatedAt == generatedAt
  {
    Payload(dimension, generatedAt, |records|, records)
  }
}

=== FILE: metrics.dfy ===
/** The nine cost-of-living metric columns shared by the Teleport ingestion,
    the fallback exporter and the regional backfill. */
module Metrics {

  /** `METRIC_KEYS`, also the column list of the `location_costs` upsert and
      of the fallback's per-slug metric dictionaries. */
  const MetricKeys: seq<string> := [
    "cost_index",
    "cost_plus_rent_index",
    "rent_index",
    "groceries_index",
    "restaurant_index",
    "rent_small",
    "rent_large",
    "meal_cost",
    "transit_monthly"
  ]

  /** No column is listed twice. */
  lemma MetricKeysDistinct()
    ensures forall i, j :: 0 <= i < j < |MetricKeys| ==> MetricKeys[i] != MetricKeys[j]
  {
  }

  /** The dictionary pairing each key with the value at its position. */
  function ZipMap<V>(keys: seq<string>, values: seq<V>): (m: map<string, V>)
    requires |keys| == |values|
    requires forall i, j :: 0 <= i < j < |keys| ==> keys[i] != keys[j]
    ensures m.Keys == set k | k in keys
    ensures forall j :: 0 <= j < |keys| ==> m[keys[j]] == values[j]
  {
    map j | 0 <= j < |keys| :: keys[j] := values[j]
  }

  /** A metric dictionary: each metric key with its value, in column order. */
  function MetricMap<V>(values: seq<V>): (m: map<string, V>)
    requires |values| == |MetricKeys|
    ensures m.Keys == set k | k in MetricKeys
    ensures forall j :: 0 <= j < |MetricKeys| ==> m[MetricKeys[j]] == values[j]
  {
    MetricKeysDistinct();
    ZipMap(MetricKeys, values)
  }
}

=== FILE: pyvalue.dfy ===
/** The dynamic values the club connectors handle (decoded JSON payloads, CSV
    rows, config dictionaries) and the two helpers of `scripts/clubs/utils.py`:
    dotted-path lookup and list normalisation. */
module PyValue {
  import opened Wrappers
  import opened Text

  /** A Python value. `Null` is Python's `None`; `PySet` lists a set's
      elements in iteration order; dictionary keys are strings, as in JSON. */
  datatype Value =
    | Null
    | Bool(b: bool)
    | Int(i: int)
    | Float(r: real)
    | Str(s: string)
    | List(items: seq<Value>)
    | Tuple(items: seq<Value>)
    | PySet(items: seq<Value>)
    | Dict(entries: map<string, Value>)

  /** Python truthiness (`bool(v)`). */
  predicate Truthy(v: Value) {
    match v
    case Null => false
    case Bool(b) => b
    case Int(i) => i != 0
    case Float(r) => r != 0.0
    case Str(s) => |s| > 0
    case List(xs) => |xs| > 0
    case Tuple(xs) => |xs| > 0
    case PySet(xs) => |xs| > 0
    case Dict(m) => |m| > 0
  }

  /** `d.get(key, default)` on a dictionary. */
  function DictGet(m: map<string, Value>, key: string, default: Value): Value {
    if key in m then m[key] else default
  }

  /** Whether `hash(v)` succeeds: lists, dicts and sets raise `TypeError`,
      and so does a tuple holding one of them. */
  predicate Hashable(v: Value) {
    match v
    case List(_) => false
    case Dict(_) => false
    case PySet(_) => false
    case Tuple(xs) => forall k :: 0 <= k < |xs| ==> Hashable(xs[k])
    case _ => true
  }

  /** `a or b`: the first operand when truthy, otherwise the second. */
  function Or(a: Value, b: Value): Value {
    if Truthy(a) then a else b
  }

  // ---------------------------------------------------------------------------
  // ensure_list

  /** `ensure_list`: `None` becomes empty, lists are kept, tuples and sets are
      listed, anything else (strings and dicts included) is wrapped. */
  function EnsureList(v: Value): (r: seq<Value>)
    ensures v.Null? ==> r == []
    ensures v.List? || v.Tuple? || v.PySet? ==> r == v.items
    ensures !(v.Null? || v.List? || v.Tuple? || v.PySet?) ==> r == [v]
  {
    match v
    case Null => []
    case List(xs) => xs
    case Tuple(xs) => xs
    case PySet(xs) => xs
    case _ => [v]
  }

  /** The result is empty exactly when the input is `None` or an empty
      list, tuple or set; a scalar is never dropped. */
  lemma EnsureListEmpty(v: Value)
    ensures EnsureList(v) == [] <==> v.Null? || ((v.List? || v.Tuple? || v.PySet?) && v.items == [])
    ensures !(v.Null? || v.List? || v.Tuple? || v.PySet?) ==> EnsureList(v) == [v]
  {
  }

  // ---------------------------------------------------------------------------
  // dot_lookup

  /** One step of the walk: the child selected by `segment`, or `None` when
      the walk must stop with the default. A missing dictionary key selects
      `default` itself, as `current.get(segment, default)` does. */
  function Step(current: Value, segment: string, default: Value): Option<Value> {
    match current
    case Dict(m) => Some(DictGet(m, segment, default))
    case List(xs) => Index(xs, segment)
    case Tuple(xs) => Index(xs, segment)
    case _ => None
  }

  /** `int(segment)` used as an index into a sequence, range-checked. */
  function Index(xs: seq<Value>, segment: string): Option<Value> {
    match ParseInt(segment)
    case None => None
    case Some(i) => if 0 <= i < |xs| then Some(xs[i]) else None
  }

  /** The loop of `dot_lookup` over the remaining segments. */
  function Walk(current: Value, segments: seq<string>, default: Value): Value
    decreases |segments|
  {
    if |segments| == 0 then current
    else
      match Step(current, segments[0], default)
      case None => default
      case Some(next) =>
        if next.Null? then default else Walk(next, segments[1..], default)
  }

  /** `dot_lookup(payload, path, default)`. */
  function DotLookup(payload: Value, path: Option<string>, default: Value): (r: Value)
    ensures payload.Null? || path.None? ==> r == default
  {
    if payload.Null? || path.None? then default
    else Walk(payload, Split(path.value, "."), default)
  }

  /** A one-segment path naming a key that holds a non-`None` value returns
      exactly that value. */
  lemma DotLookupSingleKey(m: map<string, Value>, key: string, default: Value)
    requires key in m && !m[key].Null?
    requires '.' !in key
    ensures DotLookup(Dict(m), Some(key), default) == m[key]
  {
    SplitNoSeparator(key, '.');
    assert Split(key, ".") == [key];
    assert Step(Dict(m), key, default) == Some(m[key]);
    assert Walk(Dict(m), [key], default) == Walk(m[key], [], default);
  }

  /** On a dictionary, a one-segment path naming a missing key yields the
      default. */
  lemma DotLookupMissingKey(m: map<string, Value>, key: string, default: Value)
    requires key !in m
    requires '.' !in key
    ensures DotLookup(Dict(m), Some(key), default) == default
  {
    SplitNoSeparator(key, '.');
    assert Split(key, ".") == [key];
    assert Step(Dict(m), key, default) == Some(default);
    if !default.Null? {
      assert Walk(Dict(m), [key], default) == Walk(default, [], default);
    }
  }

  /** On a list or tuple, a one-segment path `str(i)` selects element `i`
      when it is in range and not `None`, and yields the default when `i` is
      negative or too large. */
  lemma DotLookupIndex(xs: seq<Value>, i: int, default: Value, tuple: bool)
    ensures var payload := if tuple then Tuple(xs) else List(xs);
      DotLookup(payload, Some(IntToString(i)), default)
        == if 0 <= i < |xs| && !xs[i].Null? then xs[i] else default
  {
    var seg := IntToString(i);
    IntToStringNoDot(i);
    StepIndex(xs, i, default, tuple);
    DotLookupOneSegment(if tuple then Tuple(xs) else List(xs), seg, default);
  }

  /** The step `str(i)` on a list or tuple selects element `i` when it is
      in range. */
  lemma StepIndex(xs: seq<Value>, i: int, default: Value, tuple: bool)
    ensures Step(if tuple then Tuple(xs) else List(xs), IntToString(i), default)
      == if 0 <= i < |xs| then Some(xs[i]) else None
  {
    ParseIntToString(i);
  }

  /** The decimal text of an integer holds no dot. */
  lemma IntToStringNoDot(i: int)
    ensures '.' !in IntToString(i)
  {
    var seg := IntToString(i);
    if i < 0 {
      assert seg == "-" + NatToString(-i);
      assert forall k :: 1 <= k < |seg| ==> IsDigit(seg[k]);
    }
  }

  /** A path without dots takes a single step. */
  lemma DotLookupOneSegment(payload: Value, seg: string, default: Value)
    requires !payload.Null? && '.' !in seg
    ensures DotLookup(payload, Some(seg), default)
      == match Step(payload, seg, default)
         case None => default
         case Some(next) => if next.Null? then default else next
  {
    SplitNoSeparator(seg, '.');
    assert Split(seg, ".") == [seg];
    match Step(payload, seg, default)
    case None =>
    case Some(next) =>
      if !next.Null? {
        assert Walk(payload, [seg], default) == Walk(next, [], default);
      }
  }

  /** A segment that is not an integer literal yields the default on a list. */
  lemma DotLookupBadIndex(xs: seq<Value>, segment: string, default: Value)
    requires ParseInt(segment).None? && '.' !in segment
    ensures DotLookup(List(xs), Some(segment), default) == default
  {
    SplitNoSeparator(segment, '.');
    assert Split(segment, ".") == [segment];
  }

  /** Stepping into a scalar (a string included) yields the default, whatever
      the path. */
  lemma DotLookupScalar(payload: Value, path: string, default: Value)
    requires !payload.Null? && !payload.Dict? && !payload.List? && !payload.Tuple?
    ensures DotLookup(payload, Some(path), default) == default
  {
  }

  /** With the default `None`, a walk over concatenated segment lists is the
      walk over the second list from wherever the first one ended. */
  lemma {:induction false} WalkAppend(v: Value, a: seq<string>, b: seq<string>)
    requires !v.Null?
    ensures Walk(v, a + b, Null) == (var w := Walk(v, a, Null); if w.Null? then Null else Walk(w, b, Null))
    decreases |a|
  {
    if |a| == 0 {
      assert a + b == b;
    } else {
      assert (a + b)[0] == a[0];
      assert (a + b)[1..] == a[1..] + b;
      match Step(v, a[0], Null)
      case None =>
      case Some(next) =>
        if !next.Null? {
          WalkAppend(next, a[1..], b);
        }
    }
  }

  /** Looking up `p.q` (default `None`) is looking up `q` in the result of
      looking up `p`. */
  lemma DotLookupCompose(payload: Value, p: string, q: string)
    ensures DotLookup(payload, Some(p + "." + q), Null)
      == DotLookup(DotLookup(payload, Some(p), Null), Some(q), Null)
  {
    if !payload.Null? {
      SplitAppend(p, '.', q);
      assert p + "." + q == p + ['.'] + q;
      WalkAppend(payload, Split(p, "."), Split(q, "."));
    }
  }
}

=== FILE: regions.dfy ===
/** The census-region names the reports show. `REGION_MAP` itself lives in a
    constants module outside this model, so it is a parameter. */
module Regions {
  import opened PyValue

  /** `REGION_MAP.get(region_id, "Unknown")` for a map keyed by integers. */
  function RegionName(regionNames: map<int, string>, regionId: Value): (name: string)
    ensures regionId.Int? && regionId.i in regionNames ==> name == regionNames[regionId.i]
    ensures !(regionId.Int? && regionId.i in regionNames) ==> name == "Unknown"
  {
    if regionId.Int? && regionId.i in regionNames then regionNames[regionId.i] else "Unknown"
  }
}

=== FILE: schools_html.dfy ===
/** `scripts/generate_schools_html.py`: the HTML snapshot of the schools in
    the program cache. The query's rows arrive typed; `REGION_MAP` is a
    parameter; the generation time is given as its ISO-8601 text; rounding a
    float to a whole number (the `.0f` of `_format_money`) is the parameter
    `round0`. */
module SchoolsHtml {
  import opened Wrappers
  import opened Text
  import opened PyValue
  import opened Regions

  // ---------------------------------------------------------------------------
  // html.escape

  /** The escape of one character under `html.escape(s, quote=True)`. */
  function EscapeChar(c: char): string {
    if c == '&' then "&amp;"
    else if c == '<' then "&lt;"
    else if c == '>' then "&gt;"
    else if c == '"' then "&quot;"
    else if c == '\'' then "&#x27;"
    else [c]
  }

  /** Characters that never appear in escaped text. */
  predicate Markup(c: char) {
    c == '<' || c == '>' || c == '"' || c == '\''
  }

  /** `html.escape`: the result holds no markup character. */
  function Escape(s: string): (r: string)
    ensures forall k :: 0 <= k < |r| ==> !Markup(r[k])
    ensures |r| >= |s|
  {
    if s == [] then [] else EscapeChar(s[0]) + Escape(s[1..])
  }

  /** `html.unescape` restricted to the five entities `Escape` produces. */
  function Unescape(t: string): string
    decreases |t|
  {
    if t == [] then []
    else if StartsWith(t, "&amp;") then "&" + Unescape(t[5..])
    else if StartsWith(t, "&lt;") then "<" + Unescape(t[4..])
    else if StartsWith(t, "&gt;") then ">" + Unescape(t[4..])
    else if StartsWith(t, "&quot;") then "\"" + Unescape(t[6..])
    else if StartsWith(t, "&#x27;") then "'" + Unescape(t[6..])
    else [t[0]] + Unescape(t[1..])
  }

  lemma StartsWithPrefix(e: string, rest: string)
    ensures StartsWith(e + rest, e) && (e + rest)[|e|..] == rest
  {
    assert (e + rest)[..|e|] == e;
  }

  lemma NotStartsWith(t: string, p: string, i: nat)
    requires i < |p| && i < |t| && t[i] != p[i]
    ensures !StartsWith(t, p)
  {
    if |p| <= |t| {
      assert t[..|p|][i] == t[i];
    }
  }

  /** Unescaping undoes the escape of one character. */
  lemma UnescapeStep(c: char, rest: string)
    ensures Unescape(EscapeChar(c) + rest) == [c] + Unescape(rest)
  {
    var e := EscapeChar(c);
    var t := e + rest;
    StartsWithPrefix(e, rest);
    if c == '&' {
    } else if c == '<' {
      NotStartsWith(t, "&amp;", 1);
    } else if c == '>' {
      NotStartsWith(t, "&amp;", 1);
      NotStartsWith(t, "&lt;", 1);
    } else if c == '"' {
      NotStartsWith(t, "&amp;", 1);
      NotStartsWith(t, "&lt;", 1);
      NotStartsWith(t, "&gt;", 1);
    } else if c == '\'' {
      NotStartsWith(t, "&amp;", 1);
      NotStartsWith(t, "&lt;", 1);
      NotStartsWith(t, "&gt;", 1);
      NotStartsWith(t, "&quot;", 1);
    } else {
      NotStartsWith(t, "&amp;", 0);
      NotStartsWith(t, "&lt;", 0);
      NotStartsWith(t, "&gt;", 0);
      NotStartsWith(t, "&quot;", 0);
      NotStartsWith(t, "&#x27;", 0);
    }
  }

  /** Unescaping escaped text gives the text back. */
  lemma {:induction false} EscapeRoundTrip(s: string)
    ensures Unescape(Escape(s)) == s
  {
    if s != [] {
      UnescapeStep(s[0], Escape(s[1..]));
      EscapeRoundTrip(s[1..]);
    }
  }

  // ---------------------------------------------------------------------------
  // _format_money

  /** Three digits with leading zeros. */
  function Pad3(m: nat): (r: string)
    requires m < 1000
    ensures |r| == 3 && AllDigits(r)
  {
    [DigitChar(m / 100), DigitChar(m / 10 % 10), DigitChar(m % 10)]
  }

  /** The digits of `n` in groups of three separated by commas. */
  function Group(n: nat): (r: string)
    ensures |r| > 0 && r[0] != ','
    ensures forall k :: 0 <= k < |r| ==> IsDigit(r[k]) || r[k] == ','
  {
    if n < 1000 then NatToString(n) else Group(n / 1000) + "," + Pad3(n % 1000)
  }

  /** Thousands grouping: one to three digits, then any number of groups
      of a comma and exactly three digits. */
  predicate Grouped(r: string) {
    if |r| <= 3 then |r| >= 1 && AllDigits(r)
    else |r| >= 5 && r[|r| - 4] == ',' && AllDigits(r[|r| - 3..]) && Grouped(r[..|r| - 4])
  }

  /** `format(n, ",")` for a whole number. */
  function GroupThousands(i: int): string {
    if i < 0 then "-" + Group(-i) else Group(i)
  }

  /** `_format_money`: an em dash for `None`, otherwise the value rounded
      to a whole number with comma thousands separators: without them it
      is the decimal text of the rounded value, and the digits are
      grouped in threes from the right. */
  function FormatMoney(value: Option<real>, round0: real -> int): (r: string)
    ensures value.None? <==> r == "\U{2014}"
    ensures forall k :: 0 <= k < |r| ==> !Markup(r[k])
    ensures value.Some? ==> var i := round0(value.value);
      && RemoveCommas(r) == IntToString(i)
      && (i < 0 ==> |r| > 0 && r[0] == '-' && Grouped(r[1..]))
      && (i >= 0 ==> Grouped(r))
  {
    match value
    case None => "\U{2014}"
    case Some(x) =>
      GroupThousandsText(round0(x));
      GroupThousandsShape(round0(x));
      GroupThousands(round0(x))
  }

  /** The text with its commas removed. */
  function RemoveCommas(s: string): (r: string)
    ensures forall k :: 0 <= k < |r| ==> r[k] != ','
  {
    if s == [] then [] else (if s[0] == ',' then [] else [s[0]]) + RemoveCommas(s[1..])
  }

  lemma {:induction false} RemoveCommasAppend(a: string, b: string)
    ensures RemoveCommas(a + b) == RemoveCommas(a) + RemoveCommas(b)
  {
    if a != [] {
      assert (a + b)[0] == a[0];
      assert (a + b)[1..] == a[1..] + b;
      RemoveCommasAppend(a[1..], b);
    } else {
      assert a + b == b;
    }
  }

  lemma {:induction false} RemoveCommasDigits(s: string)
    requires AllDigits(s)
    ensures RemoveCommas(s) == s
  {
    if s != [] {
      assert IsDigit(s[0]);
      RemoveCommasDigits(s[1..]);
    }
  }

  /** The decimal text of `q * 1000 + m` is that of `q` followed by `m` in
      three digits. */
  lemma NatToStringThousands(q: nat, m: nat)
    requires q >= 1 && m < 1000
    ensures NatToString(q * 1000 + m) == NatToString(q) + Pad3(m)
  {
    var n := q * 1000 + m;
    assert n / 10 == q * 100 + m / 10 && n % 10 == m % 10;
    assert n / 10 / 10 == q * 10 + m / 100 && n / 10 % 10 == m / 10 % 10;
    assert n / 10 / 10 / 10 == q && n / 10 / 10 % 10 == m / 100;
    assert NatToString(n / 10 / 10) == NatToString(q) + [DigitChar(m / 100)];
    assert NatToString(n / 10) == NatToString(n / 10 / 10) + [DigitChar(m / 10 % 10)];
  }

  /** Dropping the separators from a grouped number gives back its decimal
      text: grouping changes the presentation, not the digits. */
  lemma {:induction false} GroupDigits(n: nat)
    ensures RemoveCommas(Group(n)) == NatToString(n)
  {
    if n < 1000 {
      RemoveCommasDigits(NatToString(n));
    } else {
      var head := Group(n / 1000);
      var tail := Pad3(n % 1000);
      RemoveCommasAppend(head + ",", tail);
      RemoveCommasAppend(head, ",");
      RemoveCommasDigits(tail);
      GroupDigits(n / 1000);
      assert RemoveCommas(",") == [];
      NatToStringThousands(n / 1000, n % 1000);
    }
  }

  /** Reading the grouped digits back gives the number. */
  lemma GroupValue(n: nat)
    ensures AllDigits(RemoveCommas(Group(n)))
    ensures DigitsValue(RemoveCommas(Group(n))) == n
  {
    GroupDigits(n);
    DigitsValueNatToString(n);
  }

  lemma NatToStringShort(n: nat)
    requires n < 1000
    ensures 1 <= |NatToString(n)| <= 3
  {
    if n >= 10 {
      assert |NatToString(n / 10)| <= 2 by {
        if n / 10 >= 10 {
          assert |NatToString(n / 10 / 10)| == 1;
        }
      }
    }
  }

  /** A comma and three more digits keep a grouping grouped. */
  lemma GroupedAppend(head: string, tail: string)
    requires Grouped(head) && |tail| == 3 && AllDigits(tail)
    ensures Grouped(head + "," + tail)
  {
    var r := head + "," + tail;
    assert r[|r| - 4] == ',';
    assert r[|r| - 3..] == tail;
    assert r[..|r| - 4] == head;
  }

  /** The grouping has the shape `format` gives it. */
  lemma {:induction false} GroupShape(n: nat)
    ensures Grouped(Group(n))
  {
    if n < 1000 {
      NatToStringShort(n);
    } else {
      GroupShape(n / 1000);
      GroupedAppend(Group(n / 1000), Pad3(n % 1000));
    }
  }

  /** With a minus sign for negative values, `format(i, ",")` without its
      commas is `str(i)`. */
  lemma GroupThousandsText(i: int)
    ensures RemoveCommas(GroupThousands(i)) == IntToString(i)
  {
    if i < 0 {
      RemoveCommasAppend("-", Group(-i));
      assert RemoveCommas("-") == "-";
      GroupDigits(-i);
    } else {
      GroupDigits(i);
    }
  }

  /** The digits of `format(i, ",")` after any minus sign are grouped in
      threes. */
  lemma GroupThousandsShape(i: int)
    ensures var r := GroupThousands(i);
      && (i < 0 ==> |r| > 0 && r[0] == '-' && Grouped(r[1..]))
      && (i >= 0 ==> Grouped(r))
  {
    if i < 0 {
      var g := Group(-i);
      GroupShape(-i);
      assert ("-" + g)[1..] == g;
    } else {
      GroupShape(i);
    }
  }

  // ---------------------------------------------------------------------------
  // render_html

  /** A row of the schools query, typed as SQLite returns it. */
  datatype SchoolRow = SchoolRow(
    name: Option<string>,
    city: Option<string>,
    state: Option<string>,
    regionId: Value,
    programCount: Option<int>,
    studentSize: Option<real>,
    avgInStateTuition: Option<real>,
    avgOutOfStateTuition: Option<real>,
    avgNetPrice: Option<real>
  )

  /** `str(x)` of an optional text column. */
  function PyStr(x: Option<string>): string {
    match x
    case None => "None"
    case Some(s) => s
  }

  /** `name or "Unknown"`. */
  function NameText(name: Option<string>): (r: string)
    ensures name.Some? && name.value != "" ==> r == name.value
    ensures name.None? || name.value == "" ==> r == "Unknown"
  {
    if name.Some? && name.value != "" then name.value else "Unknown"
  }

  /** `f"{city}, {state}".strip(", ")`. */
  function LocationText(city: Option<string>, state: Option<string>): string {
    StripChars(PyStr(city) + ", " + PyStr(state), {',', ' '})
  }

  /** A city and state that neither start nor end with a comma or space
      render as `city, state`. */
  lemma LocationBoth(city: string, state: string)
    requires |city| > 0 && city[0] !in {',', ' '}
    requires |state| > 0 && state[|state| - 1] !in {',', ' '}
    ensures LocationText(Some(city), Some(state)) == city + ", " + state
  {
    var t := city + ", " + state;
    assert t[0] == city[0];
    assert t[|t| - 1] == state[|state| - 1];
    StripCharsNoop(t, {',', ' '});
  }

  /** `program_count or 0`. */
  function ProgramsText(count: Option<int>): (r: string)
    ensures count.None? || count.value == 0 ==> r == "0"
    ensures count.Some? && count.value != 0 ==> r == IntToString(count.value) && ParseInt(r) == Some(count.value)
  {
    if count.None? || count.value == 0 then "0"
    else
      ParseIntToString(count.value);
      IntToString(count.value)
  }

  /** `n` spaces. */
  function Indent(n: nat): (r: string)
    ensures |r| == n && forall k :: 0 <= k < n ==> r[k] == ' '
  {
    seq(n, _ => ' ')
  }

  const CellOpen: string := Indent(16) + "<td>"
  const CellClose: string := "</td>\n"
  const RowOpen: string := Indent(12) + "<tr>\n"
  const RowClose: string := Indent(12) + "</tr>\n"

  /** One `<td>` line. */
  function Cell(text: string): string {
    CellOpen + text + CellClose
  }

  /** The `<tr>` block of one school. */
  function RenderRow(row: SchoolRow, regionNames: map<int, string>, round0: real -> int): string {
    RowOpen
      + Cell(Escape(NameText(row.name)))
      + Cell(Escape(LocationText(row.city, row.state)))
      + Cell(Escape(RegionName(regionNames, row.regionId)))
      + Cell(ProgramsText(row.programCount))
      + Cell("$" + FormatMoney(row.avgNetPrice, round0))
      + Cell("$" + FormatMoney(row.avgInStateTuition, round0))
      + Cell("$" + FormatMoney(row.avgOutOfStateTuition, round0))
      + RowClose
  }

  /** The rows' blocks, concatenated in order. */
  function RenderRows<T>(rows: seq<T>, render: T -> string): string {
    if rows == [] then "" else render(rows[0]) + RenderRows(rows[1..], render)
  }

  /** The row renderer of one page. */
  function Renderer(regionNames: map<int, string>, round0: real -> int): SchoolRow -> string {
    row => RenderRow(row, regionNames, round0)
  }

  const StyleSheet: string :=
    "        :root {\n"
    + "            font-family: -apple-system, BlinkMacSystemFont, \"Segoe UI\", sans-serif;\n"
    + "            background-color: #0b1426;\n"
    + "            color: #f4f6fb;\n"
    + "        }\n"
    + "        body {\n"
    + "            margin: 2rem;\n"
    + "        }\n"
    + "        h1 {\n"
    + "            margin-bottom: 0.25rem;\n"
    + "        }\n"
    + "        table {\n"
    + "            width: 100%;\n"
    + "            border-collapse: collapse;\n"
    + "            margin-top: 1rem;\n"
    + "        }\n"
    + "        th, td {\n"
    + "            padding: 0.5rem 0.75rem;\n"
    + "            border-bottom: 1px solid rgba(255,255,255,0.08);\n"
    + "        }\n"
    + "        th {\n"
    + "            text-align: left;\n"
    + "            font-size: 0.9rem;\n"
    + "            letter-spacing: 0.05em;\n"
    + "            text-transform: uppercase;\n"
    + "            color: #7dd3fc;\n"
    + "        }\n"
    + "        tr:nth-child(even) td {\n"
    + "            background-color: rgba(255, 255, 255, 0.02);\n"
    + "        }\n"
    + "        .muted {\n"
    + "            color: #94a3b8;\n"
    + "            font-size: 0.85rem;\n"
    + "        }\n"

  const TableHead: string :=
    "    <table>\n"
    + "        <thead>\n"
    + "            <tr>\n"
    + "                <th>School</th>\n"
    + "                <th>Location</th>\n"
    + "                <th>Region</th>\n"
    + "                <th>Programs</th>\n"
    + "                <th>Avg Net Price</th>\n"
    + "                <th>In-State Tuition</th>\n"
    + "                <th>Out-of-State Tuition</th>\n"
    + "            </tr>\n"
    + "        </thead>\n"
    + "        <tbody>\n"

  /** The page up to the table body: the escaped title (twice) and the
      subtitle with the timestamp and the number of institutions. */
  function Head(title: string, generatedAt: string, count: nat): string {
    "\n<!DOCTYPE html>\n<html lang=\"en\">\n<head>\n"
      + "    <meta charset=\"UTF-8\" />\n"
      + "    <meta name=\"viewport\" content=\"width=device-width, initial-scale=1.0\" />\n"
      + "    <title>" + Escape(title) + "</title>\n"
      + "    <style>\n" + StyleSheet + "    </style>\n"
      + "</head>\n<body>\n"
      + "    <h1>" + Escape(title) + "</h1>\n"
      + "    <p class=\"muted\">Generated " + generatedAt + " \U{2014} " + NatToString(count) + " institutions.</p>\n"
      + TableHead
  }

  const Footer: string := "        </tbody>\n    </table>\n</body>\n</html>\n"

  /** `render_html`: the fixed head with the row count, one block per row in
      order, and the fixed footer. */
  function RenderHtml(rows: seq<SchoolRow>, title: string, generatedAt: string, regionNames: map<int, string>,
                      round0: real -> int)
    : (page: string)
    ensures var body := RenderRows(rows, Renderer(regionNames, round0));
      page == Head(title, generatedAt, |rows|) + body + Footer
    ensures CountChar(RenderRows(rows, Renderer(regionNames, round0)), '<') == RowTags * |rows|
  {
    var render := Renderer(regionNames, round0);
    forall row {
      RowTagCount(row, regionNames, round0);
    }
    RowsTags(rows, render, RowTags);
    Head(title, generatedAt, |rows|) + RenderRows(rows, render) + Footer
  }

  // ---------------------------------------------------------------------------
  // Counting tags

  /** The occurrences of `c` in `s`. */
  function CountChar(s: string, c: char): nat {
    if s == [] then 0 else (if s[0] == c then 1 else 0) + CountChar(s[1..], c)
  }

  lemma {:induction false} CountCharAppend(a: string, b: string, c: char)
    ensures CountChar(a + b, c) == CountChar(a, c) + CountChar(b, c)
  {
    if a != [] {
      assert (a + b)[0] == a[0];
      assert (a + b)[1..] == a[1..] + b;
      CountCharAppend(a[1..], b, c);
    } else {
      assert a + b == b;
    }
  }

  lemma {:induction false} CountCharAbsent(s: string, c: char)
    requires forall k :: 0 <= k < |s| ==> s[k] != c
    ensures CountChar(s, c) == 0
  {
    if s != [] {
      CountCharAbsent(s[1..], c);
    }
  }

  /** The opening `<` of each of the sixteen tags of a row block. */
  const RowTags: nat := 16

  /** Text with a single `<` holds one tag. */
  lemma OneTag(before: string, after: string)
    requires forall k :: 0 <= k < |before| ==> before[k] != '<'
    requires forall k :: 0 <= k < |after| ==> after[k] != '<'
    ensures CountChar(before + "<" + after, '<') == 1
  {
    CountCharAppend(before + "<", after, '<');
    CountCharAppend(before, "<", '<');
    CountCharAbsent(before, '<');
    CountCharAbsent(after, '<');
  }

  lemma FixedTags()
    ensures CountChar(CellOpen, '<') == 1
    ensures CountChar(CellClose, '<') == 1
    ensures CountChar(RowOpen, '<') == 1
    ensures CountChar(RowClose, '<') == 1
  {
    assert CellOpen == Indent(16) + "<" + "td>";
    OneTag(Indent(16), "td>");
    assert CellClose == "" + "<" + "/td>\n";
    OneTag("", "/td>\n");
    assert RowOpen == Indent(12) + "<" + "tr>\n";
    OneTag(Indent(12), "tr>\n");
    assert RowClose == Indent(12) + "<" + "/tr>\n";
    OneTag(Indent(12), "/tr>\n");
  }

  /** A cell around text free of `<` holds two tags. */
  lemma CellTags(text: string)
    requires forall k :: 0 <= k < |text| ==> text[k] != '<'
    ensures CountChar(Cell(text), '<') == 2
  {
    CountCharAppend(CellOpen + text, CellClose, '<');
    CountCharAppend(CellOpen, text, '<');
    CountCharAbsent(text, '<');
    FixedTags();
  }

  lemma MoneyCellTags(value: Option<real>, round0: real -> int)
    ensures CountChar(Cell("$" + FormatMoney(value, round0)), '<') == 2
  {
    var m := "$" + FormatMoney(value, round0);
    assert forall k :: 1 <= k < |m| ==> m[k] == FormatMoney(value, round0)[k - 1];
    CellTags(m);
  }

  lemma ProgramsCellTags(count: Option<int>)
    ensures CountChar(Cell(ProgramsText(count)), '<') == 2
  {
    var t := ProgramsText(count);
    if count.None? || count.value == 0 {
      assert t == "0";
    } else {
      IntTextHasNoTag(count.value, t);
    }
    CellTags(t);
  }

  /** The decimal text of an integer holds no `<`. */
  lemma IntTextHasNoTag(i: int, t: string)
    requires t == IntToString(i)
    ensures forall k :: 0 <= k < |t| ==> t[k] != '<'
  {
    if i < 0 {
      var d := NatToString(-i);
      assert t == "-" + d;
      assert forall k :: 1 <= k < |t| ==> t[k] == d[k - 1];
    }
  }

  /** Every row block holds exactly sixteen tags: escaping keeps the cell
      texts from adding any. */
  lemma RowTagCount(row: SchoolRow, regionNames: map<int, string>, round0: real -> int)
    ensures CountChar(RenderRow(row, regionNames, round0), '<') == RowTags
  {
    var c1 := Cell(Escape(NameText(row.name)));
    var c2 := Cell(Escape(LocationText(row.city, row.state)));
    var c3 := Cell(Escape(RegionName(regionNames, row.regionId)));
    var c4 := Cell(ProgramsText(row.programCount));
    var c5 := Cell("$" + FormatMoney(row.avgNetPrice, round0));
    var c6 := Cell("$" + FormatMoney(row.avgInStateTuition, round0));
    var c7 := Cell("$" + FormatMoney(row.avgOutOfStateTuition, round0));
    var open := RowOpen;
    var close := RowClose;
    CellTags(Escape(NameText(row.name)));
    CellTags(Escape(LocationText(row.city, row.state)));
    CellTags(Escape(RegionName(regionNames, row.regionId)));
    ProgramsCellTags(row.programCount);
    MoneyCellTags(row.avgNetPrice, round0);
    MoneyCellTags(row.avgInStateTuition, round0);
    MoneyCellTags(row.avgOutOfStateTuition, round0);
    FixedTags();
    CountCharAppend(open, c1, '<');
    CountCharAppend(open + c1, c2, '<');
    CountCharAppend(open + c1 + c2, c3, '<');
    CountCharAppend(open + c1 + c2 + c3, c4, '<');
    CountCharAppend(open + c1 + c2 + c3 + c4, c5, '<');
    CountCharAppend(open + c1 + c2 + c3 + c4 + c5, c6, '<');
    CountCharAppend(open + c1 + c2 + c3 + c4 + c5 + c6, c7, '<');
    CountCharAppend(open + c1 + c2 + c3 + c4 + c5 + c6 + c7, close, '<');
  }

  /** The body holds the tags of one row block per input row. */
  lemma {:induction false} RowsTags<T>(rows: seq<T>, render: T -> string, tags: nat)
    requires forall row :: CountChar(render(row), '<') == tags
    ensures CountChar(RenderRows(rows, render), '<') == tags * |rows|
  {
    if rows != [] {
      RowsTags(rows[1..], render, tags);
      CountCharAppend(render(rows[0]), RenderRows(rows[1..], render), '<');
      assert tags * |rows| == tags + tags * (|rows| - 1);
    }
  }

  /** The body of a list of rows is the bodies of its parts, in order. */
  lemma {:induction false} RenderRowsAppend<T>(a: seq<T>, b: seq<T>, render: T -> string)
    ensures RenderRows(a + b, render) == RenderRows(a, render) + RenderRows(b, render)
  {
    if a != [] {
      assert (a + b)[0] == a[0];
      assert (a + b)[1..] == a[1..] + b;
      RenderRowsAppend(a[1..], b, render);
    } else {
      assert a + b == b;
    }
  }
}

=== FILE: sorting.dfy ===
/** Python's `sorted(xs, key=...)` for the tuple keys the API sorts by: a
    stable sort, modelled as insertion sort on sequences. A sorted result
    whose elements of each key keep their input order is exactly what a
    stable sort returns. */
module Sorting {
  import opened Wrappers

  /** A sort key `(distance, flag, secondary)`, compared as Python compares
      tuples. A `None` distance stands for `float("inf")`, the default of
      a missing `distance_miles`; `False` sorts before `True`. */
  datatype Key = Key(distance: Option<real>, flag: bool, secondary: real)

  /** `a < b` on distances, with `None` above every number. */
  predicate DistanceLt(a: Option<real>, b: Option<real>) {
    a.Some? && (b.None? || a.value < b.value)
  }

  /** `a <= b` on keys: lexicographic, as for Python tuples. */
  predicate KeyLe(a: Key, b: Key) {
    || DistanceLt(a.distance, b.distance)
    || (a.distance == b.distance && ((!a.flag && b.flag) || (a.flag == b.flag && a.secondary <= b.secondary)))
  }

  lemma KeyLeTotal(a: Key, b: Key)
    ensures KeyLe(a, b) || KeyLe(b, a)
    ensures KeyLe(a, b) && KeyLe(b, a) ==> a == b
  {
  }

  lemma KeyLeTrans(a: Key, b: Key, c: Key)
    requires KeyLe(a, b) && KeyLe(b, c)
    ensures KeyLe(a, c)
  {
  }

  predicate Sorted<T>(xs: seq<T>, key: T -> Key) {
    forall i, j :: 0 <= i < j < |xs| ==> KeyLe(key(xs[i]), key(xs[j]))
  }

  /** Places `x` after every element whose key is at most its own. */
  function Insert<T>(ys: seq<T>, x: T, key: T -> Key): (r: seq<T>)
    requires Sorted(ys, key)
    ensures |r| == |ys| + 1
    ensures multiset(r) == multiset(ys) + multiset{x}
    ensures Sorted(r, key)
    decreases |ys|
  {
    if ys == [] || KeyLe(key(ys[|ys| - 1]), key(x)) then
      var r := ys + [x];
      assert forall i :: 0 <= i < |ys| ==> KeyLe(key(ys[i]), key(x)) by {
        forall i | 0 <= i < |ys|
          ensures KeyLe(key(ys[i]), key(x))
        {
          if i < |ys| - 1 {
            KeyLeTrans(key(ys[i]), key(ys[|ys| - 1]), key(x));
          }
        }
      }
      r
    else
      var init, last := ys[..|ys| - 1], ys[|ys| - 1];
      assert ys == init + [last];
      var front := Insert(init, x, key);
      KeyLeTotal(key(last), key(x));
      forall i | 0 <= i < |front|
        ensures KeyLe(key(front[i]), key(last))
      {
        assert front[i] in multiset(front);
        if front[i] != x {
          assert front[i] in multiset(init);
          var j :| 0 <= j < |init| && init[j] == front[i];
          assert KeyLe(key(ys[j]), key(ys[|ys| - 1]));
        }
      }
      front + [last]
  }

  /** `sorted(xs, key=key)`. */
  function Sort<T>(xs: seq<T>, key: T -> Key): (ys: seq<T>)
    ensures |ys| == |xs|
    ensures multiset(ys) == multiset(xs)
    ensures Sorted(ys, key)
  {
    if xs == [] then []
    else
      assert xs == xs[..|xs| - 1] + [xs[|xs| - 1]];
      Insert(Sort(xs[..|xs| - 1], key), xs[|xs| - 1], key)
  }

  /** The elements of `xs` whose key is `k`, in order. */
  function Class<T>(xs: seq<T>, key: T -> Key, k: Key): seq<T> {
    if xs == [] then []
    else Class(xs[..|xs| - 1], key, k) + (if key(xs[|xs| - 1]) == k then [xs[|xs| - 1]] else [])
  }

  /** Inserting adds `x` at the end of its own key's class and leaves the
      other classes alone. */
  lemma {:induction false} InsertClass<T>(ys: seq<T>, x: T, key: T -> Key, k: Key)
    requires Sorted(ys, key)
    ensures Class(Insert(ys, x, key), key, k) == Class(ys, key, k) + (if key(x) == k then [x] else [])
    decreases |ys|
  {
    var r := Insert(ys, x, key);
    if ys == [] || KeyLe(key(ys[|ys| - 1]), key(x)) {
      assert r[..|r| - 1] == ys;
    } else {
      var init, last := ys[..|ys| - 1], ys[|ys| - 1];
      assert r[..|r| - 1] == Insert(init, x, key) && r[|r| - 1] == last;
      InsertClass(init, x, key, k);
      assert key(last) != key(x);
    }
  }

  /** Stability: sorting keeps the input order among elements with equal
      keys, as Python's sort guarantees. */
  lemma {:induction false} SortStable<T>(xs: seq<T>, key: T -> Key, k: Key)
    ensures Class(Sort(xs, key), key, k) == Class(xs, key, k)
  {
    if xs != [] {
      var init := xs[..|xs| - 1];
      SortStable(init, key, k);
      InsertClass(Sort(init, key), xs[|xs| - 1], key, k);
    }
  }

  /** A prefix of a sorted list is sorted and draws on the list's elements. */
  lemma SortedPrefix<T>(xs: seq<T>, n: nat, key: T -> Key)
    requires Sorted(xs, key) && n <= |xs|
    ensures Sorted(xs[..n], key)
    ensures multiset(xs[..n]) <= multiset(xs)
  {
    assert xs == xs[..n] + xs[n..];
    assert multiset(xs) == multiset(xs[..n]) + multiset(xs[n..]);
  }
}

=== FILE: teleport_fallback.dfy ===
/** `scripts/update_teleport_fallback.py`: promoting the newest rows of
    `location_costs` into the Teleport fallback file, so that a later
    ingestion without network access still finds their catalog entries and
    metrics. The database query's rows arrive as a list, already in its
    newest-first order; the file's JSON is the two parts the script edits. */
module TeleportFallback {
  import opened Wrappers
  import opened Text
  import opened PyValue
  import opened Catalog
  import opened Metrics
  import CostOfLiving

  /** `CostRecord`; `metrics` holds the nine metric columns in `MetricKeys`
      order. */
  datatype CostRecord = CostRecord(city: string, state: string, slug: string, metrics: seq<Value>, lastUpdated: string)

  /** The parts of the fallback file the script reads and writes: the
      catalog's `ua:item` list and the per-slug `metrics`. */
  datatype Fallback = Fallback(catalog: seq<CatalogItem>, metrics: map<string, map<string, Value>>)

  /** `load_fallback`, given the decoded file when it exists: an empty
      catalog and no metrics otherwise. */
  function LoadFallback(file: Option<Fallback>): (f: Fallback)
    ensures file.None? ==> f.catalog == [] && f.metrics == map[]
    ensures file.Some? ==> f == file.value
  {
    match file
    case None => Fallback([], map[])
    case Some(contents) => contents
  }

  // ---------------------------------------------------------------------------
  // fetch_latest_cost_records

  predicate DistinctSlugs(records: seq<CostRecord>) {
    forall i, j :: 0 <= i < j < |records| ==> records[i].slug != records[j].slug
  }

  function SlugsOf(records: seq<CostRecord>): set<string> {
    set k | 0 <= k < |records| :: records[k].slug
  }

  lemma SlugsOfAppend(records: seq<CostRecord>, r: CostRecord)
    ensures SlugsOf(records + [r]) == SlugsOf(records) + {r.slug}
  {
    var both := records + [r];
    assert both[|records|] == r;
    assert forall k :: 0 <= k < |records| ==> both[k] == records[k];
  }

  /** The non-empty slugs among some rows. */
  function RowSlugs(rows: seq<CostRecord>): set<string> {
    set k | 0 <= k < |rows| && rows[k].slug != "" :: rows[k].slug
  }

  lemma RowSlugsAppend(rows: seq<CostRecord>)
    requires |rows| > 0
    ensures var last := rows[|rows| - 1];
      RowSlugs(rows) == RowSlugs(rows[..|rows| - 1]) + (if last.slug == "" then {} else {last.slug})
  {
    var init := rows[..|rows| - 1];
    assert forall k :: 0 <= k < |init| ==> rows[k] == init[k];
  }

  /** The loop of `fetch_latest_cost_records` over newest-first rows: the
      first row of each non-empty slug, in order of first appearance. */
  function LatestRecords(rows: seq<CostRecord>): (latest: seq<CostRecord>)
    ensures DistinctSlugs(latest)
    ensures forall k :: 0 <= k < |latest| ==> latest[k].slug != "" && latest[k] in rows
    ensures SlugsOf(latest) == RowSlugs(rows)
  {
    if |rows| == 0 then []
    else
      var init := LatestRecords(rows[..|rows| - 1]);
      var row := rows[|rows| - 1];
      RowSlugsAppend(rows);
      assert forall x :: x in rows[..|rows| - 1] ==> x in rows;
      if row.slug == "" || row.slug in SlugsOf(init) then init
      else
        SlugsOfAppend(init, row);
        init + [row]
  }

  /** Each slug's record is its first (newest) row. */
  lemma {:induction false} LatestRecordsFirst(rows: seq<CostRecord>, i: nat)
    requires i < |rows| && rows[i].slug != ""
    requires forall j :: 0 <= j < i ==> rows[j].slug != rows[i].slug
    ensures rows[i] in LatestRecords(rows)
    decreases |rows|
  {
    var init := rows[..|rows| - 1];
    if i < |rows| - 1 {
      assert init[i] == rows[i];
      LatestRecordsFirst(init, i);
    }
  }

  // ---------------------------------------------------------------------------
  // ensure_catalog_entries

  /** The catalog name of a record: its city, or the slug with dashes as
      spaces, title-cased. */
  function CatalogName(record: CostRecord): (name: string)
    ensures record.city != "" ==> name == record.city
    ensures record.city == "" ==> |name| == |record.slug| && forall k :: 0 <= k < |name| ==>
      LowerChar(name[k]) == LowerChar(if record.slug[k] == '-' then ' ' else record.slug[k])
  {
    if record.city != "" then record.city else SlugTitle(record.slug)
  }

  /** The entry appended for a record. */
  function CatalogEntryFor(record: CostRecord): CatalogItem {
    CatalogItem(Some(CatalogName(record)), Some(TeleportHref(record.slug)))
  }

  /** The entries the loop of `ensure_catalog_entries` appends, given the
      slugs seen so far: one per record whose slug has not been seen, the
      seen set growing as it goes. */
  function NewEntries(seen: set<string>, records: seq<CostRecord>): (added: seq<CatalogItem>)
    ensures |added| <= |records|
    ensures (forall j :: 0 <= j < |records| ==> records[j].slug in seen) ==> added == []
    decreases |records|
  {
    if |records| == 0 then []
    else if records[0].slug in seen then
      assert forall j :: 0 <= j < |records| - 1 ==> records[1..][j] == records[j + 1];
      NewEntries(seen, records[1..])
    else [CatalogEntryFor(records[0])] + NewEntries(seen + {records[0].slug}, records[1..])
  }

  /** `entry` is the catalog entry of one of `records` whose slug is not in
      `seen`. */
  ghost predicate EntryOfUnseen(entry: CatalogItem, seen: set<string>, records: seq<CostRecord>) {
    exists j :: 0 <= j < |records| && records[j].slug !in seen && entry == CatalogEntryFor(records[j])
  }

  /** Every appended entry is the entry of a record whose slug had not been
      seen. */
  lemma {:induction false} NewEntriesFromRecords(seen: set<string>, records: seq<CostRecord>)
    ensures forall k :: 0 <= k < |NewEntries(seen, records)| ==>
      EntryOfUnseen(NewEntries(seen, records)[k], seen, records)
    decreases |records|
  {
    if |records| > 0 {
      var rest := records[1..];
      var seen' := if records[0].slug in seen then seen else seen + {records[0].slug};
      NewEntriesFromRecords(seen', rest);
      var tail := NewEntries(seen', rest);
      forall k | 0 <= k < |tail|
        ensures EntryOfUnseen(tail[k], seen, records)
      {
        assert EntryOfUnseen(tail[k], seen', rest);
        EntryOfUnseenCons(tail[k], seen, seen', records);
      }
      if records[0].slug !in seen {
        assert EntryOfUnseen(CatalogEntryFor(records[0]), seen, records);
      }
    }
  }

  /** A record of the tail, unseen under a larger set, is unseen in the
      whole list. */
  lemma EntryOfUnseenCons(entry: CatalogItem, seen: set<string>, seen': set<string>, records: seq<CostRecord>)
    requires |records| > 0 && seen <= seen'
    requires EntryOfUnseen(entry, seen', records[1..])
    ensures EntryOfUnseen(entry, seen, records)
  {
    var j :| 0 <= j < |records| - 1 && records[1..][j].slug !in seen' && entry == CatalogEntryFor(records[1..][j]);
    assert records[j + 1] == records[1..][j];
  }

  /** `ensure_catalog_entries`: appends an entry for every record whose slug
      the catalog does not list yet, returning the new catalog and how many
      entries were added. */
  function EnsureCatalogEntries(catalog: seq<CatalogItem>, records: seq<CostRecord>): (r: (seq<CatalogItem>, nat))
    ensures |r.0| == |catalog| + r.1 && r.0[..|catalog|] == catalog
    ensures (forall j :: 0 <= j < |records| ==> records[j].slug in ExistingSlugs(catalog)) ==> r == (catalog, 0)
  {
    var added := NewEntries(ExistingSlugs(catalog), records);
    assert (catalog + added)[..|catalog|] == catalog;
    assert added == [] ==> catalog + added == catalog;
    (catalog + added, |added|)
  }

  /** A record whose slug has not been seen yields at least one entry. */
  lemma {:induction false} NewEntriesNonEmpty(seen: set<string>, records: seq<CostRecord>, j: nat)
    requires j < |records| && records[j].slug !in seen
    ensures |NewEntries(seen, records)| > 0
    decreases |records|
  {
    if records[0].slug in seen {
      assert records[1..][j - 1] == records[j];
      NewEntriesNonEmpty(seen, records[1..], j - 1);
    }
  }

  /** A record slug ending in a slash is never listed (`rstrip("/")` drops
      the slash when the href is read back), so every call, the second one
      included, appends at least one entry. */
  lemma EnsureCatalogEntriesReappends(catalog: seq<CatalogItem>, records: seq<CostRecord>, j: nat)
    requires j < |records| && |records[j].slug| > 0 && records[j].slug[|records[j].slug| - 1] == '/'
    ensures EnsureCatalogEntries(catalog, records).1 > 0
  {
    SlashSlugNeverListed(catalog, records[j].slug);
    NewEntriesNonEmpty(ExistingSlugs(catalog), records, j);
  }

  /** Everything `ensure_catalog_entries` appends is the entry of a record
      whose slug the catalog did not list. */
  lemma EnsureCatalogEntriesAppends(catalog: seq<CatalogItem>, records: seq<CostRecord>)
    ensures forall k :: |catalog| <= k < |EnsureCatalogEntries(catalog, records).0| ==>
      EntryOfUnseen(EnsureCatalogEntries(catalog, records).0[k], ExistingSlugs(catalog), records)
  {
    var added := NewEntries(ExistingSlugs(catalog), records);
    NewEntriesFromRecords(ExistingSlugs(catalog), records);
    forall k | |catalog| <= k < |catalog| + |added|
      ensures EntryOfUnseen((catalog + added)[k], ExistingSlugs(catalog), records)
    {
      assert (catalog + added)[k] == added[k - |catalog|];
    }
  }

  lemma ExistingSlugsAppend(a: seq<CatalogItem>, b: seq<CatalogItem>)
    ensures ExistingSlugs(a) <= ExistingSlugs(a + b)
    ensures ExistingSlugs(b) <= ExistingSlugs(a + b)
  {
    var ab := a + b;
    forall s | s in ExistingSlugs(a)
      ensures s in ExistingSlugs(ab)
    {
      var k :| 0 <= k < |a| && a[k].href.Some? && HrefSlug(a[k].href.value) == s;
      assert ab[k] == a[k];
    }
    forall s | s in ExistingSlugs(b)
      ensures s in ExistingSlugs(ab)
    {
      var k :| 0 <= k < |b| && b[k].href.Some? && HrefSlug(b[k].href.value) == s;
      assert ab[|a| + k] == b[k];
    }
  }

  /** After the entries are appended, every record's slug was either seen
      already or is listed by the new entries, provided it reads back from
      its href. */
  lemma {:induction false} NewEntriesCover(seen: set<string>, records: seq<CostRecord>)
    requires forall j :: 0 <= j < |records| ==> WellFormedSlug(records[j].slug)
    ensures var added := NewEntries(seen, records);
      forall j :: 0 <= j < |records| ==> records[j].slug in seen || records[j].slug in ExistingSlugs(added)
    decreases |records|
  {
    if |records| > 0 {
      var record := records[0];
      var rest := records[1..];
      assert forall j :: 0 <= j < |rest| ==> rest[j] == records[j + 1];
      if record.slug in seen {
        NewEntriesCover(seen, rest);
      } else {
        var seen' := seen + {record.slug};
        NewEntriesCover(seen', rest);
        var head := [CatalogEntryFor(record)];
        EntryListsSlug(record);
        assert NewEntries(seen, records) == head + NewEntries(seen', rest);
        ExistingSlugsAppend(head, NewEntries(seen', rest));
      }
    }
  }

  /** A record's own entry lists its slug, when the slug reads back from
      its href. */
  lemma EntryListsSlug(record: CostRecord)
    requires WellFormedSlug(record.slug)
    ensures record.slug in ExistingSlugs([CatalogEntryFor(record)])
  {
    HrefSlugRoundTrip(record.slug);
    assert [CatalogEntryFor(record)][0].href == Some(TeleportHref(record.slug));
  }

  /** After the entries are ensured, the catalog lists every record's slug,
      provided it reads back from its href. */
  lemma EnsureCatalogEntriesCovers(catalog: seq<CatalogItem>, records: seq<CostRecord>)
    requires forall j :: 0 <= j < |records| ==> WellFormedSlug(records[j].slug)
    ensures forall j :: 0 <= j < |records| ==>
      records[j].slug in ExistingSlugs(EnsureCatalogEntries(catalog, records).0)
  {
    var added := NewEntries(ExistingSlugs(catalog), records);
    NewEntriesCover(ExistingSlugs(catalog), records);
    ExistingSlugsAppend(catalog, added);
  }

  /** Ensuring the entries twice adds nothing the second time, for slugs
      that read back from their href. */
  lemma EnsureCatalogEntriesIdempotent(catalog: seq<CatalogItem>, records: seq<CostRecord>)
    requires forall j :: 0 <= j < |records| ==> WellFormedSlug(records[j].slug)
    ensures var once := EnsureCatalogEntries(catalog, records).0;
      EnsureCatalogEntries(once, records) == (once, 0)
  {
    var added := NewEntries(ExistingSlugs(catalog), records);
    NewEntriesCover(ExistingSlugs(catalog), records);
    ExistingSlugsAppend(catalog, added);
  }

  // ---------------------------------------------------------------------------
  // update_metrics

  /** The metric dictionary written for a record. */
  function MetricDict(record: CostRecord): (m: map<string, Value>)
    requires |record.metrics| == |MetricKeys|
    ensures m.Keys == set k | k in MetricKeys
    ensures forall j :: 0 <= j < |MetricKeys| ==> m[MetricKeys[j]] == record.metrics[j]
  {
    MetricMap(record.metrics)
  }

  predicate WellSized(records: seq<CostRecord>) {
    forall k :: 0 <= k < |records| ==> |records[k].metrics| == |MetricKeys|
  }

  /** `update_metrics`: each record's slug gets its metric dictionary,
      replacing what was there; other slugs are kept. The records are keyed
      by slug, so the loop's assignments amount to one merge. */
  function UpdateMetrics(metrics: map<string, map<string, Value>>, records: seq<CostRecord>)
    : (m: map<string, map<string, Value>>)
    requires WellSized(records)
    requires DistinctSlugs(records)
    ensures m.Keys == metrics.Keys + SlugsOf(records)
    ensures forall k :: 0 <= k < |records| ==> m[records[k].slug] == MetricDict(records[k])
    ensures forall s :: s in metrics && s !in SlugsOf(records) ==> m[s] == metrics[s]
  {
    var pairs := SlugDicts(records);
    var m := Upsert(metrics, pairs);
    forall k | 0 <= k < |records|
      ensures m[records[k].slug] == MetricDict(records[k])
    {
      assert pairs[k] == (records[k].slug, MetricDict(records[k]));
    }
    m
  }

  /** Each record's slug with its metric dictionary. */
  function SlugDicts(records: seq<CostRecord>): (pairs: seq<(string, map<string, Value>)>)
    requires WellSized(records)
    requires DistinctSlugs(records)
    ensures |pairs| == |records|
    ensures forall k :: 0 <= k < |records| ==> pairs[k] == (records[k].slug, MetricDict(records[k]))
    ensures forall i, j :: 0 <= i < j < |pairs| ==> pairs[i].0 != pairs[j].0
    ensures PairKeys(pairs) == SlugsOf(records)
  {
    var pairs := seq(|records|, k requires 0 <= k < |records| => (records[k].slug, MetricDict(records[k])));
    assert forall k :: 0 <= k < |records| ==> pairs[k].0 == records[k].slug;
    pairs
  }

  function PairKeys<V>(pairs: seq<(string, V)>): set<string> {
    set k | 0 <= k < |pairs| :: pairs[k].0
  }

  /** Sets each key of `pairs` to its value; the keys are distinct. */
  function Upsert<V>(m: map<string, V>, pairs: seq<(string, V)>): (r: map<string, V>)
    requires forall i, j :: 0 <= i < j < |pairs| ==> pairs[i].0 != pairs[j].0
    ensures r.Keys == m.Keys + PairKeys(pairs)
    ensures forall k :: 0 <= k < |pairs| ==> r[pairs[k].0] == pairs[k].1
    ensures forall s :: s in m && s !in PairKeys(pairs) ==> r[s] == m[s]
  {
    var updates := (map k | 0 <= k < |pairs| :: pairs[k].0 := pairs[k].1);
    assert updates.Keys == PairKeys(pairs);
    m + updates
  }

  /** No metric key starts with an underscore, and none is `_source`. */
  lemma MetricKeysPublic()
    ensures forall j :: 0 <= j < |MetricKeys| ==> !StartsWith(MetricKeys[j], "_")
    ensures forall j :: 0 <= j < |MetricKeys| ==> MetricKeys[j] != "_source"
  {
    forall j | 0 <= j < |MetricKeys|
      ensures MetricKeys[j][0] != '_'
    {
    }
  }

  /** A non-empty fallback entry without underscore keys loads back whole,
      labelled "fallback". */
  lemma LoadPublicEntry(fallback: map<string, map<string, Value>>, slug: string)
    requires slug in fallback && fallback[slug] != map[]
    requires forall key :: key in fallback[slug] ==> !StartsWith(key, "_")
    ensures CostOfLiving.LoadFallbackMetric(Some(fallback), slug) == Some((fallback[slug], Str("fallback")))
  {
    var entry := fallback[slug];
    assert !StartsWith("_source", "_") == false;
    var kept := map key | key in entry && !StartsWith(key, "_") :: entry[key];
    assert kept == entry;
  }

  /** The export and the ingestion's fallback reader agree: a slug the
      fallback was updated with loads back as exactly its record's metrics,
      labelled "fallback". */
  lemma UpdatedMetricsLoadBack(fallback: Fallback, records: seq<CostRecord>, k: nat)
    requires WellSized(records) && DistinctSlugs(records) && k < |records|
    ensures var m := UpdateMetrics(fallback.metrics, records);
      CostOfLiving.LoadFallbackMetric(Some(m), records[k].slug) == Some((MetricDict(records[k]), Str("fallback")))
  {
    var m := UpdateMetrics(fallback.metrics, records);
    var d := MetricDict(records[k]);
    MetricKeysPublic();
    assert MetricKeys[0] in d;
    LoadPublicEntry(m, records[k].slug);
  }

  /** `main` after the query and the file read: the catalog entries and the
      metrics updated, and the number of entries added. */
  function Export(fallback: Fallback, rows: seq<CostRecord>): (r: (Fallback, nat))
    requires WellSized(rows)
    ensures r.0.metrics.Keys == fallback.metrics.Keys + SlugsOf(LatestRecords(rows))
    ensures |r.0.catalog| == |fallback.catalog| + r.1
  {
    var records := LatestRecords(rows);
    assert WellSized(records) by {
      forall k | 0 <= k < |records|
        ensures |records[k].metrics| == |MetricKeys|
      {
        var j :| 0 <= j < |rows| && rows[j] == records[k];
      }
    }
    var (catalog, added) := EnsureCatalogEntries(fallback.catalog, records);
    (Fallback(catalog, UpdateMetrics(fallback.metrics, records)), added)
  }
}

=== FILE: text.dfy ===
/** String primitives with the semantics of the Python `str` methods the
    scripts use: `strip`, `split`, `join`, `lower`/`upper`, `startswith`,
    `int(...)` and `str(int)`. Case mapping is ASCII-only. */
module Text {
  import opened Wrappers

  /** Python's `str.isspace` for one character (whitespace, separators and
      the line/paragraph breaks). */
  predicate IsSpace(c: char) {
    || c == ' '
    || ('\t' <= c <= '\r')
    || ('\U{1c}' <= c <= '\U{1f}')
    || c == '\U{85}' || c == '\U{a0}' || c == '\U{1680}'
    || ('\U{2000}' <= c <= '\U{200a}')
    || c == '\U{2028}' || c == '\U{2029}' || c == '\U{202f}'
    || c == '\U{205f}' || c == '\U{3000}'
  }

  predicate IsDigit(c: char) {
    '0' <= c <= '9'
  }

  // ---------------------------------------------------------------------------
  // Stripping

  /** Drops the leading characters satisfying `drop`. */
  function LStripBy<T>(s: seq<T>, drop: T -> bool): (r: seq<T>)
    ensures |r| <= |s| && r == s[|s| - |r|..]
    ensures |r| > 0 ==> !drop(r[0])
    ensures forall i :: 0 <= i < |s| - |r| ==> drop(s[i])
    decreases |s|
  {
    if |s| > 0 && drop(s[0]) then LStripBy(s[1..], drop) else s
  }

  /** Drops the trailing characters satisfying `drop`. */
  function RStripBy<T>(s: seq<T>, drop: T -> bool): (r: seq<T>)
    ensures |r| <= |s| && r == s[..|r|]
    ensures |r| > 0 ==> !drop(r[|r| - 1])
    ensures forall i :: |r| <= i < |s| ==> drop(s[i])
    decreases |s|
  {
    if |s| > 0 && drop(s[|s| - 1]) then RStripBy(s[..|s| - 1], drop) else s
  }

  /** Both ends: Python's `strip(chars)` with `chars` given as a predicate. */
  function StripBy(s: string, drop: char -> bool): string {
    RStripBy(LStripBy(s, drop), drop)
  }

  /** Left-stripping stops at the first kept item. */
  lemma LStripByWrapped<T>(value: seq<T>, q: T, drop: T -> bool)
    requires value != [] && drop(q) && !drop(value[0])
    ensures LStripBy([q] + value, drop) == value
  {
    assert ([q] + value)[1..] == value;
  }

  /** Right-stripping stops at the last kept item. */
  lemma RStripByWrapped<T>(value: seq<T>, q: T, drop: T -> bool)
    requires value != [] && drop(q) && !drop(value[|value| - 1])
    ensures RStripBy(value + [q], drop) == value
  {
    assert (value + [q])[..|value|] == value;
  }

  /** `s.strip()`. */
  function Strip(s: string): string {
    StripBy(s, IsSpace)
  }

  /** `s.strip(chars)`. */
  function StripChars(s: string, chars: set<char>): string {
    StripBy(s, c => c in chars)
  }

  /** `s.rstrip(chars)`. */
  function RStripChars(s: string, chars: set<char>): string {
    RStripBy(s, c => c in chars)
  }

  /** What `StripBy` returns: the slice `s[i..j]` of the input whose ends
      do not satisfy `drop`, everything cut off satisfying it. */
  lemma StripBySlice(s: string, drop: char -> bool) returns (i: nat, j: nat)
    ensures i <= j <= |s| && StripBy(s, drop) == s[i..j]
    ensures forall k :: 0 <= k < i ==> drop(s[k])
    ensures forall k :: j <= k < |s| ==> drop(s[k])
    ensures i < j ==> !drop(s[i]) && !drop(s[j - 1])
  {
    var l := LStripBy(s, drop);
    i := |s| - |l|;
    assert l == s[i..];
    j := RStripSuffix(s, i, drop);
    assert i < j ==> l[0] == s[i];
  }

  /** Right-stripping the suffix `s[i..]` leaves `s[i..j]`. */
  lemma RStripSuffix(s: string, i: nat, drop: char -> bool) returns (j: nat)
    requires i <= |s|
    ensures i <= j <= |s| && RStripBy(s[i..], drop) == s[i..j]
    ensures forall k :: j <= k < |s| ==> drop(s[k])
    ensures i < j ==> !drop(s[j - 1])
  {
    var t := s[i..];
    var r := RStripBy(t, drop);
    j := i + |r|;
    assert r == t[..|r|] == s[i..j];
    forall k | j <= k < |s|
      ensures drop(s[k])
    {
      assert s[k] == t[k - i];
    }
  }

  /** A string whose ends do not satisfy `drop` is left unchanged. */
  lemma StripByNoop(s: string, drop: char -> bool)
    requires |s| > 0 ==> !drop(s[0]) && !drop(s[|s| - 1])
    ensures StripBy(s, drop) == s
  {
  }

  /** `s.strip(chars)` leaves a string whose ends are not in `chars`
      unchanged. */
  lemma StripCharsNoop(s: string, chars: set<char>)
    requires |s| > 0 ==> s[0] !in chars && s[|s| - 1] !in chars
    ensures StripChars(s, chars) == s
  {
    StripByNoop(s, c => c in chars);
  }

  /** Stripping twice is stripping once. */
  lemma StripIdempotent(s: string, drop: char -> bool)
    ensures StripBy(StripBy(s, drop), drop) == StripBy(s, drop)
  {
    var r := StripBy(s, drop);
    var i, j := StripBySlice(s, drop);
    StripByNoop(r, drop);
  }

  // ---------------------------------------------------------------------------
  // Case and prefixes

  function LowerChar(c: char): char {
    if 'A' <= c <= 'Z' then (c as int + 32) as char else c
  }

  function UpperChar(c: char): char {
    if 'a' <= c <= 'z' then (c as int - 32) as char else c
  }

  /** `s.lower()` on ASCII letters. */
  function Lower(s: string): (r: string)
    ensures |r| == |s|
  {
    seq(|s|, i requires 0 <= i < |s| => LowerChar(s[i]))
  }

  /** `s.upper()` on ASCII letters. */
  function Upper(s: string): (r: string)
    ensures |r| == |s|
  {
    seq(|s|, i requires 0 <= i < |s| => UpperChar(s[i]))
  }

  predicate StartsWith(s: string, prefix: string) {
    |prefix| <= |s| && s[..|prefix|] == prefix
  }

  /** Python's `str.replace(old, new)` for single characters. */
  function ReplaceChar(s: string, from: char, to: char): (r: string)
    ensures |r| == |s|
  {
    seq(|s|, i requires 0 <= i < |s| => if s[i] == from then to else s[i])
  }

  predicate IsAsciiLetter(c: char) {
    'a' <= c <= 'z' || 'A' <= c <= 'Z'
  }

  /** `str.title` on ASCII text: a letter is upper-cased after a non-letter
      (or at the start) and lower-cased after a letter. */
  function Title(s: string, afterLetter: bool): (r: string)
    ensures |r| == |s|
    ensures forall k :: 0 <= k < |s| ==> LowerChar(r[k]) == LowerChar(s[k])
    ensures forall k :: 0 <= k < |s| && !IsAsciiLetter(s[k]) ==> r[k] == s[k]
    ensures forall k :: 0 <= k < |s| && IsAsciiLetter(s[k]) ==>
      r[k] == if (if k == 0 then afterLetter else IsAsciiLetter(s[k - 1])) then LowerChar(s[k]) else UpperChar(s[k])
  {
    if s == "" then ""
    else
      var c := s[0];
      var d := if !IsAsciiLetter(c) then c else if afterLetter then LowerChar(c) else UpperChar(c);
      [d] + Title(s[1..], IsAsciiLetter(c))
  }

  // ---------------------------------------------------------------------------
  // Searching, splitting and joining

  predicate OccursAt(s: string, sep: string, i: nat) {
    i + |sep| <= |s| && s[i..i + |sep|] == sep
  }

  /** The first position at or after `k` where `sep` occurs. */
  function IndexFrom(s: string, sep: string, k: nat): (r: Option<nat>)
    requires k <= |s|
    ensures r.Some? ==> k <= r.value && OccursAt(s, sep, r.value)
    ensures r.Some? ==> forall j :: k <= j < r.value ==> !OccursAt(s, sep, j)
    ensures r.None? ==> forall j :: k <= j <= |s| ==> !OccursAt(s, sep, j)
    decreases |s| - k
  {
    if OccursAt(s, sep, k) then Some(k)
    else if k == |s| then None
    else IndexFrom(s, sep, k + 1)
  }

  /** The first position of `sep` in `s` (`s.find(sep)`, with `None` for -1). */
  function IndexOf(s: string, sep: string): Option<nat> {
    IndexFrom(s, sep, 0)
  }

  /** `s.split(sep)` for a non-empty separator: the pieces between
      non-overlapping occurrences, scanned from the left. */
  function Split(s: string, sep: string): (parts: seq<string>)
    requires |sep| > 0
    ensures |parts| >= 1
    decreases |s|
  {
    match IndexOf(s, sep)
    case None => [s]
    case Some(i) => [s[..i]] + Split(s[i + |sep|..], sep)
  }

  /** `sep.join(parts)`. */
  function Join<T>(parts: seq<seq<T>>, sep: seq<T>): seq<T>
    decreases |parts|
  {
    if |parts| == 0 then []
    else if |parts| == 1 then parts[0]
    else parts[0] + sep + Join(parts[1..], sep)
  }

  /** Joining at least two parts: the first part, the separator, then the
      join of the rest. */
  lemma JoinCons<T>(parts: seq<seq<T>>, sep: seq<T>)
    requires |parts| > 1
    ensures Join(parts, sep) == parts[0] + (sep + Join(parts[1..], sep))
  {
  }

  /** `xs[:limit]` with Python's slice rules: a negative limit counts from
      the end, and either bound is clamped to the length. */
  function SliceTo<T>(xs: seq<T>, limit: int): (r: seq<T>)
    ensures limit >= 0 ==> |r| == if limit < |xs| then limit else |xs|
    ensures limit < 0 ==> |r| == if |xs| + limit > 0 then |xs| + limit else 0
    ensures r == xs[..|r|]
  {
    if limit >= 0 then (if limit < |xs| then xs[..limit] else xs)
    else if |xs| + limit > 0 then xs[..|xs| + limit]
    else []
  }

  function Last<T>(xs: seq<T>): T
    requires |xs| > 0
  {
    xs[|xs| - 1]
  }

  /** The last piece of a split is a suffix of the input. */
  lemma {:induction false} SplitLastSuffix(s: string, sep: string)
    requires |sep| > 0
    ensures IsSuffix(Last(Split(s, sep)), s)
    decreases |s|
  {
    match IndexOf(s, sep)
    case None =>
      assert Split(s, sep) == [s];
    case Some(i) =>
      assert OccursAt(s, sep, i);
      var rest := s[i + |sep|..];
      var tail := Split(rest, sep);
      SplitLastSuffix(rest, sep);
      assert Split(s, sep) == [s[..i]] + tail;
      SuffixOfDrop(Last(tail), s, i + |sep|);
  }

  /** `t` ends `s`. */
  predicate IsSuffix(t: string, s: string) {
    |t| <= |s| && t == s[|s| - |t|..]
  }

  /** A suffix of a suffix is a suffix. */
  lemma SuffixOfDrop(t: string, s: string, d: nat)
    requires d <= |s| && IsSuffix(t, s[d..])
    ensures IsSuffix(t, s)
  {
  }

  /** Splitting and re-joining with the same separator gives back the input. */
  lemma {:induction false} JoinSplit(s: string, sep: string)
    requires |sep| > 0
    ensures Join(Split(s, sep), sep) == s
    decreases |s|
  {
    match IndexOf(s, sep)
    case None =>
    case Some(i) =>
      var rest := s[i + |sep|..];
      var tail := Split(rest, sep);
      var parts := [s[..i]] + tail;
      assert Split(s, sep) == parts;
      assert parts[1..] == tail;
      JoinSplit(rest, sep);
      assert Join(parts, sep) == s[..i] + sep + Join(tail, sep);
      assert s == s[..i] + sep + rest;
  }

  lemma IndexOfSingle(a: string, c: char, b: string)
    requires c !in a
    ensures IndexOf(a + [c] + b, [c]) == Some(|a|)
  {
    var s := a + [c] + b;
    assert OccursAt(s, [c], |a|);
    forall j | 0 <= j < |a|
      ensures !OccursAt(s, [c], j)
    {
      assert s[j] == a[j];
    }
  }

  lemma IndexOfAbsent(a: string, c: char)
    requires c !in a
    ensures IndexOf(a, [c]) == None
  {
    forall j | 0 <= j <= |a|
      ensures !OccursAt(a, [c], j)
    {
      if j + 1 <= |a| {
        assert a[j..j + 1] == [a[j]];
        assert a[j] in a;
      }
    }
  }

  /** Joining pieces that do not contain the separator character and
      splitting again gives back the pieces. */
  lemma {:induction false} SplitJoin(parts: seq<string>, c: char)
    requires |parts| > 0
    requires forall k :: 0 <= k < |parts| ==> c !in parts[k]
    ensures Split(Join(parts, [c]), [c]) == parts
    decreases |parts|
  {
    if |parts| == 1 {
      IndexOfAbsent(parts[0], c);
    } else {
      var head, rest := parts[0], Join(parts[1..], [c]);
      var s := head + [c] + rest;
      assert Join(parts, [c]) == s;
      IndexOfSingle(head, c, rest);
      SplitAt(s, [c], |head|);
      assert s[..|head|] == head;
      assert s[|head| + 1..] == rest;
      SplitJoin(parts[1..], c);
      assert parts == [head] + parts[1..];
    }
  }

  // ---------------------------------------------------------------------------
  // Integers

  function DigitChar(d: nat): char
    requires d < 10
  {
    ('0' as int + d) as char
  }

  /** `str(n)` for a natural number. */
  function NatToString(n: nat): (r: string)
    ensures |r| > 0 && forall k :: 0 <= k < |r| ==> IsDigit(r[k])
  {
    if n < 10 then [DigitChar(n)] else NatToString(n / 10) + [DigitChar(n % 10)]
  }

  /** `str(i)` for an integer. */
  function IntToString(i: int): string {
    if i < 0 then "-" + NatToString(-i) else NatToString(i)
  }

  /** The value of a string of decimal digits (0 for the empty string). */
  function DigitsValue(s: string): nat
    requires forall k :: 0 <= k < |s| ==> IsDigit(s[k])
  {
    if |s| == 0 then 0
    else
      assert IsDigit(s[|s| - 1]);
      DigitsValue(s[..|s| - 1]) * 10 + (s[|s| - 1] as int - '0' as int)
  }

  function Pow10(n: nat): (r: nat)
    ensures r >= 1
  {
    if n == 0 then 1 else 10 * Pow10(n - 1)
  }

  lemma ShiftDigit(x: int, p: int, y: int, d: int)
    ensures (x * p + y) * 10 + d == x * (10 * p) + (y * 10 + d)
  {
  }

  lemma {:induction false} DigitsValueAppend(a: string, b: string)
    requires forall k :: 0 <= k < |a| ==> IsDigit(a[k])
    requires forall k :: 0 <= k < |b| ==> IsDigit(b[k])
    ensures forall k :: 0 <= k < |a + b| ==> IsDigit((a + b)[k])
    ensures DigitsValue(a + b) == DigitsValue(a) * Pow10(|b|) + DigitsValue(b)
    decreases |b|
  {
    if |b| > 0 {
      var b' := b[..|b| - 1];
      var d := b[|b| - 1] as int - '0' as int;
      assert (a + b)[..|a + b| - 1] == a + b';
      assert (a + b)[|a + b| - 1] == b[|b| - 1];
      DigitsValueAppend(a, b');
      assert DigitsValue(a + b) == DigitsValue(a + b') * 10 + d;
      assert DigitsValue(b) == DigitsValue(b') * 10 + d;
      assert Pow10(|b|) == 10 * Pow10(|b'|);
      ShiftDigit(DigitsValue(a), Pow10(|b'|), DigitsValue(b'), d);
    } else {
      assert a + b == a;
    }
  }

  /** Reading back the decimal text of `n` gives `n`. */
  lemma {:induction false} DigitsValueNatToString(n: nat)
    ensures DigitsValue(NatToString(n)) == n
  {
    if n >= 10 {
      var s := NatToString(n);
      assert s[..|s| - 1] == NatToString(n / 10);
      DigitsValueNatToString(n / 10);
    }
  }

  predicate AllDigits(s: string) {
    forall k :: 0 <= k < |s| ==> IsDigit(s[k])
  }

  /** Python's digit grouping in numeric text: ASCII digits with single
      underscores between them. Gives the digits alone, or `None` when the
      text is empty, starts or ends with an underscore, or has two in a
      row. */
  function Ungroup(s: string): (r: Option<string>)
    ensures r.Some? ==> |r.value| > 0 && AllDigits(r.value)
  {
    if |s| == 0 || !IsDigit(s[0]) then None
    else if |s| == 1 then Some(s)
    else
      var rest := if s[1] == '_' then s[2..] else s[1..];
      match Ungroup(rest)
      case None => None
      case Some(d) => Some([s[0]] + d)
  }

  /** Plain digits are their own grouping. */
  lemma {:induction false} UngroupDigits(s: string)
    requires |s| > 0 && AllDigits(s)
    ensures Ungroup(s) == Some(s)
  {
    if |s| > 1 {
      assert s[1] != '_' by {
        assert IsDigit(s[1]);
      }
      UngroupDigits(s[1..]);
      assert [s[0]] + s[1..] == s;
    }
  }

  /** An optionally signed, optionally underscore-grouped run of ASCII
      digits, without surrounding space. */
  function ParseSignedDigits(t: string): (r: Option<int>)
    ensures r.Some? ==> |t| > 0
  {
    if |t| > 0 && (t[0] == '-' || t[0] == '+') then
      match Ungroup(t[1..])
      case None => None
      case Some(d) =>
        var v: int := DigitsValue(d);
        Some(if t[0] == '-' then -v else v)
    else
      match Ungroup(t)
      case None => None
      case Some(d) => Some(DigitsValue(d))
  }

  /** Python's `int(s)` for a string: surrounding whitespace, an optional sign
      and one or more ASCII digits, single underscores allowed between
      digits; anything else raises `ValueError` (`None` here). */
  function ParseInt(s: string): Option<int> {
    ParseSignedDigits(Strip(s))
  }

  /** `int(str(i)) == i`. */
  lemma ParseIntToString(i: int)
    ensures ParseInt(IntToString(i)) == Some(i)
  {
    StripIntText(i);
    if i < 0 {
      SignedDigitsNegative(-i, IntToString(i));
    } else {
      SignedDigitsNat(i);
    }
  }

  lemma SignedDigitsNat(n: nat)
    ensures ParseSignedDigits(NatToString(n)) == Some(n)
  {
    var s := NatToString(n);
    assert IsDigit(s[0]);
    UngroupDigits(s);
    DigitsValueNatToString(n);
  }

  lemma SignedDigitsNegative(n: nat, s: string)
    requires n > 0 && s == "-" + NatToString(n)
    ensures ParseSignedDigits(s) == Some(-(n as int))
  {
    var d := NatToString(n);
    assert s[1..] == d;
    UngroupDigits(d);
    DigitsValueNatToString(n);
  }

  /** The decimal text of an integer has no surrounding whitespace. */
  lemma StripIntText(i: int)
    ensures Strip(IntToString(i)) == IntToString(i)
  {
    var s := IntToString(i);
    var d := NatToString(if i < 0 then -i else i);
    assert IsDigit(d[|d| - 1]);
    if i < 0 {
      assert s == "-" + d;
      assert s[0] == '-' && s[|s| - 1] == d[|d| - 1];
    } else {
      assert s == d && IsDigit(d[0]);
    }
    StripByNoop(s, IsSpace);
  }

  /** An underscore between two digit runs is dropped. */
  lemma {:induction false} UngroupUnderscore(d: string, e: string)
    requires |d| > 0 && AllDigits(d) && |e| > 0 && AllDigits(e)
    ensures Ungroup(d + "_" + e) == Some(d + e)
  {
    var s := d + "_" + e;
    if |d| == 1 {
      assert s[0] == d[0] && s[1] == '_' && s[2..] == e;
      UngroupDigits(e);
      assert [d[0]] + e == d + e;
    } else {
      assert IsDigit(d[1]);
      assert s[1..] == d[1..] + "_" + e;
      UngroupUnderscore(d[1..], e);
      assert [d[0]] + (d[1..] + e) == d + e;
    }
  }

  /** Underscores may group digits: `int("1_000") == 1000`. */
  lemma ParseIntGrouped(d: string, e: string)
    requires |d| > 0 && AllDigits(d) && |e| > 0 && AllDigits(e)
    ensures ParseInt(d + "_" + e) == Some(DigitsValue(d + e))
  {
    var s := d + "_" + e;
    assert IsDigit(s[0]) && IsDigit(s[|s| - 1]);
    StripByNoop(s, IsSpace);
    UngroupUnderscore(d, e);
  }

  /** `s.split(c)` distributes over an occurrence of `c`. */
  lemma {:induction false} SplitAppend(a: string, c: char, b: string)
    ensures Split(a + [c] + b, [c]) == Split(a, [c]) + Split(b, [c])
    decreases |a|
  {
    var found := IndexOf(a, [c]);
    if found.None? {
      SplitAppendAbsent(a, c, b);
    } else {
      var i := found.value;
      SplitAppendFound(a, c, b, i);
      SplitAppend(a[i + 1..], c, b);
      SplitAppendCombine(a, c, b, i);
    }
  }

  /** The inductive step of `SplitAppend`: both sides start with the piece
      before the first `c` of `a`. */
  lemma SplitAppendCombine(a: string, c: char, b: string, i: nat)
    requires IndexOf(a, [c]) == Some(i) && i < |a|
    requires Split(a + [c] + b, [c]) == [a[..i]] + Split(a[i + 1..] + [c] + b, [c])
    requires Split(a[i + 1..] + [c] + b, [c]) == Split(a[i + 1..], [c]) + Split(b, [c])
    ensures Split(a + [c] + b, [c]) == Split(a, [c]) + Split(b, [c])
  {
    var head, a' := a[..i], a[i + 1..];
    calc {
      Split(a + [c] + b, [c]);
      [head] + (Split(a', [c]) + Split(b, [c]));
      ([head] + Split(a', [c])) + Split(b, [c]);
      { SplitAt(a, [c], i); }
      Split(a, [c]) + Split(b, [c]);
    }
  }

  /** When `a` has no `c`, the first piece is `a` itself. */
  lemma SplitAppendAbsent(a: string, c: char, b: string)
    requires IndexOf(a, [c]).None?
    ensures Split(a, [c]) == [a]
    ensures Split(a + [c] + b, [c]) == [a] + Split(b, [c])
  {
    var s := a + [c] + b;
    IndexOfAbsent'(a, c);
    IndexOfSingle(a, c, b);
    SplitAt(s, [c], |a|);
    assert s[..|a|] == a;
    assert s[|a| + 1..] == b;
  }

  /** When `a` has a `c` at `i`, so does `a + [c] + b`. */
  lemma SplitAppendFound(a: string, c: char, b: string, i: nat)
    requires IndexOf(a, [c]) == Some(i)
    ensures i < |a|
    ensures Split(a + [c] + b, [c]) == [a[..i]] + Split(a[i + 1..] + [c] + b, [c])
  {
    var s := a + [c] + b;
    assert OccursAt(a, [c], i);
    IndexOfPrefix(a, c, [c] + b, i);
    assert s == a + ([c] + b);
    SplitAt(s, [c], i);
    assert s[..i] == a[..i];
    assert s[i + 1..] == a[i + 1..] + [c] + b;
  }

  /** One step of `Split`: the piece before the first separator, then the
      split of the rest. */
  lemma SplitAt(s: string, sep: string, i: nat)
    requires |sep| > 0 && IndexOf(s, sep) == Some(i)
    ensures Split(s, sep) == [s[..i]] + Split(s[i + |sep|..], sep)
  {
  }

  lemma IndexOfAbsent'(a: string, c: char)
    requires IndexOf(a, [c]).None?
    ensures c !in a
  {
    if c in a {
      var j :| 0 <= j < |a| && a[j] == c;
      assert a[j..j + 1] == [c];
      assert OccursAt(a, [c], j);
    }
  }

  /** A first occurrence inside a prefix stays the first occurrence. */
  lemma IndexOfPrefix(a: string, c: char, rest: string, i: nat)
    requires IndexOf(a, [c]) == Some(i)
    ensures IndexOf(a + rest, [c]) == Some(i)
  {
    var s := a + rest;
    assert s[i..i + 1] == a[i..i + 1];
    forall j | 0 <= j < i
      ensures !OccursAt(s, [c], j)
    {
      assert s[j..j + 1] == a[j..j + 1];
      assert !OccursAt(a, [c], j);
    }
    FirstOccurrence(s, [c], i);
  }

  lemma FirstOccurrence(s: string, sep: string, i: nat)
    requires OccursAt(s, sep, i)
    requires forall j :: 0 <= j < i ==> !OccursAt(s, sep, j)
    ensures IndexOf(s, sep) == Some(i)
  {
  }

  /** A string without the separator character splits into itself. */
  lemma SplitNoSeparator(s: string, c: char)
    requires c !in s
    ensures Split(s, [c]) == [s]
  {
    IndexOfAbsent(s, c);
  }
}

=== FILE: wrappers.dfy ===
/** Option and Result types used across the model in place of Python's `None`
    and raised exceptions. */
module Wrappers {

  /** A value that may be absent (Python's `Optional[T]`). */
  datatype Option<+T> = None | Some(value: T) {

    /** The wrapped value, or `default` when absent. */
    function GetOr(default: T): T {
      match this
      case Some(v) => v
      case None => default
    }
  }

  /** The outcome of an operation that may raise: `Ok` carries the return
      value, `Err` the exception that would have propagated. */
  datatype Result<+R, +E> = Ok(value: R) | Err(error: E) {

    predicate IsFailure() {
      Err?
    }

    function PropagateFailure<U>(): Result<U, E>
      requires Err?
    {
      Err(error)
    }

    function Extract(): R
      requires Ok?
    {
      value
    }
  }
}
